=== FILE: README.md ===
# Barangay resident records — front-end logic in Dafny

This project models the React front end of a barangay (village) records
system. Staff sign in as an administrator or a barangay official. They keep
resident records, look at dashboards and per-purok (neighbourhood) and
per-household summaries, issue clearances and residency certificates, and
handle the document requests residents file from the public landing page.
The back end stores every record in Redis hashes, so every resident field
reaches the screens as a string.

The model keeps what the screens compute from that data:

- the statistics and chart series of the dashboard;
- the purok and household tables, with their searches, sorts and report figures;
- the resident list's search, per-field sort, groupings, CSV rows and edit form;
- the add-resident form, with the age it derives from the birthdate;
- the document-request filters and approval workflow;
- the notification bell of both staff shells;
- the sign-in form, the role normalisation and the route guard;
- the residency-verification and contact-directory screens.

Modules follow the screens:

- `Residents`, `Users`: the records.
- `Js`, `Text`, `Dates`, `Lists`, `Sorting`, `Tables`: JavaScript semantics the screens rely on. These cover `toLowerCase`, `includes`, `trim`, `Number(...)`, `filter`, `reduce` into an object, stable `sort`, and `yyyy-MM-dd` dates.
- `Dashboard`, `Purok`, `Household`, `ResidentList`, `NewResident`, `Requests`, `Notifications`, `Login`, `Routes`, `Verification`, `Contacts`: one per screen.

The read-only resident list of the official section
(`ViewResidentList.js`) repeats the resident list's `formatDate`, search,
sort, household grouping, sex split and CSV rows line for line, and the official
shell (`BarangayOfficial.js`) repeats the admin shell's notification
preview and resize rule. The same members model both copies.

Every operation is a pure function from the screen's state and inputs to
its next state or output. The server's reply, the clock's reading and the
window width are parameters.

## Model

| member | source | states |
|---|---|---|
| Residents.Set | redis-frontend/src/Dashboard/Components/ResidentList.js:113-119 | an input edit gives the named field the new value and leaves the other fifteen fields as they were |
| Residents.SetLaws | redis-frontend/src/Dashboard/Components/ResidentList.js:113-119 | writing back a field's own value changes nothing, and a later edit of a field overrides an earlier one |
| Residents.Values | redis-frontend/src/Dashboard/Components/ResidentList.js:209-213 | `Object.values(resident)` lists the sixteen field values in field order |
| Residents.ValuesHasEveryField | redis-frontend/src/Dashboard/Components/ResidentList.js:209-213 | every field's value is among the values the search scans |
| Sorting.Order.Toggle | redis-frontend/src/Dashboard/Components/ResidentList.js:299 | the order button always switches between ascending and descending |
| Sorting.ToggleInvolutive | redis-frontend/src/Dashboard/Components/ResidentList.js:299 | pressing the order button twice restores the order |
| Sorting.SortStable | redis-frontend/src/Dashboard/Components/ResidentList.js:216-243 | the sort is stable: the elements sharing any one key come out in the order they went in |
| Residents.FormatDate | redis-frontend/src/Dashboard/Components/ResidentList.js:15-19 | an empty date prints "N/A"; otherwise a `yyyy-MM-dd` date of a real day prints back unchanged, and any other text throws (an impossible day such as 2023-02-29 included, see Left out) |
| Residents.FormatStoredDate | redis-frontend/src/Dashboard/Components/ResidentList.js:15-19 | a date in the form the add screen stores is displayed as it is |
| Residents.PlaceholderIsNotADate | redis-frontend/src/Dashboard/Components/ResidentList.js:15-19 | formatting the placeholder "N/A" throws |
| Dates.ParseOfIso | redis-frontend/src/Dashboard/Components/Addresident.js:102-104 | reading a printed `yyyy-MM-dd` date gives back the day that was printed |
| Dates.IsoOfParse | redis-frontend/src/Dashboard/Components/ResidentList.js:17-18 | printing a parsed date gives back the exact text that was parsed |
| Dates.SerialIsChronological | redis-frontend/src/Dashboard/Components/ResidentList.js:235-238 | for real days, the number the birthdate comparator subtracts orders days chronologically |
| Dashboard.TotalPuroks | redis-frontend/src/Dashboard/Components/Dashboard.js:55 | the count is the number of distinct purok values; it is at most the number of residents and positive when there are residents |
| Dashboard.TotalHouseholds | redis-frontend/src/Dashboard/Components/Dashboard.js:56 | the count is the number of distinct household values, with the same bounds |
| Dashboard.StaffCounts | redis-frontend/src/Dashboard/Components/Dashboard.js:61-62 | admins plus officials are the staff users, and there are no more of them than users |
| Dashboard.CountBy | redis-frontend/src/Dashboard/Components/Dashboard.js:126-130 | the bars are the distinct labels in first-seen order, each bar counts the residents with its label, and the bars add up to all residents |
| Dashboard.NoEmptyBars | redis-frontend/src/Dashboard/Components/Dashboard.js:66-70 | a label that occurs in the data has a bar greater than zero |
| Dashboard.ResidentsPerPurok | redis-frontend/src/Dashboard/Components/Dashboard.js:65-85 | one bar per distinct purok ("Unknown" for a blank one), ascending by number; each bar is that purok's positive head count; the bars sum to all residents |
| Dashboard.EmploymentChart | redis-frontend/src/Dashboard/Components/Dashboard.js:125-147 | one slice per distinct employment status ("Unknown" for blank), each the positive count of residents with it, summing to all residents |
| Dashboard.EducationChart | redis-frontend/src/Dashboard/Components/Dashboard.js:149-171 | the same for educational attainment |
| Dashboard.AgeGroup | redis-frontend/src/Dashboard/Components/Dashboard.js:90-96 | an age lands in the first bracket whose upper bound 5, 12, 18, 35, 59 it does not exceed; an unreadable age falls through to "60+" |
| Dashboard.MissingAgeIsYoungest | redis-frontend/src/Dashboard/Components/Dashboard.js:90-91 | a resident with no recorded age counts as 0 and lands in "0-5" |
| Dashboard.AgeDistribution | redis-frontend/src/Dashboard/Components/Dashboard.js:87-108 | six brackets, each counting the residents whose age falls in it, summing to all residents |
| Dashboard.SexRatio | redis-frontend/src/Dashboard/Components/Dashboard.js:110-123 | the two slices count the "Male" and "Female" residents, and together they count those who are either, at most all residents |
| Dashboard.VoterRegistration | redis-frontend/src/Dashboard/Components/Dashboard.js:173-176 | registered plus not registered is every resident |
| Tables.Table | redis-frontend/src/Dashboard/Components/PurokManagement.js:50-85 | one row per distinct key, each summarising exactly the residents with that key; keys are unique, rows are sorted, and the group sizes add up to all residents |
| Purok.Summarize | redis-frontend/src/Dashboard/Components/PurokManagement.js:53-83 | a purok's entry counts its residents; lists each of its households once; counts its employed residents and its registered voters, each no more than the residents |
| Purok.PurokTable | redis-frontend/src/Dashboard/Components/PurokManagement.js:50-85 | one entry per distinct purok, each the summary of exactly its residents, unique, sorted by purok number, totals adding up to all residents |
| Purok.Search | redis-frontend/src/Dashboard/Components/PurokManagement.js:95-102 | the shown entries are, in order, the entries whose purok number contains the term ignoring case |
| Purok.EmptySearchShowsAll | redis-frontend/src/Dashboard/Components/PurokManagement.js:98-100 | the empty term shows every entry |
| Purok.SortByPopulation | redis-frontend/src/Dashboard/Components/PurokManagement.js:104-114 | the shown entries are permuted into the current order by total residents, and the order flips for the next click |
| Purok.PopulationOrder | redis-frontend/src/Dashboard/Components/PurokManagement.js:105-111 | neighbouring rows after the sort compare as the current order says |
| Purok.MaxOf | redis-frontend/src/Dashboard/Components/PurokManagement.js:122 | the maximum bounds every entry's measure and is attained by one |
| Purok.MostBy | redis-frontend/src/Dashboard/Components/PurokManagement.js:122-130 | the kept entries are exactly those attaining the maximum, in order, and there is one whenever there are entries |
| Purok.MostPopulated | redis-frontend/src/Dashboard/Components/PurokManagement.js:122-125 | the report's most populated puroks are exactly those no purok outnumbers |
| Purok.MostHouseholds | redis-frontend/src/Dashboard/Components/PurokManagement.js:127-130 | the puroks with the most households are exactly those no purok has more households than |
| Purok.VotersPerPurok | redis-frontend/src/Dashboard/Components/PurokManagement.js:137-140 | one voter line per entry, in order, with its purok and registered count |
| Purok.VotersAddUp | redis-frontend/src/Dashboard/Components/PurokManagement.js:69-71 | the per-purok registered voters add up to the dashboard's registered count |
| Household.LastHeadIndex | redis-frontend/src/Dashboard/Components/HouseholdManagement.js:52-54 | the index is -1 iff no member is a head; otherwise that member is a head and no later member is |
| Household.HeadName | redis-frontend/src/Dashboard/Components/HouseholdManagement.js:63 | the head shown is never empty |
| Household.HeadIsLastHead | redis-frontend/src/Dashboard/Components/HouseholdManagement.js:52-54 | with several heads, the last one in input order is shown |
| Household.NoHeadIsUnknown | redis-frontend/src/Dashboard/Components/HouseholdManagement.js:48-63 | a household without a head shows "Unknown" |
| Household.Summarize | redis-frontend/src/Dashboard/Components/HouseholdManagement.js:61-66 | the row keeps its number and head, and its members are the group's residents permuted into ascending id order |
| Household.HouseholdTable | redis-frontend/src/Dashboard/Components/HouseholdManagement.js:44-67 | one non-empty row per distinct household ("Unknown" for blank), unique, sorted by number, member counts adding up to all residents |
| Household.ResidentInOwnHousehold | redis-frontend/src/Dashboard/Components/HouseholdManagement.js:44-55 | a resident is a member of a row iff the row is that resident's household |
| Household.Search | redis-frontend/src/Dashboard/Components/HouseholdManagement.js:172-180 | the shown households are, in order, those whose number contains the trimmed term |
| Household.BlankSearchShowsAll | redis-frontend/src/Dashboard/Components/HouseholdManagement.js:177 | a term of white space only shows every household |
| Household.Find | redis-frontend/src/Dashboard/Components/HouseholdManagement.js:78-79 | `find` gives nothing iff no household has the number, and otherwise the first that does |
| Household.ViewFindsTheHousehold | redis-frontend/src/Dashboard/Components/HouseholdManagement.js:78-82 | viewing a row of the table opens that very household |
| ResidentList.MatchesIffSomeField | redis-frontend/src/Dashboard/Components/ResidentList.js:209-213 | a resident matches iff one of its sixteen values contains the query, ignoring case |
| ResidentList.Search | redis-frontend/src/Dashboard/Components/ResidentList.js:209-213 | the shown residents are, in order, exactly the matching ones |
| ResidentList.EmptyQueryShowsAll | redis-frontend/src/Dashboard/Components/ResidentList.js:209-213 | the empty query hides nobody |
| ResidentList.SortResidents | redis-frontend/src/Dashboard/Components/ResidentList.js:216-243 | the rows are a permutation of the shown residents, ordered by the selected comparator |
| ResidentList.NumericSortOrder | redis-frontend/src/Dashboard/Components/ResidentList.js:217-228 | for "fullDetails" and the numeric fields, the numbers never decrease (ascending) or never increase (descending) |
| ResidentList.HouseholdSortIsNumeric | redis-frontend/src/Dashboard/Components/ResidentList.js:229-234 | for household numbers of up to ten digits, the zero-padded text order is numeric order |
| ResidentList.GroupByHousehold | redis-frontend/src/Dashboard/Components/ResidentList.js:246-256 | groups by household number with unique keys, each an in-order subsequence of the rows; every row sits in its own household's group and the sizes add up |
| ResidentList.HouseholdGroupsPartition | redis-frontend/src/Dashboard/Components/ResidentList.js:246-256 | every row is in exactly one group |
| ResidentList.SexView | redis-frontend/src/Dashboard/Components/ResidentList.js:408-439 | the male rows come first and then the female rows, each block keeping sort order; other sexes are not listed |
| ResidentList.SexViewFacts | redis-frontend/src/Dashboard/Components/ResidentList.js:408-439 | every row of the male block is male and every row of the female block is female |
| ResidentList.CsvRow | redis-frontend/src/Dashboard/Components/ResidentList.js:128-145 | a row exists iff the birthdate formats; it has one cell per column in field order, and its birthdate cell is "N/A" iff the birthdate is empty |
| ResidentList.ExportCsv | redis-frontend/src/Dashboard/Components/ResidentList.js:122-146 | a cancelled or empty file-name prompt changes nothing and saves nothing; otherwise the stored residents are left permuted into id order, even when a row fails, and a file named after the answer is saved iff every birthdate formats, with one row per resident, rows ordered by id, every resident having a row and every row being a resident's (one-to-one when the residents are distinct) |
| ResidentList.ExportChangesTieOrder | redis-frontend/src/Dashboard/Components/ResidentList.js:125-127 | two residents of the same sex fetched with the larger id first keep that order under the "sex" sort, but after an ascending export the same sort shows them smaller id first |
| ResidentList.SameSexKeepsOrder | redis-frontend/src/Dashboard/Components/ResidentList.js:239-242 | the "sex" sort is stable: the residents of any one sex keep their relative order |
| ResidentList.ExportPutsLowerIdFirst | redis-frontend/src/Dashboard/Components/ResidentList.js:125-127 | an ascending export under any non-empty file name moves the resident with the smaller id to the front of the stored list |
| ResidentList.OneSexStays | redis-frontend/src/Dashboard/Components/ResidentList.js:239-242 | when every resident has the same sex, the "sex" sort returns the list unchanged |
| ResidentList.EditSubmit | redis-frontend/src/Dashboard/Components/ResidentList.js:95-101 | the update is sent iff the birthdate formats; only the birthdate may change, and a non-empty one is kept as typed |
| ResidentList.EditSubmitStoresUnreadableDate | redis-frontend/src/Dashboard/Components/ResidentList.js:99-100 | an empty birthdate is saved as "N/A", which then cannot be displayed or exported |
| ResidentList.EditSubmitKeepingEmpty | redis-frontend/src/Dashboard/Components/ResidentList.js:95-101 | the corrected submit sends the record unchanged whenever it is sent |
| ResidentList.SavedRecordStaysReadable | redis-frontend/src/Dashboard/Components/ResidentList.js:15-19 | what the corrected submit saves can be displayed and exported again |
| NewResident.AgeOn | redis-frontend/src/Dashboard/Components/Addresident.js:51-58 | the age is the number of birthdays that have passed: this year's anniversary has come and next year's has not |
| NewResident.AgeIsCompletedYears | redis-frontend/src/Dashboard/Components/Addresident.js:51-58 | that number is unique |
| NewResident.BirthdayTurnsOver | redis-frontend/src/Dashboard/Components/Addresident.js:55-57 | on the birthday the age is the year difference, and on the day before it is one less |
| NewResident.AgeMonotone | redis-frontend/src/Dashboard/Components/Addresident.js:51-58 | ages never go down as the date advances |
| NewResident.CalculateAge | redis-frontend/src/Dashboard/Components/Addresident.js:47-61 | empty iff no birthdate is picked; otherwise a numeral that reads back as the age |
| NewResident.InputChange | redis-frontend/src/Dashboard/Components/Addresident.js:36-38 | only the named field changes |
| NewResident.DateChange | redis-frontend/src/Dashboard/Components/Addresident.js:40-45 | the birthdate and its age change together and every other field is kept |
| NewResident.Outgoing | redis-frontend/src/Dashboard/Components/Addresident.js:101-109 | the record sent carries the picked day as `yyyy-MM-dd` text that reads back as that day, or "" when none was picked; all other fields are as typed |
| NewResident.Submit | redis-frontend/src/Dashboard/Components/Addresident.js:93-139 | a record is sent iff the trimmed id and name are non-empty; success clears the form and any failure leaves it as it was |
| NewResident.SentBirthdateDisplays | redis-frontend/src/Dashboard/Components/Addresident.js:102-104 | the resident list can show every birthdate the form sends |
| NewResident.ClearedFormIsEmpty | redis-frontend/src/Dashboard/Components/Addresident.js:17-34 | the cleared form is empty except for the role "Other", and cannot be saved as it is |
| Requests.FilterRequests | redis-frontend/src/Dashboard/Components/DocumentRequests.js:68-82 | the shown requests are, in order, exactly those passing the status filter, the type filter and the search |
| Requests.NoFilterShowsAll | redis-frontend/src/Dashboard/Components/DocumentRequests.js:70-79 | with both filters at "All" and an empty query, every request is shown |
| Requests.UpdateStatus | redis-frontend/src/Dashboard/Components/DocumentRequests.js:43-45 | the requests with the id get the new status; every other request is untouched |
| Requests.DisplayStatus | redis-frontend/src/Dashboard/Components/DocumentRequests.js:168-181 | the status shown is never empty, and it reads "Pending" iff Approve/Reject are offered |
| Requests.BadgeOf | redis-frontend/src/Dashboard/Components/DocumentRequests.js:164-166 | green iff approved, red iff rejected, amber otherwise |
| Requests.DecisionIsFinal | redis-frontend/src/Dashboard/Components/DocumentRequests.js:43-181 | once `updateStatus` has approved or rejected a request, the Approve and Reject buttons, shown only while it is pending, are gone for it |
| Notifications.AdminFetch | redis-frontend/src/Dashboard/Admin.js:68-74 | `viewed` is read as true for `true` or "true"; the badge counts the raw requests that are neither, which is the unread count of the stored list |
| Notifications.RecountAfterMark | redis-frontend/src/Dashboard/Admin.js:88-90 | flagging by id removes exactly the unread requests with that id from the unread count |
| Notifications.AdminMarkAsViewed | redis-frontend/src/Dashboard/Admin.js:88-91 | the request with the id is flagged and the badge drops by one |
| Notifications.AdminMarkStaysConsistentIff | redis-frontend/src/Dashboard/Admin.js:88-91 | the badge stays equal to the unread count iff exactly one unread request has the id |
| Notifications.AdminBadgeDrifts | redis-frontend/src/Dashboard/Admin.js:91 | opening an already-viewed request makes the badge -1 while nothing is unread |
| Notifications.AdminMarkAsViewedRecount | redis-frontend/src/Dashboard/Admin.js:88-91 | the corrected step flags the request and keeps the badge equal to the unread count |
| Notifications.RecountAgreesWhenDecrementIsRight | redis-frontend/src/Dashboard/Admin.js:91 | the recount never goes negative and equals the decrement whenever the decrement is right |
| Notifications.OfficialFetch | redis-frontend/src/Dashboard/BarangayOfficial.js:54-60 | only the string "true" counts as viewed; the badge counts the rest, never fewer than the admin shell counts |
| Notifications.OfficialMarkAsViewed | redis-frontend/src/Dashboard/BarangayOfficial.js:75-80 | the requests whose `_id` matches are flagged, the others are untouched, and the badge takes the server's count |
| Notifications.Preview | redis-frontend/src/Dashboard/Admin.js:164 | the dropdown shows the first five requests, or all of them if there are fewer |
| Notifications.Resize | redis-frontend/src/Dashboard/Admin.js:36-38 | the sidebar is closed iff the window is narrower than 768 pixels |
| Notifications.ToggleSidebar | redis-frontend/src/Dashboard/Admin.js:148 | the menu icon flips the sidebar and nothing else |
| Login.ScanEmail | redis-frontend/src/Login.js:51 | the scan accepts exactly the text the unanchored pattern `\S+@\S+\.\S+` matches somewhere |
| Login.EmailLikeShape | redis-frontend/src/Login.js:51 | accepted text has at least five characters and an `@` with a `.` after it |
| Login.EmailExamples | redis-frontend/src/Login.js:51 | "admin@gmail.com" passes, "admin@gmail" fails, and text with spaces around an address-like part passes |
| Login.ValidateForm | redis-frontend/src/Login.js:46-60 | the form passes iff both fields are filled, the email matches and the password has six or more characters; otherwise the first failing check's message is given |
| Login.AcceptedEmailHasShape | redis-frontend/src/Login.js:46-60 | a form that passes has an email of five or more characters and a password of six or more |
| Login.NormalizeRole | redis-frontend/src/Login.js:98-102 | the role keeps its length and its lower-case form; it becomes "barangayOfficial" iff it is any spelling of that word, and otherwise it is lower-cased |
| Login.NormalizeRoleIdempotent | redis-frontend/src/Login.js:98-102 | normalising twice is normalising once |
| Login.RoutedRolesAreNormal | redis-frontend/src/Login.js:98-102 | "admin" and "barangayOfficial" are left as they are |
| Login.Landing | redis-frontend/src/Login.js:188-194 | an admin lands on the admin dashboard, an official on the official dashboard, anyone else on "/" |
| Login.HandleLogin | redis-frontend/src/Login.js:105-204 | an invalid form gives its message; a signed-in user has a normalised role and lands on that role's dashboard; outside the predefined accounts, sign-in needs a server reply with a user, stored with its role normalised |
| Login.PredefinedNeedsNoServer | redis-frontend/src/Login.js:128-155 | a predefined account with its exact password signs in under the lower-cased email whatever the server would say |
| Login.AdminAccountSignsIn | redis-frontend/src/Login.js:114-151 | the predefined admin account passes the form's checks and lands on the admin dashboard |
| Login.OfficialAccountSignsIn | redis-frontend/src/Login.js:114-151 | the predefined official account lands on the official dashboard |
| Login.SetField | redis-frontend/src/Login.js:385-433 | only the named request field changes, as each input's inline setter does (the unused `handleRequestChange` has the same effect) |
| Login.SubmitRequest | redis-frontend/src/Login.js:72-95 | a request is accepted iff name, address, contact and purpose are filled and the server accepts; acceptance closes the modal and resets the form to "Barangay Clearance"; anything else leaves the screen as it was |
| Login.FilledFormIsSent | redis-frontend/src/Login.js:75-90 | filling the four inputs is enough, whatever document type is chosen |
| Login.ToggleLoginForm | redis-frontend/src/Login.js:29-32 | the login form flips and the request modal closes |
| Login.ToggleRequestModal | redis-frontend/src/Login.js:35-38 | the request modal flips and the login form closes |
| Login.OpenRequestModal | redis-frontend/src/Login.js:270-275 | the navigation link opens the modal and leaves the login form as it is |
| Login.CloseRequestModal | redis-frontend/src/Login.js:374 | closing the modal leaves the login form as it is |
| Login.OverlayLaws | redis-frontend/src/Login.js:29-38 | toggling twice restores the overlay with the other one closed; the toggles never leave both open, while the navigation link can |
| Routes.Child | redis-frontend/src/Dashboard/Admin.js:199-211 | a page path finds a page iff the shell declares it, and the page found is the one declared |
| Routes.Route | redis-frontend/src/App.js:23-82 | a section renders only for a user admitted by its guard, and a refused section redirects to "/"; the bare section path shows the dashboard, a two-segment path shows only a page of its own shell's table, and anything deeper shows no page |
| Routes.SectionIndexIsDashboard | redis-frontend/src/Dashboard/Admin.js:200 | the bare `/admin` or `/barangayOfficial` path leads to the same view as that section's dashboard path |
| Routes.RestrictedPages | redis-frontend/src/Dashboard/Admin.js:199-211 | whoever sees add-resident or user management has the admin role, and whoever sees the read-only list has the official role, in any spelling |
| Routes.SectionsExclusive | redis-frontend/src/App.js:30-33 | no user passes both guards |
| Routes.GuardIgnoresNormalization | redis-frontend/src/App.js:30-33 | the guard admits a normalised role exactly where it admits the original one |
| Routes.SignInLandsOnDashboard | redis-frontend/src/App.js:23-34 | after sign-in the router shows the user's own dashboard, or the login page for other roles |
| Verification.Search | redis-frontend/src/Dashboard/Components/ResidencyVerification.js:151-156 | the shown residents are, in order, exactly those whose name or address contains the term ignoring case, or whose purok contains it as typed |
| Verification.EmptyTermShowsAll | redis-frontend/src/Dashboard/Components/ResidencyVerification.js:151-156 | the empty term shows everybody |
| Verification.HandleSearch | redis-frontend/src/Dashboard/Components/ResidencyVerification.js:147-159 | each new term filters all the fetched residents, not the previous result |
| Residents.ByName | redis-frontend/src/Dashboard/Components/ResidencyVerification.js:193-194 | the table is its rows permuted into name order; the contact directory sorts its rows with the same comparator (`ContactDirectory.js` lines 81-82) |
| Verification.TableRowsAreMatches | redis-frontend/src/Dashboard/Components/ResidencyVerification.js:147-194 | after any search, a resident has a row iff they were fetched and match the new term |
| Verification.Parts | redis-frontend/src/Dashboard/Components/ResidencyVerification.js:104-139 | the header opens every document and the signature, issuance and reference blocks close it; title, resident block and statement appear iff the type is a clearance or a certificate |
| Verification.Titles | redis-frontend/src/Dashboard/Components/ResidencyVerification.js:110-130 | a clearance is titled "Barangay Clearance", a certificate "Certificate of Residency" and names the resident and years of stay |
| Verification.FileName | redis-frontend/src/Dashboard/Components/ResidencyVerification.js:142 | the file name is the type, an underscore, the resident's name and ".pdf" |
| Verification.Generate | redis-frontend/src/Dashboard/Components/ResidencyVerification.js:43-144 | a document is produced iff a resident is chosen, with the parts and name above, and the modal closes |
| Verification.ButtonsCertifyTheResident | redis-frontend/src/Dashboard/Components/ResidencyVerification.js:204-212 | either row button produces a document carrying that resident's details and name |
| Contacts.Directory | redis-frontend/src/Dashboard/Components/ContactDirectory.js:24-26 | the directory keeps, in order, exactly the residents with a phone number |
| Contacts.Search | redis-frontend/src/Dashboard/Components/ContactDirectory.js:40-45 | the shown contacts are, in order, those whose name contains the term ignoring case or whose purok or household contains it as typed |
| Contacts.SearchShowsOnlyContacts | redis-frontend/src/Dashboard/Components/ContactDirectory.js:40 | search results are always fetched residents with a phone |
| Contacts.EmptyTermShowsDirectory | redis-frontend/src/Dashboard/Components/ContactDirectory.js:42-44 | the empty term keeps the whole directory |
| Contacts.RowsAreMatchingContacts | redis-frontend/src/Dashboard/Components/ContactDirectory.js:24-82 | a resident has a row iff they were fetched, have a phone and match the term |

## Left out

- HTTP traffic, toasts, polling intervals and navigation delays are not modelled. Each server reply is a parameter, and only the resulting state change is modelled.
- `localStorage`, dark-mode persistence, `window.open`, print windows, file downloads and resize listeners are left out. They are browser plumbing. The stored user is the `user` argument of `Routes.Route`.
- PDF drawing is left out: coordinates, fonts, the logo, `html2canvas` and the purok report's PDF export. These belong to foreign rendering libraries. `Verification.Parts` keeps only which blocks appear, and in what order.
- The issuance date (`toLocaleDateString`) and the `Math.random` reference number are left out. They depend on the clock and on randomness.
- Percentages built with `toFixed` are left out: the dashboard labels and the purok `employmentRate`. They are floating-point text.
- Chart.js options, colours and label text such as "Purok 3" and "Male (4)" are not modelled. Only the data series are.
- Dashboard.ResidentsPerPurok: its keys are sorted by their numeric value, and equal keys keep their first-seen order. The engine's own enumeration of integer-like object keys is not modelled. A non-numeric key such as "Unknown" makes the comparator return `NaN`, and the model orders it as 0.
- Purok.PurokTable: `Object.entries` order is first-seen order. This is the same simplification.
- Household.HouseholdTable: the same simplification for the household table.
- ResidentList.GroupByHousehold: the groups come out in first-seen order, but the screen lists them in the engine's `Object.entries` order, which puts integer-like keys first in numeric order. The model promises no group order.
- ResidentList.SortKey: a comparison that gives `NaN` is not modelled. This happens with an empty or unreadable birthdate in `aDate - bDate`, and with a non-numeric value in `a[f] - b[f]`. The engine treats `NaN` as "equal", so its comparator is inconsistent and the resulting order is unspecified. The model gives such a resident the key 0 (for birthdates, 0000-01-01) and sorts consistently. For example, [A 2000-01-01, E empty, B 1990-01-01] stays [A, E, B] in the engine but becomes [E, B, A] in the model.
- ResidentList.IdKey: the export's `a.id - b.id` has the same `NaN` case, and a non-numeric id is ordered as 0.
- Text.Lower: `toLowerCase` covers the ASCII letters only. `\s` and `trim` cover the listed white-space characters only.
- Sorting.KeyLe: `localeCompare` is code-point order. It stands in for a locale's collation, which is not modelled.
- Text.ToNumber: `Number(...)` reads only optionally signed decimal integers. Fractions, exponents and hex literals count as unreadable (`NaN`).
- Dates: `new Date(...)` reads only `yyyy-MM-dd` text. Time zones are not modelled.
- Residents.FormatDate: a day that does not exist in its month, such as 2023-02-29 or 2019-04-31, is rejected here and throws. V8 (Chrome, Edge) rolls it into the next month and prints 2023-03-01; other engines may reject it. The same rule governs what `ResidentList.EditSubmit` accepts and the birthdate sort key.
- NewResident.AgeOn: the clock is the `today` parameter. The picker hands over a real day with a four-digit year, which is the `PickedDate` type.
- NewResident.Submit: the CSV upload on the same screen is left out. It only posts the chosen file. The record is sent with its fields as typed, since the source trims only for the check.
- The browser's own form validation is not modelled. The sign-in inputs and the request inputs are `required`, and the email input has `type="email"`. So the browser refuses empty fields and text that is not an email address before `handleLogin` or the request submit runs. `Login.ValidateForm`, `Login.EmailExamples` and the request check describe the page's own checks on their own terms.
- `validateRequestForm` in `Login.js` is left out. Nothing calls it, and the submit runs its own check.
- Login.SubmitRequest: the separate `documentType` state of the login screen feeds only that unused check, so it is not modelled.
- The CSV text itself (`Papa.unparse` quoting) is left out. `ResidentList.ExportCsv` produces rows of cells and the download's file name. The prompt's answer is its `answer` parameter.
- Deleting residents and requests is left out. These screens do it only through the server and then re-fetch.
- `Announcements.js`, `UserManagement.js`, `ReportsAnalytics.js`, `MapPage` and `About` are not part of this model.
- JSX rendering and column layout are left out.

## Findings

| source | as written | input that shows it | evidently intended | confidence | as-written member | corrected member |
|---|---|---|---|---|---|---|
| redis-frontend/src/Dashboard/Components/ResidentList.js:99-100 | the edit form saves `formatDate(birthdate)`, which turns an empty birthdate into "N/A" | editing a resident whose birthdate is "" | an empty birthdate stays empty, so the list can still format it | high (not executed) | ResidentList.EditSubmitStoresUnreadableDate | ResidentList.SavedRecordStaysReadable |
| redis-frontend/src/Dashboard/Admin.js:91 | `markAsViewed` always decrements the unread count by one | opening a request that is already viewed, with unread count 0 | the count drops only when an unread request is flagged, so it stays equal to a recount | high (not executed) | Notifications.AdminBadgeDrifts | Notifications.RecountAgreesWhenDecrementIsRight |

=== FILE: addresident.dfy ===
/** The add-resident form: field edits, the birthdate picker with the age it
    derives, and the submit that checks the two required fields, sends the
    record with its birthdate as `yyyy-MM-dd`, and clears the form. */
module NewResident {
  import opened Js
  import opened Text
  import opened Dates
  import opened Residents

  /** A day the date picker can hand over. */
  type PickedDate = d: Date | Printable(d) witness Date(2000, 1, 1)

  /** The form state: the record's string fields, and the picked birthdate
      (`null` until one is chosen), which is only turned into text when the
      record is sent. */
  datatype Form = Form(record: Resident, picked: Option<PickedDate>)

  /** The form as it opens and as it is cleared after a save. */
  const InitialForm := Form(Blank.(role := "Other"), None)

  // ----------------------------------------------------------------- age

  /** The day of year `y` on which someone born on `b` turns a year older,
      compared field by field as the form does, even where that day does not
      exist in `y` (29 February). */
  function Anniversary(b: Date, y: int): Date {
    Date(y, b.month, b.day)
  }

  /** The age on `today` of someone born on `b`: the year difference, less one
      when today's (month, day) comes before the birth's. */
  function AgeOn(today: Date, b: Date): (age: int)
    ensures !Before(today, Anniversary(b, b.year + age))
    ensures Before(today, Anniversary(b, b.year + age + 1))
  {
    var age := today.year - b.year;
    if today.month < b.month || (today.month == b.month && today.day < b.day) then age - 1
    else age
  }

  /** The age is the number of anniversaries that have passed: it is the
      only `n` whose anniversary has come and whose next has not. */
  lemma AgeIsCompletedYears(today: Date, b: Date, n: int)
    requires !Before(today, Anniversary(b, b.year + n))
    requires Before(today, Anniversary(b, b.year + n + 1))
    ensures AgeOn(today, b) == n
  {
  }

  /** On the birthday itself the age is the year difference; on the day
      before it, one less. */
  lemma BirthdayTurnsOver(b: Date, n: int)
    ensures AgeOn(Anniversary(b, b.year + n), b) == n
    ensures AgeOn(Date(b.year + n, b.month, b.day - 1), b) == n - 1
  {
  }

  /** Ages never go down as time goes on. */
  lemma AgeMonotone(t1: Date, t2: Date, b: Date)
    requires !Before(t2, t1)
    ensures AgeOn(t1, b) <= AgeOn(t2, b)
  {
  }

  /** `calculateAge`, with the clock's reading passed in as `today`: "" when
      no birthdate is picked, otherwise the age as a decimal string. */
  function CalculateAge(today: Date, birth: Option<PickedDate>): (age: string)
    ensures birth.None? <==> age == ""
    ensures birth.Some? ==> ToNumber(age) == Some(AgeOn(today, birth.value))
  {
    match birth
    case None => ""
    case Some(b) =>
      NumberOfString(AgeOn(today, b));
      IntToString(AgeOn(today, b))
  }

  // ---------------------------------------------------------------- edits

  /** `handleInputChange`: the named field takes the typed value. */
  function InputChange(form: Form, f: Field, v: string): (form': Form)
    ensures Get(form'.record, f) == v && form'.picked == form.picked
    ensures forall g :: g != f ==> Get(form'.record, g) == Get(form.record, g)
  {
    form.(record := Set(form.record, f, v))
  }

  /** `handleDateChange`: the birthdate and the age change together, and no
      other field does. */
  function DateChange(form: Form, today: Date, d: Option<PickedDate>): (form': Form)
    ensures form'.picked == d
    ensures form'.record.age == CalculateAge(today, d)
    ensures forall g :: g != Age ==> Get(form'.record, g) == Get(form.record, g)
  {
    Form(Set(form.record, Age, CalculateAge(today, d)), d)
  }

  /** Clearing the picker clears the age. */
  lemma ClearingDateClearsAge(form: Form, today: Date)
    ensures DateChange(form, today, None).record.age == ""
  {
  }

  // --------------------------------------------------------------- submit

  /** The record the form sends: every field as typed, with the birthdate
      written as `yyyy-MM-dd`, or "" when none was picked. */
  function Outgoing(form: Form): (r: Resident)
    ensures form.picked.None? ==> r.birthdate == ""
    ensures form.picked.Some? ==> ParseIsoDate(r.birthdate) == Some(form.picked.value)
    ensures forall g :: g != Birthdate ==> Get(r, g) == Get(form.record, g)
  {
    match form.picked
    case None => form.record.(birthdate := "")
    case Some(d) =>
      ParseOfIso(d);
      form.record.(birthdate := IsoDate(d))
  }

  /** The two fields the form will not save without, ignoring surrounding
      white space. */
  predicate HasIdAndName(r: Resident) {
    Trim(r.id) != "" && Trim(r.name) != ""
  }

  datatype Toast = Success(text: string) | Error(text: string)

  /** `handleSubmit`, given the server's answer to the post (its `message`,
      "" if none). Returns the form afterwards, the toast, and the record
      sent, if any. */
  function Submit(form: Form, reply: Result<string>): (out: (Form, Toast, Option<Resident>))
    ensures out.2.Some? <==> HasIdAndName(form.record)
    ensures out.2.Some? ==> out.2.value == Outgoing(form)
    ensures !HasIdAndName(form.record) ==> out.0 == form && out.1 == Error("ID and Name are required!")
    ensures out.1.Success? <==> HasIdAndName(form.record) && reply.Ok?
    ensures out.1.Success? ==> out.0 == InitialForm
    ensures out.1.Error? ==> out.0 == form
  {
    if !HasIdAndName(form.record) then (form, Error("ID and Name are required!"), None)
    else
      var sent := Outgoing(form);
      match reply
      case Ok(_) => (InitialForm, Success("Resident added successfully"), Some(sent))
      case Failure(m) => (form, Error(if m != "" then m else "Failed to save resident"), Some(sent))
  }

  /** A saved birthdate is one the resident list can display: it prints back
      as exactly the day that was picked, or as "N/A" when none was. */
  lemma SentBirthdateDisplays(form: Form)
    ensures form.picked.None? ==> FormatDate(Outgoing(form).birthdate) == Ok("N/A")
    ensures form.picked.Some? ==> FormatDate(Outgoing(form).birthdate) == Ok(IsoDate(form.picked.value))
  {
    if form.picked.Some? {
      FormatStoredDate(form.picked.value);
    }
  }

  /** The cleared form starts over: nothing picked, every text field empty
      except the role, which is "Other", and it cannot be saved as it is. */
  lemma ClearedFormIsEmpty()
    ensures InitialForm.picked.None?
    ensures forall g :: g != Role ==> Get(InitialForm.record, g) == ""
    ensures InitialForm.record.role == "Other"
    ensures !HasIdAndName(InitialForm.record)
  {
  }
}

=== FILE: contacts.dfy ===
/** The contact directory: the residents who have a phone number, a search
    over them, and the table sorted by name. */
module Contacts {
  import opened Text
  import opened Lists
  import opened Sorting
  import opened Residents

  /** `resident.phone` is truthy: a non-empty string. */
  predicate HasPhone(r: Resident) {
    r.phone != ""
  }

  /** The fetch keeps only the residents with a phone number, in order. */
  function Directory(fetched: seq<Resident>): (d: seq<Resident>)
    ensures IsSubseq(d, fetched)
    ensures forall r :: r in d <==> r in fetched && r.phone != ""
  {
    Filter(fetched, HasPhone)
  }

  /** The name contains the term ignoring case; the purok and household
      numbers contain it exactly as typed. */
  predicate Matches(r: Resident, term: string) {
    Contains(Lower(r.name), Lower(term))
    || Contains(r.purokNumber, term)
    || Contains(r.householdNumber, term)
  }

  /** `handleSearch` over the directory: the matching contacts, in order. */
  function Search(directory: seq<Resident>, term: string): (shown: seq<Resident>)
    ensures IsSubseq(shown, directory)
    ensures forall r :: r in shown <==> r in directory && Matches(r, term)
  {
    Filter(directory, r => Matches(r, term))
  }

  /** Whatever the term, the search only ever shows residents who were
      fetched and have a phone number. */
  lemma SearchShowsOnlyContacts(fetched: seq<Resident>, term: string)
    ensures forall r :: r in Search(Directory(fetched), term) ==> r in fetched && HasPhone(r)
  {
  }

  /** The empty term keeps the whole directory. */
  lemma EmptyTermShowsDirectory(directory: seq<Resident>)
    ensures Search(directory, "") == directory
  {
    assert Lower("") == "";
    forall r | r in directory ensures Matches(r, "") {
      ContainsEmpty(Lower(r.name));
    }
    FilterKeepsAll(directory, r => Matches(r, ""));
  }

  /** Every row of the table is a fetched resident with a phone number who
      matches the term, and every such resident has a row. */
  lemma RowsAreMatchingContacts(fetched: seq<Resident>, term: string)
    ensures forall r :: r in ByName(Search(Directory(fetched), term)) <==>
      r in fetched && HasPhone(r) && Matches(r, term)
  {
    var shown := Search(Directory(fetched), term);
    forall r ensures r in ByName(shown) <==> r in shown {
      assert r in ByName(shown) <==> r in multiset(ByName(shown));
    }
  }
}

=== FILE: dashboard.dfy ===
/** The statistics dashboard: headline counts over the residents and the
    users, and the data behind its five charts. Percent labels and colours
    are presentation and are left to the chart library. */
module Dashboard {
  import opened Js
  import opened Text
  import opened Lists
  import opened Sorting
  import opened Residents
  import opened ResidentList
  import opened Users

  // --------------------------------------------------------- headline counts

  /** `new Set(residents.map(r => r.purokNumber)).size`. */
  function TotalPuroks(rs: seq<Resident>): (n: nat)
    ensures n == |set r | r in rs :: r.purokNumber|
    ensures n <= |rs| && (|rs| > 0 ==> n > 0)
  {
    var n := CountDistinct(rs, PurokOf);
    MapKeysIff(rs, PurokOf);
    assert (set k | k in MapKeys(rs, PurokOf)) == (set r | r in rs :: r.purokNumber);
    n
  }


  /** `new Set(residents.map(r => r.householdNumber)).size`. */
  function TotalHouseholds(rs: seq<Resident>): (n: nat)
    ensures n == |set r | r in rs :: r.householdNumber|
    ensures n <= |rs| && (|rs| > 0 ==> n > 0)
  {
    var n := CountDistinct(rs, HouseholdOf);
    MapKeysIff(rs, HouseholdOf);
    assert (set k | k in MapKeys(rs, HouseholdOf)) == (set r | r in rs :: r.householdNumber);
    n
  }

  predicate IsAdmin(u: User) {
    u.role == AdminRole
  }

  predicate IsOfficial(u: User) {
    u.role == OfficialRole
  }

  predicate IsStaff(u: User) {
    IsAdmin(u) || IsOfficial(u)
  }

  /** The admin and official counts: exact role matches, so a user counts
      at most once and the two never exceed the number of users. */
  lemma StaffCounts(users: seq<User>)
    ensures Count(users, IsAdmin) + Count(users, IsOfficial) == Count(users, IsStaff)
    ensures Count(users, IsAdmin) + Count(users, IsOfficial) <= |users|
  {
    CountDisjoint(users, IsAdmin, IsOfficial, IsStaff);
  }

  // ------------------------------------------------------------ count charts

  /** A bar or pie chart: one bar per key, with its count. */
  datatype Chart = Chart(keys: seq<string>, data: seq<nat>)

  /** The `reduce` into `{key: count}` read back through `Object.keys`: the
      keys in order of first appearance, each with the number of residents
      it labels. */
  function CountBy(rs: seq<Resident>, tag: Resident -> string): (c: Chart)
    ensures c.keys == Distinct(MapKeys(rs, tag))
    ensures forall k :: k in c.keys <==> exists r :: r in rs && tag(r) == k
    ensures |c.data| == |c.keys|
    ensures forall i :: 0 <= i < |c.keys| ==> c.data[i] == |WithKey(rs, tag, c.keys[i])|
    ensures Sum(c.data) == |rs|
  {
    var keys := Keys(GroupBy(rs, tag));
    MapKeysIff(rs, tag);
    TallyCoversAll(rs, tag, keys);
    Chart(keys, Tally(rs, tag, keys))
  }

  /** Every bar of a count chart is non-empty: a key is only listed when
      some resident carries it. */
  lemma NoEmptyBars(rs: seq<Resident>, tag: Resident -> string, c: Chart, i: nat)
    requires forall k :: k in c.keys ==> exists r :: r in rs && tag(r) == k
    requires |c.data| == |c.keys|
    requires forall j :: 0 <= j < |c.keys| ==> c.data[j] == |WithKey(rs, tag, c.keys[j])|
    requires i < |c.keys|
    ensures c.data[i] > 0
  {
    assert c.keys[i] in c.keys;
    var r :| r in rs && tag(r) == c.keys[i];
    assert r in WithKey(rs, tag, c.keys[i]);
  }

  /** `resident.purokNumber || "Unknown"`. */
  function PurokLabel(r: Resident): string {
    if r.purokNumber == "" then "Unknown" else r.purokNumber
  }

  function EmploymentLabel(r: Resident): string {
    if r.employmentStatus == "" then "Unknown" else r.employmentStatus
  }

  function EducationLabel(r: Resident): string {
    if r.educationalAttainment == "" then "Unknown" else r.educationalAttainment
  }

  /** `(a, b) => a - b` on purok keys. */
  function NumericOrder(k: string): Key {
    Num(NumericKey(k))
  }

  /** "Residents per purok": the purok counts with the keys sorted
      numerically; residents without a purok are counted under "Unknown". */
  function ResidentsPerPurok(rs: seq<Resident>): (c: Chart)
    ensures NoDup(c.keys)
    ensures forall k :: k in c.keys <==> exists r :: r in rs && PurokLabel(r) == k
    ensures Sorted(c.keys, NumericOrder, Asc)
    ensures |c.data| == |c.keys|
    ensures forall i :: 0 <= i < |c.keys| ==> c.data[i] == |WithKey(rs, PurokLabel, c.keys[i])| > 0
    ensures Sum(c.data) == |rs|
  {
    var unsorted := CountBy(rs, PurokLabel).keys;
    var keys := SortBy(unsorted, NumericOrder, Asc);
    PermutationNoDup(unsorted, keys);
    assert forall k :: k in keys <==> k in unsorted by {
      assert forall k :: k in keys <==> k in multiset(keys);
    }
    TallyCoversAll(rs, PurokLabel, keys);
    var c := Chart(keys, Tally(rs, PurokLabel, keys));
    forall i | 0 <= i < |keys| ensures c.data[i] > 0 {
      NoEmptyBars(rs, PurokLabel, c, i);
    }
    c
  }

  /** "Employment status": counts in order of first appearance, with
      "Unknown" for a missing status. */
  function EmploymentChart(rs: seq<Resident>): (c: Chart)
    ensures NoDup(c.keys) && |c.data| == |c.keys|
    ensures forall k :: k in c.keys <==> exists r :: r in rs && EmploymentLabel(r) == k
    ensures forall i :: 0 <= i < |c.keys| ==> c.data[i] == |WithKey(rs, EmploymentLabel, c.keys[i])| > 0
    ensures Sum(c.data) == |rs|
  {
    var c := CountBy(rs, EmploymentLabel);
    forall i | 0 <= i < |c.keys| ensures c.data[i] > 0 {
      NoEmptyBars(rs, EmploymentLabel, c, i);
    }
    c
  }

  /** "Educational attainment", built the same way. */
  function EducationChart(rs: seq<Resident>): (c: Chart)
    ensures NoDup(c.keys) && |c.data| == |c.keys|
    ensures forall k :: k in c.keys <==> exists r :: r in rs && EducationLabel(r) == k
    ensures forall i :: 0 <= i < |c.keys| ==> c.data[i] == |WithKey(rs, EducationLabel, c.keys[i])| > 0
    ensures Sum(c.data) == |rs|
  {
    var c := CountBy(rs, EducationLabel);
    forall i | 0 <= i < |c.keys| ensures c.data[i] > 0 {
      NoEmptyBars(rs, EducationLabel, c, i);
    }
    c
  }

  // -------------------------------------------------------------------- age

  /** The upper ends of the first five age groups: "0-5", "6-12", "13-18",
      "19-35" and "36-59"; group 5 is "60+". */
  const AgeUpper: seq<int> := [5, 12, 18, 35, 59]

  /** The group of an age: `age || 0` compared with `<=` against each upper
      end in turn. A blank age counts as 0; an age that is not a number
      fails every comparison and lands in "60+". */
  function AgeGroup(age: string): (b: nat)
    ensures b < 6
    ensures ToNumber(age).None? ==> b == 5
    ensures ToNumber(age).Some? ==>
      var n := ToNumber(age).value;
      (b < 5 ==> n <= AgeUpper[b]) && (b > 0 ==> AgeUpper[b - 1] < n)
  {
    var v := if age == "" then Some(0) else ToNumber(age);
    assert age == "" ==> ToNumber(age) == Some(0) by {
      assert age == "" ==> AllSpace(age);
    }
    match v
    case None => 5
    case Some(n) =>
      if n <= 5 then 0
      else if n <= 12 then 1
      else if n <= 18 then 2
      else if n <= 35 then 3
      else if n <= 59 then 4
      else 5
  }

  /** A resident with no recorded age is counted in "0-5". */
  lemma MissingAgeIsYoungest()
    ensures AgeGroup("") == 0
  {
  }

  function AgeGroupOf(r: Resident): (b: nat)
    ensures b in AgeGroups
  {
    GroupListed(AgeGroup(r.age));
    AgeGroup(r.age)
  }

  /** The six group indices. */
  const AgeGroups: seq<nat> := [0, 1, 2, 3, 4, 5]

  /** "Age distribution": the six group counts, which add up to the number
      of residents. */
  function AgeDistribution(rs: seq<Resident>): (h: seq<nat>)
    ensures |h| == 6
    ensures forall b :: 0 <= b < 6 ==> h[b] == |WithKey(rs, AgeGroupOf, b)|
    ensures Sum(h) == |rs|
  {
    assert NoDup(AgeGroups);
    TallyCoversAll(rs, AgeGroupOf, AgeGroups);
    var h := Tally(rs, AgeGroupOf, AgeGroups);
    forall b | 0 <= b < 6 ensures h[b] == |WithKey(rs, AgeGroupOf, b)| {
      GroupListed(b);
    }
    h
  }

  lemma GroupListed(b: nat)
    requires b < 6
    ensures |AgeGroups| == 6 && AgeGroups[b] == b && b in AgeGroups
  {
    assert AgeGroups[b] == b;
  }

  // ------------------------------------------------------ sex and voters

  /** "Sex ratio": `[male, female]`. Residents with any other value are in
      neither slice, so the two never exceed the total. */
  function SexRatio(rs: seq<Resident>): (pie: seq<nat>)
    ensures |pie| == 2
    ensures pie[0] == |Filter(rs, IsMale)| && pie[1] == |Filter(rs, IsFemale)|
    ensures pie[0] + pie[1] == Count(rs, MaleOrFemale) <= |rs|
  {
    CountIsFilterLength(rs, IsMale);
    CountIsFilterLength(rs, IsFemale);
    CountDisjoint(rs, IsMale, IsFemale, MaleOrFemale);
    [|Filter(rs, IsMale)|, |Filter(rs, IsFemale)|]
  }

  predicate IsRegistered(r: Resident) {
    r.votersStatus == "Registered"
  }

  predicate NotRegistered(r: Resident) {
    r.votersStatus != "Registered"
  }

  /** "Voter registration": `[registered, total - registered]`. The second
      slice is exactly the residents whose status is anything other than
      "Registered", blank included. */
  function VoterRegistration(rs: seq<Resident>): (pie: seq<nat>)
    ensures |pie| == 2
    ensures pie[0] == |Filter(rs, IsRegistered)|
    ensures pie[1] == Count(rs, NotRegistered)
    ensures pie[0] + pie[1] == |rs|
  {
    CountIsFilterLength(rs, IsRegistered);
    CountSplit(rs, IsRegistered, NotRegistered);
    var registered := |Filter(rs, IsRegistered)|;
    [registered, |rs| - registered]
  }
}

=== FILE: dates.dfy ===
/** Calendar dates and their `yyyy-MM-dd` text form.

    The screens store birthdates as the date-only ISO 8601 string that
    `format(date, "yyyy-MM-dd")` produces, read them back with `new Date(s)`
    and print them with `toISOString().split('T')[0]`. Date-only strings are
    read as UTC midnight, so a well-formed one prints back unchanged. */
module Dates {
  import opened Js
  import opened Text

  datatype Date = Date(year: int, month: int, day: int)

  predicate IsLeap(y: int) {
    y % 4 == 0 && (y % 100 != 0 || y % 400 == 0)
  }

  function DaysInMonth(y: int, m: int): (n: int)
    requires 1 <= m <= 12
    ensures 28 <= n <= 31
  {
    if m == 2 then (if IsLeap(y) then 29 else 28)
    else if m == 4 || m == 6 || m == 9 || m == 11 then 30
    else 31
  }

  /** A real day of the proleptic Gregorian calendar. */
  predicate Valid(d: Date) {
    1 <= d.month <= 12 && 1 <= d.day <= DaysInMonth(d.year, d.month)
  }

  /** A valid date whose ISO form has a four-digit year. */
  predicate Printable(d: Date) {
    Valid(d) && 0 <= d.year <= 9999
  }

  /** `n` written with exactly `w` decimal digits, zero-padded. */
  function Fixed(n: nat, w: nat): (s: string)
    requires n < Pow10(w)
    ensures |s| == w && AllDigits(s) && Value(s) == n
  {
    if w == 0 then ""
    else
      var s := Fixed(n / 10, w - 1) + [DigitChar(n % 10)];
      assert s[..w - 1] == Fixed(n / 10, w - 1);
      s
  }

  /** A digit string is the fixed-width numeral of its own value. */
  lemma {:induction false} FixedOfValue(t: string)
    requires AllDigits(t)
    ensures Value(t) < Pow10(|t|) && Fixed(Value(t), |t|) == t
    decreases |t|
  {
    ValueBound(t);
    if |t| > 0 {
      var init := t[..|t| - 1];
      assert AllDigits(init);
      FixedOfValue(init);
      assert DigitChar(DigitOf(t[|t| - 1])) == t[|t| - 1];
      assert init + [t[|t| - 1]] == t;
    }
  }

  /** `yyyy-MM-dd`. */
  function IsoDate(d: Date): (s: string)
    requires Printable(d)
    ensures |s| == 10 && s[4] == '-' && s[7] == '-'
  {
    Fixed(d.year, 4) + "-" + Fixed(d.month, 2) + "-" + Fixed(d.day, 2)
  }

  /** The date a `yyyy-MM-dd` string names, or `None` ("Invalid Date"). */
  function ParseIsoDate(s: string): (r: Option<Date>)
    ensures r.Some? ==> Printable(r.value)
  {
    if |s| == 10 && s[4] == '-' && s[7] == '-'
       && AllDigits(s[..4]) && AllDigits(s[5..7]) && AllDigits(s[8..]) then
      ValueBound(s[..4]);
      var d := Date(Value(s[..4]), Value(s[5..7]), Value(s[8..]));
      if Valid(d) then Some(d) else None
    else None
  }

  /** Printing then parsing gives the date back. */
  lemma ParseOfIso(d: Date)
    requires Printable(d)
    ensures ParseIsoDate(IsoDate(d)) == Some(d)
  {
    var s := IsoDate(d);
    assert s[..4] == Fixed(d.year, 4);
    assert s[5..7] == Fixed(d.month, 2);
    assert s[8..] == Fixed(d.day, 2);
  }

  /** Parsing then printing gives the string back: the text form is
      canonical. */
  lemma IsoOfParse(s: string)
    requires ParseIsoDate(s).Some?
    ensures IsoDate(ParseIsoDate(s).value) == s
  {
    var d := ParseIsoDate(s).value;
    var y, m, dd := s[..4], s[5..7], s[8..];
    assert d == Date(Value(y), Value(m), Value(dd));
    assert IsoDate(d) == y + "-" + m + "-" + dd by {
      FixedOfValue(y);
      FixedOfValue(m);
      FixedOfValue(dd);
    }
    assert s == y + "-" + m + "-" + dd;
  }

  /** `a` falls strictly before `b`. */
  predicate Before(a: Date, b: Date) {
    a.year < b.year
    || (a.year == b.year && (a.month < b.month || (a.month == b.month && a.day < b.day)))
  }

  /** A number that increases with the date, standing in for the
      millisecond timestamp that `dateA - dateB` subtracts. */
  function Serial(d: Date): int {
    (d.year * 12 + (d.month - 1)) * 31 + (d.day - 1)
  }

  /** For valid dates, comparing serial numbers is comparing dates. */
  lemma SerialIsChronological(a: Date, b: Date)
    requires Valid(a) && Valid(b)
    ensures Before(a, b) <==> Serial(a) < Serial(b)
  {
    var ma, mb := a.year * 12 + (a.month - 1), b.year * 12 + (b.month - 1);
    assert Serial(a) == ma * 31 + (a.day - 1) && Serial(b) == mb * 31 + (b.day - 1);
    if ma < mb {
      assert ma * 31 + 31 <= mb * 31;
    } else if mb < ma {
      assert mb * 31 + 31 <= ma * 31;
    }
    assert (a.year < b.year || (a.year == b.year && a.month < b.month)) <==> ma < mb;
  }
}

=== FILE: household.dfy ===
/** Household management: residents grouped into households, each with a
    head and its members in id order; a search over the household numbers
    and the lookup behind the "view" button. */
module Household {
  import opened Js
  import opened Text
  import opened Lists
  import opened Sorting
  import opened Residents
  import opened ResidentList
  import opened Tables

  /** One row of the household table. */
  datatype Household = Household(householdNumber: string, head: string, members: seq<Resident>)

  /** `resident.householdNumber || "Unknown"`. */
  function HouseholdKey(r: Resident): string {
    if r.householdNumber == "" then "Unknown" else r.householdNumber
  }

  predicate IsHead(r: Resident) {
    r.role == "Head"
  }

  /** The position of the last member with role "Head", or -1. */
  function LastHeadIndex(members: seq<Resident>): (k: int)
    ensures -1 <= k < |members|
    ensures k == -1 <==> forall i :: 0 <= i < |members| ==> !IsHead(members[i])
    ensures k >= 0 ==> IsHead(members[k]) && forall j :: k < j < |members| ==> !IsHead(members[j])
  {
    if |members| == 0 then -1
    else if IsHead(members[|members| - 1]) then |members| - 1
    else
      var init := members[..|members| - 1];
      assert forall i :: 0 <= i < |init| ==> init[i] == members[i];
      LastHeadIndex(init)
  }

  /** `householdHead` after the `reduce`: `null` until a member with role
      "Head" is pushed, then that member's name; a later head overwrites an
      earlier one. */
  function LastHead(members: seq<Resident>): Option<string> {
    var k := LastHeadIndex(members);
    if k < 0 then None else Some(members[k].name)
  }

  /** `householdHead || "Unknown"`. */
  function HeadName(members: seq<Resident>): (name: string)
    ensures name != ""
  {
    match LastHead(members)
    case None => "Unknown"
    case Some(n) => if n == "" then "Unknown" else n
  }

  /** The head is the last member, in input order, whose role is "Head"... */
  lemma HeadIsLastHead(members: seq<Resident>, i: int)
    requires 0 <= i < |members| && IsHead(members[i]) && members[i].name != ""
    requires forall j :: i < j < |members| ==> !IsHead(members[j])
    ensures HeadName(members) == members[i].name
  {
    var k := LastHeadIndex(members);
    assert k == i;
  }

  /** ... and "Unknown" when no member is a head. */
  lemma NoHeadIsUnknown(members: seq<Resident>)
    requires forall j :: 0 <= j < |members| ==> !IsHead(members[j])
    ensures HeadName(members) == "Unknown"
  {
  }

  /** The row for household `k` built from its members in input order: the
      head is read before the members are sorted by id. */
  function Summarize(k: string, members: seq<Resident>): (h: Household)
    ensures h.householdNumber == k && h.head == HeadName(members)
    ensures multiset(h.members) == multiset(members) && Sorted(h.members, IdKey, Asc)
  {
    Household(k, HeadName(members), SortBy(members, IdKey, Asc))
  }

  function Number(h: Household): string {
    h.householdNumber
  }

  /** `a.householdNumber - b.householdNumber`. */
  function ByNumber(h: Household): Key {
    Num(NumericKey(h.householdNumber))
  }

  function MemberCounts(hs: seq<Household>): (ns: seq<nat>)
    ensures |ns| == |hs|
    ensures forall i :: 0 <= i < |hs| ==> ns[i] == |hs[i].members|
  {
    seq(|hs|, i requires 0 <= i < |hs| => |hs[i].members|)
  }

  /** `fetchHouseholdData`: one row per household number ("Unknown" for
      residents without one), rows sorted by household number. Every
      resident is a member of exactly the row of its own household. */
  function HouseholdTable(rs: seq<Resident>): (hs: seq<Household>)
    ensures forall h :: h in hs ==> h == Summarize(h.householdNumber, WithKey(rs, HouseholdKey, h.householdNumber))
    ensures forall h :: h in hs ==> |h.members| > 0
    ensures forall k :: k in MapKeys(hs, Number) <==> exists r :: r in rs && HouseholdKey(r) == k
    ensures NoDup(MapKeys(hs, Number))
    ensures Sorted(hs, ByNumber, Asc)
    ensures Sum(MemberCounts(hs)) == |rs|
  {
    var hs := Table(rs, HouseholdKey, Summarize, Number, ByNumber);
    var keys := MapKeys(hs, Number);
    forall i | 0 <= i < |hs| ensures MemberCounts(hs)[i] == Tally(rs, HouseholdKey, keys)[i] {
      var h := hs[i];
      assert h in hs;
      assert keys[i] == Number(h);
      SizeOfSorted(WithKey(rs, HouseholdKey, h.householdNumber), h.members);
    }
    assert MemberCounts(hs) == Tally(rs, HouseholdKey, keys);
    forall h | h in hs ensures |h.members| > 0 {
      SizeOfSorted(WithKey(rs, HouseholdKey, h.householdNumber), h.members);
    }
    hs
  }

  lemma SizeOfSorted(a: seq<Resident>, b: seq<Resident>)
    requires multiset(b) == multiset(a)
    ensures |b| == |a|
  {
    assert |multiset(b)| == |multiset(a)|;
  }

  /** A resident belongs to the row keyed by its household number, and to
      no other row. */
  lemma ResidentInOwnHousehold(rs: seq<Resident>, r: Resident, h: Household)
    requires r in rs && h in HouseholdTable(rs)
    ensures r in h.members <==> h.householdNumber == HouseholdKey(r)
  {
    var members := WithKey(rs, HouseholdKey, h.householdNumber);
    assert r in h.members <==> r in multiset(members);
  }

  // ---------------------------------------------------------------- search

  predicate NumberMatches(h: Household, term: string) {
    Contains(h.householdNumber, Trim(term))
  }

  /** `handleSearch`: the rows whose number contains the trimmed term, taken
      from the full table. */
  function Search(hs: seq<Household>, term: string): (shown: seq<Household>)
    ensures IsSubseq(shown, hs)
    ensures forall h :: h in shown <==> h in hs && NumberMatches(h, term)
  {
    Filter(hs, h => NumberMatches(h, term))
  }

  /** A blank term keeps every household. */
  lemma BlankSearchShowsAll(hs: seq<Household>, term: string)
    requires AllSpace(term)
    ensures Search(hs, term) == hs
  {
    forall h | h in hs ensures NumberMatches(h, term) {
      ContainsEmpty(h.householdNumber);
    }
    FilterKeepsAll(hs, h => NumberMatches(h, term));
  }

  /** `householdData.find(h => h.householdNumber === n)`: the first row
      with that number, if any. */
  function Find(hs: seq<Household>, n: string): (found: Option<Household>)
    ensures found.None? <==> forall i :: 0 <= i < |hs| ==> hs[i].householdNumber != n
    ensures found.Some? ==> exists i :: (0 <= i < |hs| && hs[i] == found.value
      && hs[i].householdNumber == n && forall j :: 0 <= j < i ==> hs[j].householdNumber != n)
  {
    if |hs| == 0 then None
    else if hs[0].householdNumber == n then Some(hs[0])
    else
      var found := Find(hs[1..], n);
      assert forall i :: 0 < i < |hs| ==> hs[i] == hs[1..][i - 1];
      found
  }

  /** In the household table numbers are unique, so the view shows the row
      of that number, whichever search is active. */
  lemma ViewFindsTheHousehold(rs: seq<Resident>, h: Household)
    requires h in HouseholdTable(rs)
    ensures Find(HouseholdTable(rs), h.householdNumber) == Some(h)
  {
    FindUnique(HouseholdTable(rs), h);
  }

  lemma FindUnique(hs: seq<Household>, h: Household)
    requires NoDup(MapKeys(hs, Number)) && h in hs
    ensures Find(hs, h.householdNumber) == Some(h)
  {
    var i :| 0 <= i < |hs| && hs[i] == h;
    var found := Find(hs, h.householdNumber);
    assert found.Some? by {
      assert hs[i].householdNumber == h.householdNumber;
    }
    var j :| 0 <= j < |hs| && hs[j] == found.value && hs[j].householdNumber == h.householdNumber
      && forall k :: 0 <= k < j ==> hs[k].householdNumber != h.householdNumber;
    assert MapKeys(hs, Number)[i] == Number(hs[i]) && MapKeys(hs, Number)[j] == Number(hs[j]);
  }
}

=== FILE: js.dfy ===
/** The few dynamically-typed JavaScript values the screens inspect. */
module Js {

  /** A value that may be absent (`null` / `undefined`). */
  datatype Option<+T> = None | Some(value: T) {
    function GetOr(default: T): T {
      match this
      case Some(v) => v
      case None => default
    }
  }

  /** The outcome of a step that can throw: a value, or the error it raised. */
  datatype Result<+T> = Ok(value: T) | Failure(error: string)

  /** A JSON field whose type the server does not fix: the `viewed` flag of a
      document request arrives as a boolean from one code path and as the
      string `"true"`/`"false"` from the Redis store. */
  datatype Json = Undefined | Bool(b: bool) | Str(s: string)

  /** JavaScript truthiness: `undefined`, `false` and `""` are falsy. */
  predicate Truthy(v: Json) {
    match v
    case Undefined => false
    case Bool(b) => b
    case Str(s) => s != ""
  }

  /** `String(v)` as used by `value?.toString()`; `None` for `undefined`,
      which the optional chain skips. */
  function ToText(v: Json): Option<string> {
    match v
    case Undefined => None
    case Bool(b) => Some(if b then "true" else "false")
    case Str(s) => Some(s)
  }
}

=== FILE: lists.dfy ===
/** Sequence utilities shared by every screen: order-preserving filtering,
    counting, first-occurrence de-duplication and grouping by a key.

    Every function recurses on the prefix `s[..|s|-1]` and then handles the
    last element, which is the shape of the `reduce`/`forEach` left folds the
    screens use to build their tables. */
module Lists {

  /** `a` is an order-preserving subsequence of `b`: `a` is `b` with some
      elements dropped and the rest kept in their relative order. */
  ghost predicate IsSubseq<T>(a: seq<T>, b: seq<T>)
    decreases |b|
  {
    if |b| == 0 then |a| == 0
    else
      (|a| > 0 && a[|a| - 1] == b[|b| - 1] && IsSubseq(a[..|a| - 1], b[..|b| - 1]))
      || IsSubseq(a, b[..|b| - 1])
  }

  /** `Array.prototype.filter`: the elements of `s` satisfying `p`, in order. */
  function Filter<T(!new)>(s: seq<T>, p: T -> bool): (r: seq<T>)
    ensures |r| == Count(s, p) <= |s|
    ensures forall x :: x in r <==> x in s && p(x)
    ensures forall i :: 0 <= i < |r| ==> p(r[i])
    ensures IsSubseq(r, s)
  {
    if |s| == 0 then []
    else
      var init := Filter(s[..|s| - 1], p);
      var x := s[|s| - 1];
      assert s == s[..|s| - 1] + [x];
      if p(x) then
        assert (init + [x])[..|init|] == init;
        init + [x]
      else
        init
  }

  /** The number of elements of `s` satisfying `p`. */
  function Count<T>(s: seq<T>, p: T -> bool): (n: nat)
    ensures n <= |s|
  {
    if |s| == 0 then 0
    else Count(s[..|s| - 1], p) + (if p(s[|s| - 1]) then 1 else 0)
  }

  /** Counting and filtering agree: `filter(p).length` is the count of `p`. */
  lemma {:induction false} CountIsFilterLength<T(!new)>(s: seq<T>, p: T -> bool)
    ensures Count(s, p) == |Filter(s, p)|
    decreases |s|
  {
    if |s| > 0 {
      CountIsFilterLength(s[..|s| - 1], p);
    }
  }

  /** Every element satisfies `p` or its negation, never both: the two counts
      add up to the length. */
  lemma {:induction false} CountSplit<T>(s: seq<T>, p: T -> bool, q: T -> bool)
    requires forall x :: q(x) <==> !p(x)
    ensures Count(s, p) + Count(s, q) == |s|
    decreases |s|
  {
    if |s| > 0 {
      CountSplit(s[..|s| - 1], p, q);
    }
  }

  /** Counts are monotone in the predicate. */
  lemma {:induction false} CountMono<T>(s: seq<T>, p: T -> bool, q: T -> bool)
    requires forall x :: p(x) ==> q(x)
    ensures Count(s, p) <= Count(s, q)
    decreases |s|
  {
    if |s| > 0 {
      CountMono(s[..|s| - 1], p, q);
    }
  }

  /** Count of the elements of a disjunction of two disjoint predicates. */
  lemma {:induction false} CountDisjoint<T>(s: seq<T>, p: T -> bool, q: T -> bool, pq: T -> bool)
    requires forall x :: pq(x) <==> p(x) || q(x)
    requires forall x :: !(p(x) && q(x))
    ensures Count(s, pq) == Count(s, p) + Count(s, q)
    decreases |s|
  {
    if |s| > 0 {
      CountDisjoint(s[..|s| - 1], p, q, pq);
    }
  }

  /** No element occurs twice. */
  predicate NoDup<T(==)>(s: seq<T>) {
    forall i, j :: 0 <= i < j < |s| ==> s[i] != s[j]
  }

  /** The distinct elements of `s` in order of first occurrence: the
      iteration order of a JavaScript `Set` built from `s`. */
  function Distinct<T(==,!new)>(s: seq<T>): (r: seq<T>)
    ensures NoDup(r)
    ensures forall x :: x in r <==> x in s
    ensures |r| <= |s|
  {
    if |s| == 0 then []
    else
      var init := Distinct(s[..|s| - 1]);
      var x := s[|s| - 1];
      assert forall y :: y in s <==> y in s[..|s| - 1] || y == x by {
        assert s == s[..|s| - 1] + [x];
      }
      if x in init then init else init + [x]
  }

  /** A duplicate-free sequence has as many elements as its set. */
  lemma {:induction false} NoDupCardinality<T>(s: seq<T>)
    requires NoDup(s)
    ensures |set x | x in s| == |s|
    decreases |s|
  {
    if |s| > 0 {
      var init := s[..|s| - 1];
      var x := s[|s| - 1];
      NoDupCardinality(init);
      assert s == init + [x];
      assert x !in init;
      assert (set y | y in s) == (set y | y in init) + {x};
    }
  }

  /** `new Set(s).size` is the length of the first-occurrence list, and it
      never exceeds the length of `s`. */
  lemma DistinctIsSetSize<T(!new)>(s: seq<T>)
    ensures |set x | x in s| == |Distinct(s)| <= |s|
  {
    var d := Distinct(s);
    NoDupCardinality(d);
    assert (set x | x in s) == (set x | x in d);
  }

  /** Sum of a sequence of naturals. */
  function Sum(s: seq<nat>): nat {
    if |s| == 0 then 0 else Sum(s[..|s| - 1]) + s[|s| - 1]
  }

  /** One bucket of a `reduce` into an object keyed by `key`: the key and the
      elements pushed into it, in push order. */
  datatype Group<K, T> = Group(key: K, members: seq<T>)

  function Keys<K, T>(gs: seq<Group<K, T>>): (ks: seq<K>)
    ensures |ks| == |gs|
  {
    seq(|gs|, i requires 0 <= i < |gs| => gs[i].key)
  }

  /** Total number of members over all groups. */
  function Size<K, T>(gs: seq<Group<K, T>>): nat {
    if |gs| == 0 then 0 else |gs[0].members| + Size(gs[1..])
  }

  /** The elements of `s` whose key is `k`, in order. */
  function WithKey<K(==), T(!new)>(s: seq<T>, key: T -> K, k: K): (r: seq<T>)
    ensures forall x :: x in r <==> x in s && key(x) == k
    ensures forall i :: 0 <= i < |r| ==> key(r[i]) == k
    ensures IsSubseq(r, s)
  {
    if |s| == 0 then []
    else
      var init := WithKey(s[..|s| - 1], key, k);
      var x := s[|s| - 1];
      assert s == s[..|s| - 1] + [x];
      if key(x) == k then
        assert (init + [x])[..|init|] == init;
        init + [x]
      else
        init
  }

  /** The reducer step `if (!acc[k]) acc[k] = []; acc[k].push(x)`: append `x`
      to the group keyed `k`, or open a new group for `k` at the end. */
  function Push<K(==), T>(gs: seq<Group<K, T>>, k: K, x: T): seq<Group<K, T>>
    decreases |gs|
  {
    if |gs| == 0 then [Group(k, [x])]
    else if gs[0].key == k then [Group(k, gs[0].members + [x])] + gs[1..]
    else [gs[0]] + Push(gs[1..], k, x)
  }

  /** Every push adds exactly one member overall. */
  lemma {:induction false} PushSize<K, T>(gs: seq<Group<K, T>>, k: K, x: T)
    ensures Size(Push(gs, k, x)) == Size(gs) + 1
    decreases |gs|
  {
    if |gs| > 0 {
      if gs[0].key == k {
        var r := [Group(k, gs[0].members + [x])] + gs[1..];
        assert r[1..] == gs[1..];
      } else {
        PushSize(gs[1..], k, x);
        var r := [gs[0]] + Push(gs[1..], k, x);
        assert r[1..] == Push(gs[1..], k, x);
      }
    }
  }

  /** A push keeps the key list, or extends it by the new key at the end. */
  lemma {:induction false} PushKeys<K, T>(gs: seq<Group<K, T>>, k: K, x: T)
    ensures Keys(Push(gs, k, x)) == if k in Keys(gs) then Keys(gs) else Keys(gs) + [k]
    decreases |gs|
  {
    if |gs| > 0 {
      assert Keys(gs) == [gs[0].key] + Keys(gs[1..]);
      if gs[0].key != k {
        PushKeys(gs[1..], k, x);
        assert Keys(Push(gs, k, x)) == [gs[0].key] + Keys(Push(gs[1..], k, x));
      } else {
        assert Keys(Push(gs, k, x)) == [k] + Keys(gs[1..]);
      }
    }
  }

  /** A push keeps every group equal to "the elements seen so far with its key". */
  lemma {:induction false} PushMembers<K, T(!new)>(gs: seq<Group<K, T>>, init: seq<T>, x: T, key: T -> K)
    requires NoDup(Keys(gs))
    requires forall g :: g in gs ==> g.members == WithKey(init, key, g.key)
    requires key(x) in Keys(gs) || WithKey(init, key, key(x)) == []
    ensures forall g :: g in Push(gs, key(x), x) ==> g.members == WithKey(init + [x], key, g.key)
    decreases |gs|
  {
    var k := key(x);
    if |gs| == 0 {
      WithKeySnoc(init, x, key, k);
    } else {
      var tail := gs[1..];
      TailKeys(gs);
      assert gs[0] in gs;
      if gs[0].key == k {
        WithKeySnoc(init, x, key, k);
        forall g | g in tail ensures g.members == WithKey(init + [x], key, g.key) {
          OtherKeyUnchanged(init, x, key, g);
        }
        assert Push(gs, k, x) == [Group(k, gs[0].members + [x])] + tail;
      } else {
        PushMembers(tail, init, x, key);
        OtherKeyUnchanged(init, x, key, gs[0]);
        assert Push(gs, k, x) == [gs[0]] + Push(tail, k, x);
      }
    }
  }

  /** The keys after the first group are distinct, differ from the first
      key, and contain every other key. */
  lemma TailKeys<K, T>(gs: seq<Group<K, T>>)
    requires |gs| > 0 && NoDup(Keys(gs))
    ensures NoDup(Keys(gs[1..]))
    ensures forall g :: g in gs[1..] ==> g.key != gs[0].key
    ensures forall k :: k in Keys(gs) && k != gs[0].key ==> k in Keys(gs[1..])
  {
    var tail := gs[1..];
    assert Keys(tail) == Keys(gs)[1..];
    forall g | g in tail ensures g.key != gs[0].key {
      var i :| 0 <= i < |tail| && tail[i] == g;
      assert Keys(gs)[0] != Keys(gs)[i + 1];
    }
    forall k | k in Keys(gs) && k != gs[0].key ensures k in Keys(tail) {
      var i :| 0 <= i < |gs| && Keys(gs)[i] == k;
      assert Keys(tail)[i - 1] == k;
    }
  }

  /** A group whose key is not the new element's is still up to date. */
  lemma OtherKeyUnchanged<K, T(!new)>(init: seq<T>, x: T, key: T -> K, g: Group<K, T>)
    requires g.members == WithKey(init, key, g.key) && g.key != key(x)
    ensures g.members == WithKey(init + [x], key, g.key)
  {
    WithKeySnoc(init, x, key, g.key);
  }

  /** The whole `reduce`: push every element of `s` into the group of its key.
      The result is the partition of `s` by key: one group per distinct key,
      in order of first occurrence, each holding exactly the elements with
      that key in their original order. */
  function GroupBy<K(==,!new), T(!new)>(s: seq<T>, key: T -> K): (gs: seq<Group<K, T>>)
    ensures Keys(gs) == Distinct(MapKeys(s, key))
    ensures forall g :: g in gs ==> g.members == WithKey(s, key, g.key)
    ensures Size(gs) == |s|
  {
    if |s| == 0 then []
    else
      var init := s[..|s| - 1];
      var x := s[|s| - 1];
      var prev := GroupBy(init, key);
      assert s == init + [x];
      GroupByStep(init, x, key, prev);
      Push(prev, key(x), x)
  }

  /** One step of the fold keeps the partition description true. */
  lemma GroupByStep<K(!new), T(!new)>(init: seq<T>, x: T, key: T -> K, prev: seq<Group<K, T>>)
    requires Keys(prev) == Distinct(MapKeys(init, key))
    requires forall g :: g in prev ==> g.members == WithKey(init, key, g.key)
    requires Size(prev) == |init|
    ensures Keys(Push(prev, key(x), x)) == Distinct(MapKeys(init + [x], key))
    ensures forall g :: g in Push(prev, key(x), x) ==> g.members == WithKey(init + [x], key, g.key)
    ensures Size(Push(prev, key(x), x)) == |init| + 1
  {
    PushSize(prev, key(x), x);
    PushKeys(prev, key(x), x);
    assert MapKeys(init + [x], key) == MapKeys(init, key) + [key(x)];
    DistinctSnoc(MapKeys(init, key), key(x));
    assert key(x) in Keys(prev) || WithKey(init, key, key(x)) == [] by {
      if WithKey(init, key, key(x)) != [] {
        var y := WithKey(init, key, key(x))[0];
        MapKeysHas(init, key, y);
      }
    }
    PushMembers(prev, init, x, key);
  }

  lemma WithKeySnoc<K, T(!new)>(init: seq<T>, x: T, key: T -> K, k: K)
    ensures WithKey(init + [x], key, k) == WithKey(init, key, k) + (if key(x) == k then [x] else [])
  {
    assert (init + [x])[..|init|] == init;
  }

  lemma DistinctSnoc<T(!new)>(s: seq<T>, x: T)
    ensures Distinct(s + [x]) == if x in s then Distinct(s) else Distinct(s) + [x]
  {
    assert (s + [x])[..|s|] == s;
  }

  /** The keys of `s`, in order. */
  function MapKeys<K, T>(s: seq<T>, key: T -> K): (ks: seq<K>)
    ensures |ks| == |s|
  {
    seq(|s|, i requires 0 <= i < |s| => key(s[i]))
  }

  lemma MapKeysHas<K, T>(s: seq<T>, key: T -> K, y: T)
    requires y in s
    ensures key(y) in MapKeys(s, key)
  {
    var i :| 0 <= i < |s| && s[i] == y;
    assert MapKeys(s, key)[i] == key(y);
  }

  /** Grouping is a partition: each element of `s` lies in exactly one group,
      the one whose key is its own. */
  lemma GroupByPartition<K(!new), T(!new)>(s: seq<T>, key: T -> K, x: T)
    requires x in s
    ensures exists i :: 0 <= i < |GroupBy(s, key)| && x in GroupBy(s, key)[i].members
    ensures forall i :: 0 <= i < |GroupBy(s, key)| ==>
              (x in GroupBy(s, key)[i].members <==> GroupBy(s, key)[i].key == key(x))
  {
    var gs := GroupBy(s, key);
    MapKeysHas(s, key, x);
    assert key(x) in Keys(gs);
    var i :| 0 <= i < |gs| && Keys(gs)[i] == key(x);
    assert gs[i] in gs;
    assert x in gs[i].members;
    forall j | 0 <= j < |gs| ensures x in gs[j].members <==> gs[j].key == key(x) {
      assert gs[j] in gs;
      assert gs[j].members == WithKey(s, key, gs[j].key);
    }
  }

  /** A key occurs among the keys exactly when some element carries it. */
  lemma MapKeysIff<K, T>(s: seq<T>, key: T -> K)
    ensures forall k :: k in MapKeys(s, key) <==> exists x :: x in s && key(x) == k
  {
    forall k | k in MapKeys(s, key) ensures exists x :: x in s && key(x) == k {
      var i :| 0 <= i < |s| && MapKeys(s, key)[i] == k;
      assert s[i] in s;
    }
    forall k | exists x :: x in s && key(x) == k ensures k in MapKeys(s, key) {
      var x :| x in s && key(x) == k;
      MapKeysHas(s, key, x);
    }
  }

  /** `new Set(s.map(key)).size`: the number of distinct keys. */
  function CountDistinct<K(==,!new), T>(s: seq<T>, key: T -> K): (n: nat)
    ensures n == |set k | k in MapKeys(s, key)|
    ensures n <= |s|
    ensures |s| > 0 ==> n > 0
  {
    var ks := MapKeys(s, key);
    DistinctIsSetSize(ks);
    if |s| > 0 then
      assert ks[0] in ks;
      |Distinct(ks)|
    else
      |Distinct(ks)|
  }

  /** A duplicate-free sequence holds each value at most once. */
  lemma {:induction false} NoDupMultiplicity<T>(s: seq<T>, x: T)
    requires NoDup(s)
    ensures multiset(s)[x] <= 1
    decreases |s|
  {
    if |s| > 0 {
      var init := s[..|s| - 1];
      assert s == init + [s[|s| - 1]];
      NoDupMultiplicity(init, x);
      if s[|s| - 1] == x {
        assert x !in init;
      }
    }
  }

  /** Reordering a duplicate-free sequence cannot create a duplicate. */
  lemma PermutationNoDup<T>(s: seq<T>, r: seq<T>)
    requires multiset(r) == multiset(s) && NoDup(s)
    ensures NoDup(r)
  {
    forall i, j | 0 <= i < j < |r| ensures r[i] != r[j] {
      if r[i] == r[j] {
        var x := r[j];
        assert r == r[..j] + [x] + r[j + 1..];
        assert x in r[..j];
        assert multiset(r)[x] >= 2;
        NoDupMultiplicity(s, x);
        assert false;
      }
    }
  }

  /** `keys.map(k => counts[k])` for the object `counts` a `reduce` built
      by incrementing `counts[key(x)]` once per element: the number of
      elements with each key, in the order of `ks`. */
  function Tally<K(==), T(!new)>(s: seq<T>, key: T -> K, ks: seq<K>): (ns: seq<nat>)
    ensures |ns| == |ks|
    ensures forall i :: 0 <= i < |ks| ==> ns[i] == |WithKey(s, key, ks[i])|
  {
    seq(|ks|, i requires 0 <= i < |ks| => |WithKey(s, key, ks[i])|)
  }

  /** One more element adds one to the total, provided its key is listed
      once. */
  lemma {:induction false} TallySnoc<K, T(!new)>(s: seq<T>, x: T, key: T -> K, ks: seq<K>)
    requires NoDup(ks)
    ensures Sum(Tally(s + [x], key, ks)) == Sum(Tally(s, key, ks)) + (if key(x) in ks then 1 else 0)
    decreases |ks|
  {
    if |ks| > 0 {
      var init, k := ks[..|ks| - 1], ks[|ks| - 1];
      assert ks == init + [k];
      assert NoDup(init);
      TallySnoc(s, x, key, init);
      TallyLast(s + [x], key, ks);
      TallyLast(s, key, ks);
      WithKeySnoc(s, x, key, k);
      assert key(x) in ks <==> key(x) in init || key(x) == k;
      assert key(x) == k ==> key(x) !in init;
    }
  }

  /** The total of a tally is the total over all keys but the last, plus
      the last key's count. */
  lemma TallyLast<K, T(!new)>(s: seq<T>, key: T -> K, ks: seq<K>)
    requires |ks| > 0
    ensures Sum(Tally(s, key, ks))
         == Sum(Tally(s, key, ks[..|ks| - 1])) + |WithKey(s, key, ks[|ks| - 1])|
  {
    var t := Tally(s, key, ks);
    assert t[..|ks| - 1] == Tally(s, key, ks[..|ks| - 1]);
  }

  /** When every element's key is listed exactly once, the counts add up
      to the number of elements: every element is counted once. */
  lemma {:induction false} TallyCoversAll<K, T(!new)>(s: seq<T>, key: T -> K, ks: seq<K>)
    requires NoDup(ks)
    requires forall x :: x in s ==> key(x) in ks
    ensures Sum(Tally(s, key, ks)) == |s|
    decreases |s|
  {
    if |s| == 0 {
      TallyOfNothing(key, ks);
    } else {
      var init, x := s[..|s| - 1], s[|s| - 1];
      assert s == init + [x];
      TallyCoversAll(init, key, ks);
      TallySnoc(init, x, key, ks);
    }
  }

  lemma {:induction false} TallyOfNothing<K, T(!new)>(key: T -> K, ks: seq<K>)
    ensures Sum(Tally([], key, ks)) == 0
    decreases |ks|
  {
    if |ks| > 0 {
      var init := ks[..|ks| - 1];
      TallyOfNothing(key, init);
      assert Tally([], key, ks)[..|init|] == Tally([], key, init);
    }
  }

  /** Reordering elements whose keys are all different keeps the keys all
      different. */
  lemma PermutationKeepsKeysDistinct<K, T>(s: seq<T>, r: seq<T>, key: T -> K)
    requires multiset(r) == multiset(s) && NoDup(MapKeys(s, key))
    ensures NoDup(MapKeys(r, key))
  {
    assert NoDup(s) by {
      forall i, j | 0 <= i < j < |s| ensures s[i] != s[j] {
        assert MapKeys(s, key)[i] != MapKeys(s, key)[j];
      }
    }
    PermutationNoDup(s, r);
    forall i, j | 0 <= i < j < |r| ensures MapKeys(r, key)[i] != MapKeys(r, key)[j] {
      assert r[i] in multiset(s) && r[j] in multiset(s);
      var a :| 0 <= a < |s| && s[a] == r[i];
      var b :| 0 <= b < |s| && s[b] == r[j];
      assert MapKeys(s, key)[a] == key(r[i]) && MapKeys(s, key)[b] == key(r[j]);
    }
  }

  /** Filtering the concatenation is concatenating the filtered parts. */
  lemma {:induction false} FilterAppend<T(!new)>(a: seq<T>, b: seq<T>, p: T -> bool)
    ensures Filter(a + b, p) == Filter(a, p) + Filter(b, p)
    decreases |b|
  {
    if |b| == 0 {
      assert a + b == a;
    } else {
      var init := b[..|b| - 1];
      assert a + b == (a + init) + [b[|b| - 1]];
      assert b == init + [b[|b| - 1]];
      FilterAppend(a, init, p);
    }
  }

  /** A filter every element passes keeps the whole sequence. */
  lemma {:induction false} FilterKeepsAll<T(!new)>(s: seq<T>, p: T -> bool)
    requires forall x :: x in s ==> p(x)
    ensures Filter(s, p) == s
    decreases |s|
  {
    if |s| > 0 {
      var init := s[..|s| - 1];
      assert s == init + [s[|s| - 1]];
      FilterKeepsAll(init, p);
    }
  }

  /** `Tally` restricted to the elements satisfying `p`: for each key of
      `ks`, how many elements with that key satisfy `p`. */
  function TallyWhere<K(==), T(!new)>(s: seq<T>, key: T -> K, ks: seq<K>, p: T -> bool): (ns: seq<nat>)
    ensures |ns| == |ks|
    ensures forall i :: 0 <= i < |ks| ==> ns[i] == Count(WithKey(s, key, ks[i]), p)
  {
    seq(|ks|, i requires 0 <= i < |ks| => Count(WithKey(s, key, ks[i]), p))
  }

  lemma {:induction false} TallyWhereSnoc<K, T(!new)>(s: seq<T>, x: T, key: T -> K, ks: seq<K>, p: T -> bool)
    requires NoDup(ks)
    ensures Sum(TallyWhere(s + [x], key, ks, p))
         == Sum(TallyWhere(s, key, ks, p)) + (if key(x) in ks && p(x) then 1 else 0)
    decreases |ks|
  {
    if |ks| > 0 {
      var init, k := ks[..|ks| - 1], ks[|ks| - 1];
      assert ks == init + [k];
      assert NoDup(init);
      TallyWhereSnoc(s, x, key, init, p);
      TallyWhereLast(s + [x], key, ks, p);
      TallyWhereLast(s, key, ks, p);
      WithKeySnoc(s, x, key, k);
      var w := WithKey(s, key, k);
      assert (w + [x])[..|w|] == w;
      assert key(x) in ks <==> key(x) in init || key(x) == k;
      assert key(x) == k ==> key(x) !in init;
    }
  }

  lemma TallyWhereLast<K, T(!new)>(s: seq<T>, key: T -> K, ks: seq<K>, p: T -> bool)
    requires |ks| > 0
    ensures Sum(TallyWhere(s, key, ks, p))
         == Sum(TallyWhere(s, key, ks[..|ks| - 1], p)) + Count(WithKey(s, key, ks[|ks| - 1]), p)
  {
    var t := TallyWhere(s, key, ks, p);
    assert t[..|ks| - 1] == TallyWhere(s, key, ks[..|ks| - 1], p);
  }

  lemma {:induction false} TallyWhereOfNothing<K, T(!new)>(key: T -> K, ks: seq<K>, p: T -> bool)
    ensures Sum(TallyWhere([], key, ks, p)) == 0
    decreases |ks|
  {
    if |ks| > 0 {
      var init := ks[..|ks| - 1];
      TallyWhereOfNothing(key, init, p);
      assert TallyWhere([], key, ks, p)[..|init|] == TallyWhere([], key, init, p);
    }
  }

  /** When every element's key is listed exactly once, the per-key counts
      of `p` add up to the overall count of `p`. */
  lemma {:induction false} TallyWhereCoversAll<K, T(!new)>(s: seq<T>, key: T -> K, ks: seq<K>, p: T -> bool)
    requires NoDup(ks)
    requires forall x :: x in s ==> key(x) in ks
    ensures Sum(TallyWhere(s, key, ks, p)) == Count(s, p)
    decreases |s|
  {
    if |s| == 0 {
      TallyWhereOfNothing(key, ks, p);
    } else {
      var init, x := s[..|s| - 1], s[|s| - 1];
      assert s == init + [x];
      TallyWhereCoversAll(init, key, ks, p);
      TallyWhereSnoc(init, x, key, ks, p);
    }
  }

  /** `Array.prototype.map`. */
  function Map<T, U>(s: seq<T>, f: T -> U): (r: seq<U>)
    ensures |r| == |s|
    ensures forall i :: 0 <= i < |s| ==> r[i] == f(s[i])
  {
    seq(|s|, i requires 0 <= i < |s| => f(s[i]))
  }

  /** Counting over a mapped sequence is counting the composed predicate. */
  lemma {:induction false} CountMap<T, U>(s: seq<T>, f: T -> U, p: U -> bool, q: T -> bool)
    requires forall x :: q(x) == p(f(x))
    ensures Count(Map(s, f), p) == Count(s, q)
    decreases |s|
  {
    if |s| > 0 {
      var init := s[..|s| - 1];
      CountMap(init, f, p, q);
      assert Map(s, f)[..|init|] == Map(init, f);
    }
  }
}

=== FILE: login.dfy ===
/** The landing page: the sign-in form with its checks, the two predefined
    accounts, the role normalisation applied to what the server returns, and
    the public document-request form. */
module Login {
  import opened Js
  import opened Text
  import opened Users

  // ----------------------------------------------------------- email check

  /** `e[lo..hi]` holds no whitespace. */
  predicate NoSpaceIn(e: string, lo: int, hi: int)
    requires 0 <= lo <= hi <= |e|
  {
    forall k :: lo <= k < hi ==> !IsSpace(e[k])
  }

  /** `/\S+@\S+\.\S+/` matches `e` with its `@` at `i` and its `.` at `j`:
      a non-space just before the `@`, a non-empty run of non-spaces between
      the two, and a non-space just after the `.`. */
  predicate MatchAt(e: string, i: int, j: int) {
    0 < i && i + 1 < j && j + 1 < |e|
    && e[i] == '@' && e[j] == '.'
    && !IsSpace(e[i - 1]) && NoSpaceIn(e, i + 1, j) && !IsSpace(e[j + 1])
  }

  /** `.test(email)`: the pattern is not anchored, so a match anywhere in
      the string will do. */
  predicate EmailLike(e: string) {
    exists i, j :: 0 <= i < j < |e| && MatchAt(e, i, j)
  }

  /** A left-to-right scan deciding the pattern: for every `@` that follows a
      non-space, walk the run of non-spaces after it looking for a `.` with
      a non-space on both sides. */
  method ScanEmail(e: string) returns (b: bool)
    ensures b <==> EmailLike(e)
  {
    var i := 0;
    while i < |e|
      invariant 0 <= i <= |e|
      invariant forall i', j :: 0 <= i' < i && i' < j < |e| ==> !MatchAt(e, i', j)
    {
      if 0 < i && e[i] == '@' && !IsSpace(e[i - 1]) {
        var j := i + 1;
        while j < |e| && !IsSpace(e[j])
          invariant i + 1 <= j <= |e|
          invariant NoSpaceIn(e, i + 1, j)
          invariant forall j' :: i < j' < j ==> !MatchAt(e, i, j')
        {
          if e[j] == '.' && i + 1 < j && j + 1 < |e| && !IsSpace(e[j + 1]) {
            assert MatchAt(e, i, j);
            return true;
          }
          j := j + 1;
        }
        forall j' | j <= j' < |e|
          ensures !MatchAt(e, i, j')
        {
          if j < j' {
            assert IsSpace(e[j]) && i + 1 <= j < j';
          }
        }
      }
      i := i + 1;
    }
    return false;
  }

  /** Whatever passes the check has an `@` with a `.` somewhere after it and
      at least five characters, as `a@b.c` has. */
  lemma EmailLikeShape(e: string)
    requires EmailLike(e)
    ensures |e| >= 5
    ensures exists i, j :: 0 < i < j < |e| - 1 && e[i] == '@' && e[j] == '.'
  {
    var i, j :| 0 <= i < j < |e| && MatchAt(e, i, j);
    assert 0 < i < j < |e| - 1 && e[i] == '@' && e[j] == '.';
  }

  /** The check accepts the predefined addresses, rejects an address
      without a dot after the `@`, and, being unanchored, accepts text
      with spaces around an address-like part. */
  lemma EmailExamples()
    ensures EmailLike("admin@gmail.com")
    ensures !EmailLike("admin@gmail")
    ensures EmailLike("my name is a@b.c")
  {
    assert MatchAt("admin@gmail.com", 5, 11);
    assert MatchAt("my name is a@b.c", 12, 14);
    var e := "admin@gmail";
    forall i, j | 0 <= i < j < |e|
      ensures !MatchAt(e, i, j)
    {
      if e[i] == '@' {
        assert i == 5;
      }
    }
  }

  // ------------------------------------------------------- form validation

  const FillBoth := "Please fill in both fields."
  const BadEmail := "Please enter a valid email."
  const ShortPassword := "Password must be at least 6 characters long."

  /** `validateForm`: the message of the first check that fails, in the
      order the form runs them, or `None` when the form may be sent. */
  function ValidateForm(email: string, password: string): (err: Option<string>)
    ensures err == None <==> email != "" && password != "" && EmailLike(email) && |password| >= 6
    ensures email == "" || password == "" ==> err == Some(FillBoth)
    ensures email != "" && password != "" && !EmailLike(email) ==> err == Some(BadEmail)
    ensures err == Some(ShortPassword) <==> email != "" && EmailLike(email) && 0 < |password| < 6
  {
    if email == "" || password == "" then Some(FillBoth)
    else if !EmailLike(email) then Some(BadEmail)
    else if |password| < 6 then Some(ShortPassword)
    else None
  }

  /** An address the form lets through has the shape of one. */
  lemma AcceptedEmailHasShape(email: string, password: string)
    requires ValidateForm(email, password) == None
    ensures |email| >= 5 && |password| >= 6
  {
    EmailLikeShape(email);
  }

  // --------------------------------------------------------------- roles

  /** `normalizeRole`: lower-cases the role the server sent, except that
      any spelling of `barangayofficial` becomes the route's
      `barangayOfficial`; a missing role stays empty. */
  function NormalizeRole(role: string): (r: string)
    ensures |r| == |role|
    ensures Lower(r) == Lower(role)
    ensures r == OfficialRole <==> Lower(role) == "barangayofficial"
    ensures r != OfficialRole ==> r == Lower(role)
  {
    OfficialLowered();
    if role == "" then ""
    else
      var lower := Lower(role);
      if lower == "barangayofficial" then OfficialRole
      else
        LowerIdempotent(role);
        assert lower != OfficialRole;
        lower
  }

  lemma OfficialLowered()
    ensures Lower(OfficialRole) == "barangayofficial"
    ensures |OfficialRole| == 16 && OfficialRole[8] == 'O'
  {
  }

  /** Normalising a normalised role changes nothing. */
  lemma NormalizeRoleIdempotent(role: string)
    ensures NormalizeRole(NormalizeRole(role)) == NormalizeRole(role)
  {
    LowerIdempotent(role);
  }

  /** The two routed roles are already normal. */
  lemma RoutedRolesAreNormal()
    ensures NormalizeRole(AdminRole) == AdminRole
    ensures NormalizeRole(OfficialRole) == OfficialRole
  {
    assert Lower(AdminRole) == AdminRole;
    OfficialLowered();
  }

  // ---------------------------------------------------------------- sign in

  datatype Account = Account(password: string, role: string, name: string)

  /** The accounts that work without the server, keyed by lower-case email. */
  const Predefined: map<string, Account> := map[
    "admin@gmail.com" := Account("Admin_0", AdminRole, "System Admin"),
    "official@gmail.com" := Account("Official_0", OfficialRole, "Barangay Official")]

  /** The email, lower-cased, names a predefined account and the password
      matches it exactly. */
  predicate PredefinedMatch(email: string, password: string) {
    Lower(email) in Predefined && Predefined[Lower(email)].password == password
  }

  /** What `POST /login` came back with: a reply whose `user` field may be
      missing, or a failure carrying the server's `message` ("" if none). */
  datatype Reply = Answered(user: Option<User>) | Refused(message: string)

  /** The route segments a login leads to. */
  function Landing(role: string): (to: seq<string>)
    ensures to == [] || to == [AdminRole, "dashboard"] || to == [OfficialRole, "dashboard"]
    ensures to != [] <==> role == AdminRole || role == OfficialRole
    ensures to != [] ==> to[0] == role
  {
    if role == AdminRole then [AdminRole, "dashboard"]
    else if role == OfficialRole then [OfficialRole, "dashboard"]
    else []
  }

  /** How a press of the sign-in button ends. */
  datatype Outcome =
    | Invalid(message: string)
    | Denied(toast: string)
    | SignedIn(user: User, to: seq<string>, greeting: string)

  const BadCredentials := "Invalid credentials. Please try again."

  /** `handleLogin`: validate, then try the predefined accounts, then the
      server. A signed-in user is stored with its role normalised and is
      sent to that role's dashboard, or to `/` for any other role. */
  function HandleLogin(email: string, password: string, reply: Reply): (o: Outcome)
    ensures o.Invalid? <==> ValidateForm(email, password).Some?
    ensures o.Invalid? ==> ValidateForm(email, password) == Some(o.message)
    ensures o.Denied? ==> o.toast != ""
    ensures o.SignedIn? ==> NormalizeRole(o.user.role) == o.user.role
    ensures o.SignedIn? ==> o.to == Landing(o.user.role)
    ensures o.SignedIn? && !PredefinedMatch(email, password) ==>
      reply.Answered? && reply.user.Some?
      && o.user == reply.user.value.(role := NormalizeRole(reply.user.value.role))
  {
    match ValidateForm(email, password)
    case Some(message) => Invalid(message)
    case None =>
      if PredefinedMatch(email, password) then
        var account := Predefined[Lower(email)];
        RoutedRolesAreNormal();
        SignedIn(User(Lower(email), account.name, account.role), [account.role, "dashboard"],
                 "Welcome, " + (if account.role == AdminRole then "Admin" else "Barangay Official") + "!")
      else
        match reply
        case Refused(message) => Denied(if message != "" then message else BadCredentials)
        case Answered(None) => Denied(BadCredentials)
        case Answered(Some(user)) =>
          var role := NormalizeRole(user.role);
          NormalizeRoleIdempotent(user.role);
          SignedIn(user.(role := role), Landing(role),
                   "Welcome, " + (if user.name != "" then user.name else role) + "!")
  }

  /** Text without capital letters is its own lower-case form. */
  lemma LowerKeepsLowerCase(s: string)
    requires forall i :: 0 <= i < |s| ==> !('A' <= s[i] <= 'Z')
    ensures Lower(s) == s
  {
  }

  /** The predefined accounts never reach the server: whatever it would
      have said, the result is the same sign-in with the lower-cased email. */
  lemma PredefinedNeedsNoServer(email: string, password: string, r1: Reply, r2: Reply)
    requires ValidateForm(email, password) == None && PredefinedMatch(email, password)
    ensures HandleLogin(email, password, r1) == HandleLogin(email, password, r2)
    ensures HandleLogin(email, password, r1).SignedIn?
    ensures HandleLogin(email, password, r1).user.email == Lower(email)
    ensures HandleLogin(email, password, r1).to != []
  {
  }

  /** Both predefined accounts pass the form's own checks, so they can
      actually sign in. */
  lemma AdminAccountSignsIn(r: Reply)
    ensures HandleLogin("admin@gmail.com", "Admin_0", r).SignedIn?
    ensures HandleLogin("admin@gmail.com", "Admin_0", r).to == [AdminRole, "dashboard"]
  {
    assert MatchAt("admin@gmail.com", 5, 11);
    assert ValidateForm("admin@gmail.com", "Admin_0") == None;
    LowerKeepsLowerCase("admin@gmail.com");
    assert PredefinedMatch("admin@gmail.com", "Admin_0");
  }

  lemma OfficialAccountSignsIn(r: Reply)
    ensures HandleLogin("official@gmail.com", "Official_0", r).SignedIn?
    ensures HandleLogin("official@gmail.com", "Official_0", r).to == [OfficialRole, "dashboard"]
  {
    assert MatchAt("official@gmail.com", 8, 14);
    assert ValidateForm("official@gmail.com", "Official_0") == None;
    LowerKeepsLowerCase("official@gmail.com");
    assert PredefinedMatch("official@gmail.com", "Official_0");
  }

  // ------------------------------------------------------ document request

  datatype RequestForm = RequestForm(
    documentType: string, fullName: string, address: string, contactNumber: string, purpose: string)

  /** The form as it opens and as it is reset after a request goes in. */
  const FreshRequest := RequestForm("Barangay Clearance", "", "", "", "")

  datatype RequestField = DocumentType | FullName | Address | ContactNumber | Purpose

  function GetField(f: RequestForm, k: RequestField): string {
    match k
    case DocumentType => f.documentType
    case FullName => f.fullName
    case Address => f.address
    case ContactNumber => f.contactNumber
    case Purpose => f.purpose
  }

  /** One input of the request form takes the new value. Each input has
      its own inline `setRequestData({...requestData, <field>: value})`;
      `handleRequestChange` does the same by the input's name but no input
      uses it. */
  function SetField(f: RequestForm, k: RequestField, v: string): (f': RequestForm)
    ensures GetField(f', k) == v
    ensures forall k' :: k' != k ==> GetField(f', k') == GetField(f, k')
  {
    match k
    case DocumentType => f.(documentType := v)
    case FullName => f.(fullName := v)
    case Address => f.(address := v)
    case ContactNumber => f.(contactNumber := v)
    case Purpose => f.(purpose := v)
  }

  /** The four free-text inputs are filled; the document type always has a
      value from the select. */
  predicate Complete(f: RequestForm) {
    f.fullName != "" && f.address != "" && f.contactNumber != "" && f.purpose != ""
  }

  /** The parts of the landing page that change. */
  datatype Screen = Screen(showLoginForm: bool, showRequestModal: bool, request: RequestForm)

  const Initial := Screen(false, false, FreshRequest)

  datatype Toast = Success(text: string) | Error(text: string)

  /** `handleRequestSubmit`, given the server's answer to the post (its
      `message`, "" if none): an incomplete form is refused before
      anything is sent; an accepted request closes the modal and resets the
      form; a failed post leaves everything as it was. */
  function SubmitRequest(s: Screen, reply: Result<string>): (out: (Screen, Toast))
    ensures out.1.Success? <==> Complete(s.request) && reply.Ok?
    ensures !Complete(s.request) ==> out == (s, Error("All fields are required!"))
    ensures out.1.Success? ==> out.0 == s.(showRequestModal := false, request := FreshRequest)
    ensures out.1.Error? ==> out.0 == s
    ensures out.1.text != ""
  {
    if !Complete(s.request) then (s, Error("All fields are required!"))
    else
      match reply
      case Ok(m) =>
        (s.(showRequestModal := false, request := FreshRequest),
         Success(if m != "" then m else "Request submitted successfully!"))
      case Failure(m) => (s, Error(if m != "" then m else "Failed to submit request"))
  }

  /** Filling in the four inputs of the fresh form is enough for it to go
      through, whatever document type is chosen. */
  lemma FilledFormIsSent(s: Screen, doc: string, name: string, address: string,
                         contact: string, purpose: string, m: string)
    requires name != "" && address != "" && contact != "" && purpose != ""
    requires s.request == FreshRequest
    ensures var f := SetField(SetField(SetField(SetField(SetField(FreshRequest,
               DocumentType, doc), FullName, name), Address, address), ContactNumber, contact),
               Purpose, purpose);
            SubmitRequest(s.(request := f), Ok(m)).1.Success?
  {
  }

  // ------------------------------------------------------------ overlays

  /** `toggleLoginForm`: flips the login form and closes the request modal. */
  function ToggleLoginForm(s: Screen): (s': Screen)
    ensures s'.showLoginForm == !s.showLoginForm && !s'.showRequestModal
    ensures s'.request == s.request
  {
    s.(showLoginForm := !s.showLoginForm, showRequestModal := false)
  }

  /** `toggleRequestModal`: flips the modal and closes the login form. The
      page defines it but never calls it: the link opens the modal through
      `OpenRequestModal` and the modal closes through `CloseRequestModal`. */
  function ToggleRequestModal(s: Screen): (s': Screen)
    ensures s'.showRequestModal == !s.showRequestModal && !s'.showLoginForm
    ensures s'.request == s.request
  {
    s.(showRequestModal := !s.showRequestModal, showLoginForm := false)
  }

  /** The "Request Document" link opens the modal without touching the
      login form, and the modal's close button only closes it. */
  function OpenRequestModal(s: Screen): (s': Screen)
    ensures s'.showRequestModal && s'.showLoginForm == s.showLoginForm && s'.request == s.request
  {
    s.(showRequestModal := true)
  }

  function CloseRequestModal(s: Screen): (s': Screen)
    ensures !s'.showRequestModal && s'.showLoginForm == s.showLoginForm && s'.request == s.request
  {
    s.(showRequestModal := false)
  }

  /** Toggling the login form twice returns it to where it was with the
      modal closed; the toggles never leave both overlays up, while the
      navigation link can. */
  lemma OverlayLaws(s: Screen)
    ensures ToggleLoginForm(ToggleLoginForm(s)) == s.(showRequestModal := false)
    ensures ToggleRequestModal(ToggleRequestModal(s)) == s.(showLoginForm := false)
    ensures !(ToggleLoginForm(s).showLoginForm && ToggleLoginForm(s).showRequestModal)
    ensures !(ToggleRequestModal(s).showLoginForm && ToggleRequestModal(s).showRequestModal)
    ensures s.showLoginForm ==> OpenRequestModal(s).showLoginForm && OpenRequestModal(s).showRequestModal
  {
  }
}

=== FILE: notifications.dfy ===
/** The notification bell of the admin and official shells: the document
    requests with a normalised `viewed` flag, the unread badge, and the
    five-item preview. The shells' responsive sidebar is kept in its own
    section at the end, since the bell and the sidebar share those two
    shell components and nothing else models them. */
module Notifications {
  import opened Js
  import opened Lists
  import opened Requests

  /** The bell's state: the requests and the badge number. The badge is a
      plain counter, so it can drop below zero. */
  datatype Bell = Bell(requests: seq<DocRequest>, unread: int)

  predicate IsUnread(r: DocRequest) {
    !Truthy(r.viewed)
  }

  /** The badge agrees with a recount of the list. */
  predicate Consistent(b: Bell) {
    b.unread == Count(b.requests, IsUnread)
  }

  // ----------------------------------------------------------------- admin

  /** The admin shell reads a stored boolean `true` or the string `'true'`
      as viewed. */
  predicate AdminViewed(v: Json) {
    v == Bool(true) || v == Str("true")
  }

  function AdminNormalize(r: DocRequest): DocRequest {
    r.(viewed := Bool(AdminViewed(r.viewed)))
  }

  predicate AdminUnreadRaw(r: DocRequest) {
    !AdminViewed(r.viewed)
  }

  /** The admin `fetchDocumentRequests`: normalise `viewed`, then count the
      unread requests. */
  function AdminFetch(raw: seq<DocRequest>): (b: Bell)
    ensures |b.requests| == |raw|
    ensures forall i :: 0 <= i < |raw| ==>
      b.requests[i] == raw[i].(viewed := Bool(AdminViewed(raw[i].viewed)))
    ensures b.unread == Count(raw, AdminUnreadRaw)
    ensures Consistent(b)
  {
    var reqs := Map(raw, AdminNormalize);
    CountMap(raw, AdminNormalize, IsUnread, AdminUnreadRaw);
    Bell(reqs, Count(reqs, IsUnread))
  }

  function MarkIfId(r: DocRequest, id: Option<string>): DocRequest {
    if r.id == id then r.(viewed := Bool(true)) else r
  }

  /** `prev.map(req => req.id === id ? { ...req, viewed: true } : req)`. */
  function MarkById(reqs: seq<DocRequest>, id: Option<string>): (out: seq<DocRequest>)
    ensures |out| == |reqs|
    ensures forall i :: 0 <= i < |reqs| && reqs[i].id == id ==> out[i] == reqs[i].(viewed := Bool(true))
    ensures forall i :: 0 <= i < |reqs| && reqs[i].id != id ==> out[i] == reqs[i]
  {
    Map(reqs, r => MarkIfId(r, id))
  }

  predicate UnreadWithId(r: DocRequest, id: Option<string>) {
    r.id == id && IsUnread(r)
  }

  /** Marking clears exactly the unread requests that carry the id. */
  lemma {:induction false} RecountAfterMark(reqs: seq<DocRequest>, id: Option<string>)
    ensures Count(MarkById(reqs, id), IsUnread) + Count(reqs, r => UnreadWithId(r, id)) == Count(reqs, IsUnread)
    decreases |reqs|
  {
    if |reqs| > 0 {
      var init := reqs[..|reqs| - 1];
      RecountAfterMark(init, id);
      assert MarkById(reqs, id)[..|init|] == MarkById(init, id);
    }
  }

  /** The admin `markAsViewed`, as written: flag the request and take one
      off the badge, whatever the request's previous state. */
  function AdminMarkAsViewed(b: Bell, id: Option<string>): (b': Bell)
    ensures b'.requests == MarkById(b.requests, id)
    ensures b'.unread == b.unread - 1
  {
    Bell(MarkById(b.requests, id), b.unread - 1)
  }

  /** The decrement keeps the badge right exactly when one unread request
      carries the id; clicking a request that was already viewed, or one
      whose id is shared, leaves the badge wrong. */
  lemma AdminMarkStaysConsistentIff(b: Bell, id: Option<string>)
    requires Consistent(b)
    ensures Consistent(AdminMarkAsViewed(b, id)) <==> Count(b.requests, r => UnreadWithId(r, id)) == 1
  {
    RecountAfterMark(b.requests, id);
  }

  /** Opening one already-viewed request: the badge shows -1 while no
      request is unread. */
  lemma AdminBadgeDrifts()
    ensures var r := DocRequest(Some("1"), None, "", "", "", "", "", "", None, Bool(true));
      var b := AdminFetch([r]);
      var b' := AdminMarkAsViewed(b, Some("1"));
      b.unread == 0 && b'.unread == -1 && Count(b'.requests, IsUnread) == 0 && !Consistent(b')
  {
    var r := DocRequest(Some("1"), None, "", "", "", "", "", "", None, Bool(true));
    var b := AdminFetch([r]);
    assert Count([r], AdminUnreadRaw) == 0;
    var b' := AdminMarkAsViewed(b, Some("1"));
    assert b'.requests == [r];
    assert Count(b'.requests, IsUnread) == Count([r], IsUnread) == 0;
  }

  /** The intended `markAsViewed`: flag the request and recount. */
  function AdminMarkAsViewedRecount(b: Bell, id: Option<string>): (b': Bell)
    ensures b'.requests == MarkById(b.requests, id)
    ensures Consistent(b')
  {
    var reqs := MarkById(b.requests, id);
    Bell(reqs, Count(reqs, IsUnread))
  }

  /** The recount never drifts, never goes below zero, and agrees with the
      decrement whenever the decrement is right. */
  lemma RecountAgreesWhenDecrementIsRight(b: Bell, id: Option<string>)
    requires Consistent(b)
    ensures AdminMarkAsViewedRecount(b, id).unread >= 0
    ensures Count(b.requests, r => UnreadWithId(r, id)) == 1 ==>
      AdminMarkAsViewedRecount(b, id) == AdminMarkAsViewed(b, id)
  {
    RecountAfterMark(b.requests, id);
  }

  // -------------------------------------------------------------- official

  /** The official shell reads only the string `'true'` as viewed. */
  predicate OfficialViewed(v: Json) {
    v == Str("true")
  }

  function OfficialNormalize(r: DocRequest): DocRequest {
    r.(viewed := Bool(OfficialViewed(r.viewed)))
  }

  predicate OfficialUnreadRaw(r: DocRequest) {
    !OfficialViewed(r.viewed)
  }

  /** The official `fetchDocumentRequests`. A boolean `true` counts as
      unread here, so the official badge is never below the admin badge
      for the same data. */
  function OfficialFetch(raw: seq<DocRequest>): (b: Bell)
    ensures |b.requests| == |raw|
    ensures forall i :: 0 <= i < |raw| ==>
      b.requests[i] == raw[i].(viewed := Bool(OfficialViewed(raw[i].viewed)))
    ensures b.unread == Count(raw, OfficialUnreadRaw)
    ensures Consistent(b)
    ensures b.unread >= AdminFetch(raw).unread
  {
    var reqs := Map(raw, OfficialNormalize);
    CountMap(raw, OfficialNormalize, IsUnread, OfficialUnreadRaw);
    CountMono(raw, AdminUnreadRaw, OfficialUnreadRaw);
    Bell(reqs, Count(reqs, IsUnread))
  }

  function MarkIfMongoId(r: DocRequest, id: Option<string>): DocRequest {
    if r.mongoId == id then r.(viewed := Bool(true)) else r
  }

  /** The official `markAsViewed`: match on `_id`, and take the badge from
      the server's reply. */
  function OfficialMarkAsViewed(b: Bell, id: Option<string>, serverUnread: int): (b': Bell)
    ensures |b'.requests| == |b.requests|
    ensures forall i :: 0 <= i < |b.requests| && b.requests[i].mongoId == id ==>
      b'.requests[i] == b.requests[i].(viewed := Bool(true))
    ensures forall i :: 0 <= i < |b.requests| && b.requests[i].mongoId != id ==>
      b'.requests[i] == b.requests[i]
    ensures b'.unread == serverUnread
  {
    Bell(Map(b.requests, r => MarkIfMongoId(r, id)), serverUnread)
  }

  /** `requests.slice(0, 5)`: the first five requests, or all of them. */
  function Preview(reqs: seq<DocRequest>): (p: seq<DocRequest>)
    ensures |p| == if |reqs| < 5 then |reqs| else 5
    ensures forall i :: 0 <= i < |p| ==> p[i] == reqs[i]
  {
    if |reqs| < 5 then reqs else reqs[..5]
  }

  // ------------------------------------------------ shell sidebar (not the bell)

  /** The shell's sidebar state. */
  datatype Shell = Shell(sidebarClosed: bool, darkMode: bool)

  /** `handleResize`: the sidebar closes on narrow windows and opens on
      wide ones; nothing else changes. */
  function Resize(s: Shell, width: int): (s': Shell)
    ensures s'.sidebarClosed <==> width < 768
    ensures s'.darkMode == s.darkMode
  {
    s.(sidebarClosed := width < 768)
  }

  /** The menu icon flips the sidebar and nothing else. */
  function ToggleSidebar(s: Shell): (s': Shell)
    ensures s'.sidebarClosed != s.sidebarClosed && s'.darkMode == s.darkMode
  {
    s.(sidebarClosed := !s.sidebarClosed)
  }
}

=== FILE: purok.dfy ===
/** Purok management: one summary row per purok, a search over the purok
    numbers, a sort by population, and the report's "most populated" and
    "most households" selections. */
module Purok {
  import opened Text
  import opened Lists
  import opened Sorting
  import opened Residents
  import opened Dashboard
  import opened Tables

  /** One row of the purok table. The employment rate shown next to it is a
      percentage computed from `employed` and `totalResidents`. */
  datatype PurokEntry = PurokEntry(
    purokNumber: string,
    totalResidents: nat,
    households: seq<string>,
    employed: nat,
    registeredVoters: nat)

  predicate IsEmployed(r: Resident) {
    r.employmentStatus == "Employed"
  }

  /** The row for purok `p` built from the residents of that purok: its
      size, its household numbers in order of first appearance (the
      insertion order of a `Set`), and its employed and registered counts. */
  function Summarize(p: string, members: seq<Resident>): (e: PurokEntry)
    ensures e.purokNumber == p && e.totalResidents == |members|
    ensures NoDup(e.households)
    ensures forall h :: h in e.households <==> exists r :: r in members && r.householdNumber == h
    ensures |e.households| <= e.totalResidents
    ensures e.employed == Count(members, IsEmployed) <= e.totalResidents
    ensures e.registeredVoters == Count(members, IsRegistered) <= e.totalResidents
  {
    MapKeysIff(members, HouseholdOf);
    PurokEntry(p, |members|, Distinct(MapKeys(members, HouseholdOf)),
               Count(members, IsEmployed), Count(members, IsRegistered))
  }

  /** The row purok `p` should have: the summary of every resident whose
      purok number is `p`. */
  function Expected(rs: seq<Resident>, p: string): PurokEntry {
    Summarize(p, WithKey(rs, PurokOf, p))
  }

  function EntryPurok(e: PurokEntry): string {
    e.purokNumber
  }

  /** `a.purokNumber - b.purokNumber`. */
  function ByPurokNumber(e: PurokEntry): Key {
    Num(NumericKey(e.purokNumber))
  }

  function Totals(entries: seq<PurokEntry>): (ns: seq<nat>)
    ensures |ns| == |entries|
    ensures forall i :: 0 <= i < |entries| ==> ns[i] == entries[i].totalResidents
  {
    seq(|entries|, i requires 0 <= i < |entries| => entries[i].totalResidents)
  }

  /** `fetchPurokData`: the residents reduced by purok number, one summary
      per purok, sorted by purok number. */
  function PurokTable(rs: seq<Resident>): (entries: seq<PurokEntry>)
    ensures forall e :: e in entries ==> e == Expected(rs, e.purokNumber) && e.totalResidents > 0
    ensures forall p :: p in MapKeys(entries, EntryPurok) <==> exists r :: r in rs && r.purokNumber == p
    ensures NoDup(MapKeys(entries, EntryPurok))
    ensures Sorted(entries, ByPurokNumber, Asc)
    ensures Sum(Totals(entries)) == |rs|
  {
    var entries := Table(rs, PurokOf, Summarize, EntryPurok, ByPurokNumber);
    var keys := MapKeys(entries, EntryPurok);
    forall i | 0 <= i < |entries| ensures Totals(entries)[i] == Tally(rs, PurokOf, keys)[i] {
      assert entries[i] in entries;
      assert keys[i] == EntryPurok(entries[i]);
    }
    assert Totals(entries) == Tally(rs, PurokOf, keys);
    entries
  }

  // ------------------------------------------------------------ the view

  /** The screen state: the full table, the rows on show, and the order the
      next sort will use. */
  datatype View = View(data: seq<PurokEntry>, shown: seq<PurokEntry>, order: Order)

  predicate PurokMatches(e: PurokEntry, term: string) {
    Contains(Lower(e.purokNumber), Lower(term))
  }

  /** `handleSearch`: filters the full table, whatever is on show. */
  function Search(v: View, term: string): (v': View)
    ensures v'.data == v.data && v'.order == v.order
    ensures IsSubseq(v'.shown, v.data)
    ensures forall e :: e in v'.shown <==> e in v.data && PurokMatches(e, term)
  {
    View(v.data, Filter(v.data, e => PurokMatches(e, term)), v.order)
  }

  /** The empty term keeps every row. */
  lemma EmptySearchShowsAll(v: View)
    ensures Search(v, "").shown == v.data
  {
    var shown := Search(v, "").shown;
    forall e | e in v.data ensures PurokMatches(e, "") {
      ContainsEmpty(Lower(e.purokNumber));
    }
    FilterKeepsAll(v.data, e => PurokMatches(e, ""));
  }

  function ByTotal(e: PurokEntry): Key {
    Num(e.totalResidents)
  }

  /** `handleSort`: the rows on show, reordered by population in the
      current order; then the order flips. */
  function SortByPopulation(v: View): (v': View)
    ensures v'.data == v.data
    ensures multiset(v'.shown) == multiset(v.shown)
    ensures Sorted(v'.shown, ByTotal, v.order)
    ensures v'.order == v.order.Toggle()
  {
    View(v.data, SortBy(v.shown, ByTotal, v.order), v.order.Toggle())
  }

  /** In ascending order population never decreases from one row to the
      next; in descending order it never increases. */
  lemma PopulationOrder(v: View, i: int)
    requires 0 <= i < |SortByPopulation(v).shown| - 1
    ensures var s := SortByPopulation(v).shown;
      if v.order == Asc then s[i].totalResidents <= s[i + 1].totalResidents
      else s[i].totalResidents >= s[i + 1].totalResidents
  {
    var s := SortByPopulation(v).shown;
    assert InOrder(v.order, ByTotal(s[i]), ByTotal(s[i + 1]));
  }

  // ---------------------------------------------------------- the report

  /** `Math.max(...entries.map(measure))` for a non-empty table. */
  function MaxOf(entries: seq<PurokEntry>, measure: PurokEntry -> nat): (m: nat)
    requires |entries| > 0
    ensures forall e :: e in entries ==> measure(e) <= m
    ensures exists e :: e in entries && measure(e) == m
  {
    if |entries| == 1 then measure(entries[0])
    else
      var init := entries[..|entries| - 1];
      var m := MaxOf(init, measure);
      var last := measure(entries[|entries| - 1]);
      assert entries == init + [entries[|entries| - 1]];
      if last > m then last else m
  }

  /** The rows attaining the maximum of `measure`, in table order. For an
      empty table `Math.max()` is `-Infinity`, which no row attains. */
  function MostBy(entries: seq<PurokEntry>, measure: PurokEntry -> nat): (top: seq<PurokEntry>)
    ensures IsSubseq(top, entries)
    ensures forall e :: e in top <==> e in entries && forall f :: f in entries ==> measure(f) <= measure(e)
    ensures |entries| > 0 ==> |top| > 0
  {
    if |entries| == 0 then []
    else
      var m := MaxOf(entries, measure);
      var top := Filter(entries, e => measure(e) == m);
      var w :| w in entries && measure(w) == m;
      assert w in top;
      top
  }

  function Population(e: PurokEntry): nat {
    e.totalResidents
  }

  function HouseholdCount(e: PurokEntry): nat {
    |e.households|
  }

  /** `mostPopulatedPuroks`. */
  function MostPopulated(entries: seq<PurokEntry>): (top: seq<PurokEntry>)
    ensures IsSubseq(top, entries)
    ensures forall e :: e in top <==> e in entries && forall f :: f in entries ==> f.totalResidents <= e.totalResidents
    ensures |entries| > 0 ==> |top| > 0
  {
    MostBy(entries, Population)
  }

  /** `puroksWithMostHouseholds`. */
  function MostHouseholds(entries: seq<PurokEntry>): (top: seq<PurokEntry>)
    ensures IsSubseq(top, entries)
    ensures forall e :: e in top <==> e in entries && forall f :: f in entries ==> |f.households| <= |e.households|
    ensures |entries| > 0 ==> |top| > 0
  {
    MostBy(entries, HouseholdCount)
  }

  /** One line of "Voter Registration per Purok". */
  datatype VoterLine = VoterLine(purokNumber: string, registeredVoters: nat)

  /** `voterRegistrationPerPurok`: one line per row, in table order. */
  function VotersPerPurok(entries: seq<PurokEntry>): (lines: seq<VoterLine>)
    ensures |lines| == |entries|
    ensures forall i :: 0 <= i < |entries| ==> lines[i] == VoterLine(entries[i].purokNumber, entries[i].registeredVoters)
  {
    seq(|entries|, i requires 0 <= i < |entries| => VoterLine(entries[i].purokNumber, entries[i].registeredVoters))
  }

  function Registered(lines: seq<VoterLine>): (ns: seq<nat>)
    ensures |ns| == |lines|
    ensures forall i :: 0 <= i < |lines| ==> ns[i] == lines[i].registeredVoters
  {
    seq(|lines|, i requires 0 <= i < |lines| => lines[i].registeredVoters)
  }

  /** The report's per-purok voter counts add up to the dashboard's
      registered-voter count: every registered resident is counted under
      exactly one purok. */
  lemma VotersAddUp(rs: seq<Resident>)
    ensures Sum(Registered(VotersPerPurok(PurokTable(rs)))) == VoterRegistration(rs)[0]
  {
    var entries := PurokTable(rs);
    var keys := MapKeys(entries, EntryPurok);
    MapKeysIff(entries, EntryPurok);
    forall i | 0 <= i < |entries|
      ensures Registered(VotersPerPurok(entries))[i] == TallyWhere(rs, PurokOf, keys, IsRegistered)[i]
    {
      assert entries[i] in entries;
    }
    assert Registered(VotersPerPurok(entries)) == TallyWhere(rs, PurokOf, keys, IsRegistered);
    TallyWhereCoversAll(rs, PurokOf, keys, IsRegistered);
    CountIsFilterLength(rs, IsRegistered);
  }
}

=== FILE: requests.dfy ===
/** Document requests: the record the public request form creates, the
    admin table's filters, and the approve/reject workflow. */
module Requests {
  import opened Js
  import opened Text
  import opened Lists

  /** A request as the API returns it. `id` and `mongoId` (the `_id` field)
      may be absent; so may `status`, which the table then shows as
      "Pending". `viewed` arrives untyped. */
  datatype DocRequest = DocRequest(
    id: Option<string>,
    mongoId: Option<string>,
    fullName: string,
    documentType: string,
    address: string,
    contactNumber: string,
    purpose: string,
    requestDate: string,
    status: Option<string>,
    viewed: Json)

  /** `Object.values(request)` read through `value?.toString()`: absent
      fields give `None`, which the search skips. */
  function Values(r: DocRequest): (vs: seq<Option<string>>)
    ensures |vs| == 10
  {
    [r.id, r.mongoId, Some(r.fullName), Some(r.documentType), Some(r.address),
     Some(r.contactNumber), Some(r.purpose), Some(r.requestDate), r.status, ToText(r.viewed)]
  }

  predicate StatusMatch(r: DocRequest, statusFilter: string) {
    statusFilter == "All" || r.status == Some(statusFilter)
  }

  predicate TypeMatch(r: DocRequest, typeFilter: string) {
    typeFilter == "All" || r.documentType == typeFilter
  }

  /** Some present value contains the query, ignoring case. */
  predicate SearchMatch(r: DocRequest, query: string) {
    exists i :: 0 <= i < |Values(r)| && Values(r)[i].Some?
      && Contains(Lower(Values(r)[i].value), Lower(query))
  }

  predicate Shown(r: DocRequest, statusFilter: string, typeFilter: string, query: string) {
    StatusMatch(r, statusFilter) && TypeMatch(r, typeFilter) && SearchMatch(r, query)
  }

  /** `filteredRequests`: the requests passing all three criteria, in order. */
  function FilterRequests(requests: seq<DocRequest>, statusFilter: string, typeFilter: string,
                          query: string): (shown: seq<DocRequest>)
    ensures IsSubseq(shown, requests)
    ensures forall r :: r in shown <==> (r in requests
      && (statusFilter == "All" || r.status == Some(statusFilter))
      && (typeFilter == "All" || r.documentType == typeFilter)
      && SearchMatch(r, query))
  {
    Filter(requests, r => Shown(r, statusFilter, typeFilter, query))
  }

  /** With both filters on "All" and no query nothing is hidden: every
      request has a full name, which contains the empty string. */
  lemma NoFilterShowsAll(requests: seq<DocRequest>)
    ensures FilterRequests(requests, "All", "All", "") == requests
  {
    forall r | r in requests ensures Shown(r, "All", "All", "") {
      ContainsEmpty(Lower(r.fullName));
      assert Values(r)[2] == Some(r.fullName);
    }
    FilterKeepsAll(requests, r => Shown(r, "All", "All", ""));
  }

  // ------------------------------------------------------------ workflow

  /** `prev.map(req => req.id === id ? { ...req, status } : req)`. Two absent
      ids are equal under `===`, as in the source. */
  function UpdateStatus(requests: seq<DocRequest>, id: Option<string>, status: string): (out: seq<DocRequest>)
    ensures |out| == |requests|
    ensures forall i :: 0 <= i < |requests| && requests[i].id == id ==>
      out[i] == requests[i].(status := Some(status))
    ensures forall i :: 0 <= i < |requests| && requests[i].id != id ==> out[i] == requests[i]
  {
    seq(|requests|, i requires 0 <= i < |requests| =>
      if requests[i].id == id then requests[i].(status := Some(status)) else requests[i])
  }

  /** Approve and Reject are offered while `!request.status` or the status
      is "Pending". */
  predicate CanDecide(r: DocRequest) {
    r.status.None? || r.status == Some("") || r.status == Some("Pending")
  }

  /** `request.status || "Pending"`. The buttons are offered exactly for
      the requests that display as "Pending". */
  function DisplayStatus(r: DocRequest): (shown: string)
    ensures shown != ""
    ensures shown == "Pending" <==> CanDecide(r)
  {
    match r.status
    case None => "Pending"
    case Some(s) => if s == "" then "Pending" else s
  }

  datatype Badge = Success | Danger | Warning

  /** The badge colour: by the raw status, so a blank or absent status is a
      warning. */
  function BadgeOf(r: DocRequest): (b: Badge)
    ensures b == Success <==> r.status == Some("Approved")
    ensures b == Danger <==> r.status == Some("Rejected")
  {
    if r.status == Some("Approved") then Success
    else if r.status == Some("Rejected") then Danger
    else Warning
  }

  /** Deciding a request closes it: it displays its decision, gets the
      decision's colour, and is offered no further buttons; every other
      request is as it was. */
  lemma DecisionIsFinal(requests: seq<DocRequest>, i: int, approve: bool)
    requires 0 <= i < |requests|
    ensures var decision := if approve then "Approved" else "Rejected";
      var out := UpdateStatus(requests, requests[i].id, decision);
      !CanDecide(out[i]) && DisplayStatus(out[i]) == decision
      && BadgeOf(out[i]) == (if approve then Success else Danger)
      && forall j :: 0 <= j < |requests| && requests[j].id != requests[i].id ==> out[j] == requests[j]
  {
  }
}

=== FILE: resident.dfy ===
/** The resident record shared by every screen.

    The back end keeps residents in Redis hashes, so every field comes back
    as a string; numeric fields are compared through `Number(...)`. */
module Residents {
  import opened Js
  import opened Text
  import opened Dates
  import opened Sorting

  datatype Resident = Resident(
    id: string,
    name: string,
    birthdate: string,
    age: string,
    sex: string,
    civilStatus: string,
    purokNumber: string,
    householdNumber: string,
    employmentStatus: string,
    educationalAttainment: string,
    votersStatus: string,
    address: string,
    phone: string,
    residenceStatus: string,
    yearsOfStay: string,
    role: string)

  /** The sixteen fields, one constructor each. */
  datatype Field =
    | Id | Name | Birthdate | Age | Sex | CivilStatus | PurokNumber | HouseholdNumber
    | EmploymentStatus | EducationalAttainment | VotersStatus | Address | Phone
    | ResidenceStatus | YearsOfStay | Role

  /** The fields in the order the forms, the detail view and the CSV list them. */
  const AllFields: seq<Field> := [
    Id, Name, Birthdate, Age, Sex, CivilStatus, PurokNumber, HouseholdNumber,
    EmploymentStatus, EducationalAttainment, VotersStatus, Address, Phone,
    ResidenceStatus, YearsOfStay, Role]

  lemma AllFieldsListsEachOnce(f: Field)
    ensures |AllFields| == 16
    ensures f in AllFields
    ensures forall i, j :: 0 <= i < j < |AllFields| ==> AllFields[i] != AllFields[j]
  {
  }

  /** `resident[field]`. */
  function Get(r: Resident, f: Field): string {
    match f
    case Id => r.id
    case Name => r.name
    case Birthdate => r.birthdate
    case Age => r.age
    case Sex => r.sex
    case CivilStatus => r.civilStatus
    case PurokNumber => r.purokNumber
    case HouseholdNumber => r.householdNumber
    case EmploymentStatus => r.employmentStatus
    case EducationalAttainment => r.educationalAttainment
    case VotersStatus => r.votersStatus
    case Address => r.address
    case Phone => r.phone
    case ResidenceStatus => r.residenceStatus
    case YearsOfStay => r.yearsOfStay
    case Role => r.role
  }

  /** `{ ...r, [field]: v }`, the update behind every `handleInputChange`:
      the named field takes the new value and nothing else changes. */
  function Set(r: Resident, f: Field, v: string): (r': Resident)
    ensures Get(r', f) == v
    ensures forall g :: g != f ==> Get(r', g) == Get(r, g)
  {
    match f
    case Id => r.(id := v)
    case Name => r.(name := v)
    case Birthdate => r.(birthdate := v)
    case Age => r.(age := v)
    case Sex => r.(sex := v)
    case CivilStatus => r.(civilStatus := v)
    case PurokNumber => r.(purokNumber := v)
    case HouseholdNumber => r.(householdNumber := v)
    case EmploymentStatus => r.(employmentStatus := v)
    case EducationalAttainment => r.(educationalAttainment := v)
    case VotersStatus => r.(votersStatus := v)
    case Address => r.(address := v)
    case Phone => r.(phone := v)
    case ResidenceStatus => r.(residenceStatus := v)
    case YearsOfStay => r.(yearsOfStay := v)
    case Role => r.(role := v)
  }

  /** Two records with the same field values are the same record. */
  lemma FieldsDetermineRecord(a: Resident, b: Resident)
    requires forall f :: Get(a, f) == Get(b, f)
    ensures a == b
  {
    assert Get(a, Id) == Get(b, Id) && Get(a, Name) == Get(b, Name);
    assert Get(a, Birthdate) == Get(b, Birthdate) && Get(a, Age) == Get(b, Age);
    assert Get(a, Sex) == Get(b, Sex) && Get(a, CivilStatus) == Get(b, CivilStatus);
    assert Get(a, PurokNumber) == Get(b, PurokNumber);
    assert Get(a, HouseholdNumber) == Get(b, HouseholdNumber);
    assert Get(a, EmploymentStatus) == Get(b, EmploymentStatus);
    assert Get(a, EducationalAttainment) == Get(b, EducationalAttainment);
    assert Get(a, VotersStatus) == Get(b, VotersStatus) && Get(a, Address) == Get(b, Address);
    assert Get(a, Phone) == Get(b, Phone) && Get(a, ResidenceStatus) == Get(b, ResidenceStatus);
    assert Get(a, YearsOfStay) == Get(b, YearsOfStay) && Get(a, Role) == Get(b, Role);
  }

  /** Writing back the value a field already holds changes nothing, and a
      second write to the same field overrides the first. */
  lemma SetLaws(r: Resident, f: Field, v: string, w: string)
    ensures Set(r, f, Get(r, f)) == r
    ensures Set(Set(r, f, v), f, w) == Set(r, f, w)
  {
    FieldsDetermineRecord(Set(r, f, Get(r, f)), r);
    FieldsDetermineRecord(Set(Set(r, f, v), f, w), Set(r, f, w));
  }

  /** `Object.values(resident)`. */
  function Values(r: Resident): (vs: seq<string>)
    ensures |vs| == |AllFields|
    ensures forall i :: 0 <= i < |vs| ==> vs[i] == Get(r, AllFields[i])
  {
    seq(|AllFields|, i requires 0 <= i < |AllFields| => Get(r, AllFields[i]))
  }

  /** Every field value is among the record's values. */
  lemma ValuesHasEveryField(r: Resident, f: Field)
    ensures Get(r, f) in Values(r)
  {
    AllFieldsListsEachOnce(f);
    var i :| 0 <= i < |AllFields| && AllFields[i] == f;
    assert Values(r)[i] == Get(r, f);
  }

  /** The grouping keys the screens use as function values. */
  function PurokOf(r: Resident): string {
    r.purokNumber
  }

  function HouseholdOf(r: Resident): string {
    r.householdNumber
  }

  /** `a.name.localeCompare(b.name)`: the order of the verification and
      contact tables. */
  function NameOrder(r: Resident): Key {
    Word(r.name)
  }

  /** `[...shown].sort((a, b) => a.name.localeCompare(b.name))`: the rows of
      the verification and contact tables, sorted by name, stably. */
  function ByName(shown: seq<Resident>): (rows: seq<Resident>)
    ensures multiset(rows) == multiset(shown)
    ensures Sorted(rows, NameOrder, Asc)
  {
    SortBy(shown, NameOrder, Asc)
  }

  /** The record with every field empty, as the forms start out. */
  const Blank := Resident("", "", "", "", "", "", "", "", "", "", "", "", "", "", "", "")

  // ------------------------------------------------------------ birthdate

  /** `formatDate`: "N/A" for an empty date; otherwise the date read by
      `new Date(s)` printed as `yyyy-MM-dd`, which throws a `RangeError` when
      `s` names no date. A day that does not exist in its month, such as
      2023-02-29, counts as no date here. */
  function FormatDate(s: string): (r: Result<string>)
    ensures s == "" ==> r == Ok("N/A")
    ensures s != "" ==> (r.Ok? <==> ParseIsoDate(s).Some?)
    ensures s != "" && r.Ok? ==> r.value == s
  {
    if s == "" then Ok("N/A")
    else
      match ParseIsoDate(s)
      case Some(d) =>
        IsoOfParse(s);
        Ok(IsoDate(d))
      case None => Failure("RangeError: Invalid time value")
  }

  /** A date stored in the form the add screen sends is displayed as is. */
  lemma FormatStoredDate(d: Date)
    requires Printable(d)
    ensures FormatDate(IsoDate(d)) == Ok(IsoDate(d))
  {
    ParseOfIso(d);
  }

  /** The placeholder "N/A" is not a date: formatting it throws. */
  lemma PlaceholderIsNotADate()
    ensures FormatDate("N/A").Failure?
  {
    assert |"N/A"| != 10;
  }

  /** `new Date(birthdate)` as a sort key; an unreadable date (`NaN`) is
      ordered as 0. */
  function BirthdateKey(s: string): int {
    match ParseIsoDate(s)
    case Some(d) => Serial(d)
    case None => 0
  }
}

=== FILE: residentlist.dfy ===
/** The resident list screen (and its read-only twin): search, the per-field
    sort, the household and sex groupings, CSV export and the edit form. */
module ResidentList {
  import opened Js
  import opened Text
  import opened Dates
  import opened Lists
  import opened Sorting
  import opened Residents

  // --------------------------------------------------------------- search

  /** `value?.toString().toLowerCase().includes(query.toLowerCase())`. */
  predicate ValueMatches(v: string, query: string) {
    Contains(Lower(v), Lower(query))
  }

  /** `values.some(...)`, evaluated left to right. */
  function AnyMatches(vs: seq<string>, query: string): bool {
    if |vs| == 0 then false
    else AnyMatches(vs[..|vs| - 1], query) || ValueMatches(vs[|vs| - 1], query)
  }

  /** `some` holds iff one of the values matches. */
  lemma {:induction false} AnyMatchesIff(vs: seq<string>, query: string)
    ensures AnyMatches(vs, query) <==> exists i :: 0 <= i < |vs| && ValueMatches(vs[i], query)
    decreases |vs|
  {
    if |vs| > 0 {
      var init := vs[..|vs| - 1];
      AnyMatchesIff(init, query);
      if AnyMatches(init, query) {
        var i :| 0 <= i < |init| && ValueMatches(init[i], query);
        assert vs[i] == init[i];
      }
      if exists i :: 0 <= i < |vs| && ValueMatches(vs[i], query) {
        var i :| 0 <= i < |vs| && ValueMatches(vs[i], query);
        if i < |init| {
          assert init[i] == vs[i];
        }
      }
    }
  }

  /** The search test applied to one resident. */
  predicate Matches(r: Resident, query: string) {
    AnyMatches(Values(r), query)
  }

  /** A resident matches iff one of its sixteen fields contains the query,
      ignoring case. */
  lemma MatchesIffSomeField(r: Resident, query: string)
    ensures Matches(r, query) <==> exists f :: ValueMatches(Get(r, f), query)
  {
    AnyMatchesIff(Values(r), query);
    if exists f :: ValueMatches(Get(r, f), query) {
      var f :| ValueMatches(Get(r, f), query);
      AllFieldsListsEachOnce(f);
      var i :| 0 <= i < |AllFields| && AllFields[i] == f;
      assert Values(r)[i] == Get(r, f);
    }
  }

  /** `filteredResidents`: the residents that match, in their original
      order. */
  function Search(residents: seq<Resident>, query: string): (shown: seq<Resident>)
    ensures IsSubseq(shown, residents)
    ensures forall r :: r in shown <==> r in residents && Matches(r, query)
  {
    Filter(residents, r => Matches(r, query))
  }

  /** The empty query is contained in every value, so it hides nobody. */
  lemma EmptyQueryShowsAll(residents: seq<Resident>)
    ensures forall r :: r in residents ==> r in Search(residents, "")
  {
    forall r | r in residents ensures Matches(r, "") {
      ContainsEmpty(Lower(r.id));
      assert Lower("") == "";
      assert ValueMatches(Get(r, Id), "");
      MatchesIffSomeField(r, "");
    }
  }

  // ----------------------------------------------------------------- sort

  /** The `sortBy` selector: "fullDetails" or a field name. */
  datatype SortChoice = FullDetails | ByField(field: Field)

  /** Fields the comparator subtracts as numbers. */
  predicate NumericField(f: Field) {
    f == Id || f == PurokNumber || f == YearsOfStay || f == Age
  }

  /** The field a choice compares on: the id for "fullDetails". */
  function Compared(c: SortChoice): Field {
    if c.FullDetails? then Id else c.field
  }

  /** What the comparator compares for a choice. */
  function SortKey(c: SortChoice, r: Resident): Key {
    var f := Compared(c);
    if NumericField(f) then Num(NumericKey(Get(r, f)))
    else if f == HouseholdNumber then Word(PadStart(Lower(r.householdNumber), 10, '0'))
    else if f == Birthdate then Num(BirthdateKey(r.birthdate))
    else Word(Lower(Get(r, f)))
  }

  /** `sortedResidents`: the comparator applied by a stable sort. */
  function SortResidents(rs: seq<Resident>, c: SortChoice, o: Order): (sorted: seq<Resident>)
    ensures multiset(sorted) == multiset(rs)
    ensures Sorted(sorted, r => SortKey(c, r), o)
  {
    SortBy(rs, r => SortKey(c, r), o)
  }

  /** For "fullDetails" and the numeric fields, earlier rows hold numbers no
      greater (ascending) or no smaller (descending) than later rows. */
  lemma NumericSortOrder(rs: seq<Resident>, c: SortChoice, o: Order)
    requires NumericField(Compared(c))
    ensures var sorted := SortResidents(rs, c, o);
      forall i, j :: 0 <= i < j < |sorted| ==>
        var a, b := NumericKey(Get(sorted[i], Compared(c))), NumericKey(Get(sorted[j], Compared(c)));
        (o == Asc ==> a <= b) && (o == Desc ==> a >= b)
  {
    var sorted := SortResidents(rs, c, o);
    forall i, j | 0 <= i < j < |sorted|
      ensures var a, b := NumericKey(Get(sorted[i], Compared(c))), NumericKey(Get(sorted[j], Compared(c)));
        (o == Asc ==> a <= b) && (o == Desc ==> a >= b)
    {
      assert InOrder(o, SortKey(c, sorted[i]), SortKey(c, sorted[j]));
    }
  }

  /** Household numbers are decimal numerals of at most ten digits. */
  predicate PlainHouseholdNumbers(rs: seq<Resident>) {
    forall r :: r in rs ==> AllDigits(r.householdNumber) && |r.householdNumber| <= 10
  }

  lemma LowerDigits(s: string)
    requires AllDigits(s)
    ensures Lower(s) == s
  {
  }

  /** With plain household numbers, the zero-padded text comparison puts
      the households in numeric order. */
  lemma HouseholdSortIsNumeric(rs: seq<Resident>, o: Order)
    requires PlainHouseholdNumbers(rs)
    ensures var sorted := SortResidents(rs, ByField(HouseholdNumber), o);
      forall i, j :: 0 <= i < j < |sorted| ==>
        var a, b := Value(sorted[i].householdNumber), Value(sorted[j].householdNumber);
        (o == Asc ==> a <= b) && (o == Desc ==> a >= b)
  {
    var c := ByField(HouseholdNumber);
    var sorted := SortResidents(rs, c, o);
    forall i, j | 0 <= i < j < |sorted|
      ensures var a, b := Value(sorted[i].householdNumber), Value(sorted[j].householdNumber);
        (o == Asc ==> a <= b) && (o == Desc ==> a >= b)
    {
      var x, y := sorted[i], sorted[j];
      assert x in multiset(rs) && y in multiset(rs);
      LowerDigits(x.householdNumber);
      LowerDigits(y.householdNumber);
      assert InOrder(o, SortKey(c, x), SortKey(c, y));
      PaddedOrderIsNumeric(x.householdNumber, y.householdNumber, 10);
      PaddedOrderIsNumeric(y.householdNumber, x.householdNumber, 10);
    }
  }

  // ------------------------------------------------------------- grouping

  /** `groupedResidents`: the sorted rows grouped by household number. The
      groups are listed here in order of first appearance; the screen lists
      them in the engine's `Object.entries` order, so no group order is
      promised. */
  function GroupByHousehold(sorted: seq<Resident>): (groups: seq<Group<string, Resident>>)
    ensures Size(groups) == |sorted|
    ensures NoDup(Keys(groups))
    ensures forall h :: h in Keys(groups) <==> exists r :: r in sorted && r.householdNumber == h
    ensures forall g :: g in groups ==> IsSubseq(g.members, sorted)
    ensures forall g, r :: g in groups && r in g.members ==> r.householdNumber == g.key
  {
    var groups := GroupBy(sorted, HouseholdOf);
    forall h | h in Keys(groups) ensures exists r :: r in sorted && r.householdNumber == h {
      var i :| 0 <= i < |sorted| && MapKeys(sorted, HouseholdOf)[i] == h;
      assert sorted[i] in sorted;
    }
    forall h | exists r :: r in sorted && r.householdNumber == h ensures h in Keys(groups) {
      var r :| r in sorted && r.householdNumber == h;
      MapKeysHas(sorted, HouseholdOf, r);
    }
    groups
  }

  /** Every sorted row is in exactly one household group: the one with its
      household number. */
  lemma HouseholdGroupsPartition(sorted: seq<Resident>, r: Resident)
    requires r in sorted
    ensures exists i :: 0 <= i < |GroupByHousehold(sorted)| && r in GroupByHousehold(sorted)[i].members
    ensures forall i :: 0 <= i < |GroupByHousehold(sorted)| ==>
      (r in GroupByHousehold(sorted)[i].members <==> GroupByHousehold(sorted)[i].key == r.householdNumber)
  {
    assert GroupByHousehold(sorted) == GroupBy(sorted, HouseholdOf);
    GroupByPartition(sorted, HouseholdOf, r);
  }

  // ------------------------------------------------------------- sex view

  predicate IsMale(r: Resident) {
    r.sex == "Male"
  }

  predicate IsFemale(r: Resident) {
    r.sex == "Female"
  }

  predicate MaleOrFemale(r: Resident) {
    r.sex == "Male" || r.sex == "Female"
  }

  /** The rows of the "sex" view: the male residents, then the female ones,
      each in sorted order; any other value is not listed. */
  function SexView(sorted: seq<Resident>): (rows: seq<Resident>)
    ensures forall r :: r in rows <==> r in sorted && MaleOrFemale(r)
    ensures |rows| == Count(sorted, MaleOrFemale) <= |sorted|
    ensures var k := Count(sorted, IsMale);
      k <= |rows|
      && (forall i :: 0 <= i < k ==> rows[i].sex == "Male")
      && (forall i :: k <= i < |rows| ==> rows[i].sex == "Female")
    ensures var k := Count(sorted, IsMale);
      k <= |rows| && IsSubseq(rows[..k], sorted) && IsSubseq(rows[k..], sorted)
  {
    SexViewFacts(sorted);
    var males, females := Filter(sorted, IsMale), Filter(sorted, IsFemale);
    assert (males + females)[..|males|] == males;
    assert (males + females)[|males|..] == females;
    Filter(sorted, IsMale) + Filter(sorted, IsFemale)
  }

  lemma SexViewFacts(sorted: seq<Resident>)
    ensures var males, females := Filter(sorted, IsMale), Filter(sorted, IsFemale);
      |males| == Count(sorted, IsMale) && |males + females| == Count(sorted, MaleOrFemale)
      && (forall i :: 0 <= i < |males| ==> (males + females)[i].sex == "Male")
      && (forall i :: |males| <= i < |males + females| ==> (males + females)[i].sex == "Female")
  {
    var males: seq<Resident>, females: seq<Resident> := Filter(sorted, IsMale), Filter(sorted, IsFemale);
    CountIsFilterLength(sorted, IsMale);
    CountIsFilterLength(sorted, IsFemale);
    CountDisjoint(sorted, IsMale, IsFemale, MaleOrFemale);
    forall i | 0 <= i < |males + females|
      ensures (males + females)[i].sex == if i < |males| then "Male" else "Female"
    {
      if i < |males| {
        assert IsMale(males[i]);
      } else {
        assert IsFemale(females[i - |males|]);
      }
    }
  }

  // ------------------------------------------------------------ CSV export

  /** The CSV header: the sixteen column titles, in field order. */
  const CsvHeader: seq<string> := [
    "ID", "Name", "Birthdate", "Age", "Sex", "Civil Status", "Purok Number",
    "Household Number", "Employment Status", "Educational Attainment",
    "Voter's Status", "Address", "Phone", "Residence Status", "Years of Stay", "Role"]

  /** `formatDate(resident.birthdate) || "N/A"`. */
  function BirthdateCell(r: Resident): Result<string> {
    match FormatDate(r.birthdate)
    case Ok(s) => Ok(if s == "" then "N/A" else s)
    case Failure(e) => Failure(e)
  }

  /** One exported row: the resident's field values in header order, with
      the birthdate formatted; it throws when the birthdate is unreadable. */
  function CsvRow(r: Resident): (row: Result<seq<string>>)
    ensures row.Ok? <==> FormatDate(r.birthdate).Ok?
    ensures row.Ok? ==> |row.value| == |CsvHeader| && row.value[0] == r.id
    ensures row.Ok? ==> forall i :: 0 <= i < |AllFields| && AllFields[i] != Birthdate ==>
      row.value[i] == Get(r, AllFields[i])
    ensures row.Ok? ==> row.value[2] != "" && (r.birthdate == "" <==> row.value[2] == "N/A")
  {
    match BirthdateCell(r)
    case Ok(b) => Ok(Values(r)[2 := b])
    case Failure(e) => Failure(e)
  }

  /** `rows.map(CsvRow)`, stopping at the first row that throws. */
  function CsvRows(rs: seq<Resident>): (out: Result<seq<seq<string>>>)
    ensures out.Ok? <==> forall r :: r in rs ==> CsvRow(r).Ok?
    ensures out.Ok? ==> |out.value| == |rs|
    ensures out.Ok? ==> forall i :: 0 <= i < |rs| ==> out.value[i] == CsvRow(rs[i]).value
    ensures out.Ok? ==> forall i :: 0 <= i < |rs| ==> |out.value[i]| == |CsvHeader| && out.value[i][0] == rs[i].id
  {
    if |rs| == 0 then Ok([])
    else
      var init := rs[..|rs| - 1];
      assert rs == init + [rs[|rs| - 1]];
      match CsvRows(init)
      case Failure(e) => Failure(e)
      case Ok(rows) =>
        match CsvRow(rs[|rs| - 1])
        case Failure(e) => Failure(e)
        case Ok(row) => Ok(rows + [row])
  }

  function IdKey(r: Resident): Key {
    Num(NumericKey(r.id))
  }

  /** What became of the export: the prompt was cancelled or left empty,
      `formatDate` threw part-way through the rows, or a file with this name
      and these rows was downloaded. */
  datatype Outcome = Cancelled | Failed(error: string) | Saved(name: string, rows: seq<seq<string>>)

  /** What the export leaves behind: the `residents` state, which
      `residents.sort(...)` reorders in place before any row is built, and
      what became of the file. */
  datatype Export = Export(state: seq<Resident>, outcome: Outcome)

  /** `handleExportCSV`: `answer` is what the file-name prompt returned
      (`None` for a cancelled prompt). Without a name nothing happens.
      Otherwise every resident — not only the ones the search shows — is
      ordered by numeric id in the current direction, one row each, and the
      reordering sticks to the screen's state even when a row throws. */
  function ExportCsv(residents: seq<Resident>, o: Order, answer: Option<string>): (out: Export)
    ensures out.outcome.Cancelled? <==> answer.None? || answer.value == ""
    ensures out.outcome.Cancelled? ==> out.state == residents
    ensures multiset(out.state) == multiset(residents)
    ensures !out.outcome.Cancelled? ==> Sorted(out.state, IdKey, o)
    ensures out.outcome.Saved? <==>
      !out.outcome.Cancelled? && forall r :: r in residents ==> FormatDate(r.birthdate).Ok?
    ensures out.outcome.Saved? ==> out.outcome.name == answer.value + ".csv"
    ensures out.outcome.Saved? ==> |out.outcome.rows| == |residents|
    ensures out.outcome.Saved? ==> forall row :: row in out.outcome.rows ==> |row| == |CsvHeader|
    ensures out.outcome.Saved? ==> RowsSortedById(out.outcome.rows, o)
    ensures out.outcome.Saved? ==> forall r :: r in residents ==> CsvRow(r).value in out.outcome.rows
    ensures out.outcome.Saved? ==> forall row :: row in out.outcome.rows ==>
      exists r :: r in residents && row == CsvRow(r).value
  {
    if answer.None? || answer.value == "" then Export(residents, Cancelled)
    else
      var sorted := SortBy(residents, IdKey, o);
      ExportFacts(residents, sorted, o);
      match CsvRows(sorted)
      case Failure(e) => Export(sorted, Failed(e))
      case Ok(rows) => Export(sorted, Saved(answer.value + ".csv", rows))
  }

  /** The in-place sort is visible afterwards: two residents of the same
      sex, fetched with the larger id first, keep that order in the "sex"
      view until an ascending export puts the state, and so every later
      stable sort's ties, in id order. */
  lemma ExportChangesTieOrder(a: Resident, b: Resident, name: string)
    requires a.sex == b.sex && NumericKey(b.id) < NumericKey(a.id) && name != ""
    ensures SortResidents([a, b], ByField(Sex), Asc) == [a, b]
    ensures ExportCsv([a, b], Asc, Some(name)).state == [b, a]
    ensures SortResidents(ExportCsv([a, b], Asc, Some(name)).state, ByField(Sex), Asc) == [b, a]
  {
    OneSexStays([a, b], Asc);
    OneSexStays([b, a], Asc);
    ExportPutsLowerIdFirst(a, b, name);
  }

  /** The "sex" sort is stable: the residents of any one sex (ignoring
      case), picked out by `p`, keep their relative order. */
  lemma SameSexKeepsOrder(rs: seq<Resident>, o: Order, sex: string, p: Resident -> bool)
    requires forall r :: p(r) == (Lower(r.sex) == Lower(sex))
    ensures Filter(SortResidents(rs, ByField(Sex), o), p) == Filter(rs, p)
  {
    var bySex := r => SortKey(ByField(Sex), r);
    assert forall r :: p(r) == (bySex(r) == Word(Lower(sex)));
    SortStable(rs, bySex, o, Word(Lower(sex)), p);
  }

  /** When everyone shares one sex, the "sex" sort changes nothing. */
  lemma OneSexStays(rs: seq<Resident>, o: Order)
    requires forall i :: 0 <= i < |rs| ==> rs[i].sex == rs[0].sex
    ensures SortResidents(rs, ByField(Sex), o) == rs
  {
    var bySex := r => SortKey(ByField(Sex), r);
    forall i, j | 0 <= i < j < |rs| ensures InOrder(o, bySex(rs[i]), bySex(rs[j])) {
      assert bySex(rs[i]) == bySex(rs[j]);
      KeyRefl(bySex(rs[i]));
    }
    SortSortedIsIdentity(rs, bySex, o);
  }

  /** An ascending export moves the resident with the smaller id to the
      front of the state. */
  lemma ExportPutsLowerIdFirst(a: Resident, b: Resident, name: string)
    requires NumericKey(b.id) < NumericKey(a.id) && name != ""
    ensures ExportCsv([a, b], Asc, Some(name)).state == [b, a]
  {
    assert [a, b][..1] == [a];
    assert SortBy([a], IdKey, Asc) == [a];
    assert Insert([], b, IdKey, Asc) == [b];
    assert SortBy([a, b], IdKey, Asc) == Insert([a], b, IdKey, Asc);
  }

  lemma ExportFacts(residents: seq<Resident>, sorted: seq<Resident>, o: Order)
    requires sorted == SortBy(residents, IdKey, o)
    ensures |sorted| == |residents|
    ensures forall r :: r in sorted <==> r in residents
    ensures CsvRows(sorted).Ok? ==> RowsSortedById(CsvRows(sorted).value, o)
    ensures CsvRows(sorted).Ok? ==> forall r :: r in residents ==> CsvRow(r).value in CsvRows(sorted).value
    ensures CsvRows(sorted).Ok? ==> forall row :: row in CsvRows(sorted).value ==>
      exists r :: r in residents && row == CsvRow(r).value
  {
    SortLength(residents, IdKey, o);
    assert forall r :: r in sorted <==> r in residents by {
      assert forall r :: r in sorted <==> r in multiset(sorted);
    }
    if CsvRows(sorted).Ok? {
      RowsCorrespond(residents, sorted);
      RowsOrderedById(sorted, o);
    }
  }

  /** Rows and residents correspond both ways. */
  lemma RowsCorrespond(residents: seq<Resident>, sorted: seq<Resident>)
    requires forall r :: r in sorted <==> r in residents
    requires CsvRows(sorted).Ok?
    ensures forall r :: r in residents ==> CsvRow(r).value in CsvRows(sorted).value
    ensures forall row :: row in CsvRows(sorted).value ==> exists r :: r in residents && row == CsvRow(r).value
  {
    var out := CsvRows(sorted).value;
    forall r | r in residents ensures CsvRow(r).value in out {
      var i :| 0 <= i < |sorted| && sorted[i] == r;
      assert out[i] == CsvRow(r).value;
    }
    forall row | row in out ensures exists r :: r in residents && row == CsvRow(r).value {
      var i :| 0 <= i < |out| && out[i] == row;
      assert sorted[i] in residents;
    }
  }

  /** The id column carries the order of the sorted residents. */
  lemma RowsOrderedById(sorted: seq<Resident>, o: Order)
    requires Sorted(sorted, IdKey, o)
    requires CsvRows(sorted).Ok?
    ensures RowsSortedById(CsvRows(sorted).value, o)
  {
    var out := CsvRows(sorted).value;
    forall i, j | 0 <= i < j < |out| && |out[i]| > 0 && |out[j]| > 0
      ensures InOrder(o, Num(NumericKey(out[i][0])), Num(NumericKey(out[j][0])))
    {
      RowPairOrdered(sorted, o, i, j);
    }
  }

  lemma RowPairOrdered(sorted: seq<Resident>, o: Order, i: int, j: int)
    requires Sorted(sorted, IdKey, o)
    requires CsvRows(sorted).Ok? && 0 <= i < j < |sorted|
    ensures InOrder(o, Num(NumericKey(CsvRows(sorted).value[i][0])), Num(NumericKey(CsvRows(sorted).value[j][0])))
  {
    var out := CsvRows(sorted).value;
    var x, y := sorted[i].id, sorted[j].id;
    assert out[i][0] == x && out[j][0] == y;
    assert InOrder(o, Num(NumericKey(x)), Num(NumericKey(y))) by {
      assert InOrder(o, IdKey(sorted[i]), IdKey(sorted[j]));
    }
  }

  /** Rows ordered by the number in their id column. */
  predicate RowsSortedById(rows: seq<seq<string>>, o: Order) {
    forall i, j :: 0 <= i < j < |rows| && |rows[i]| > 0 && |rows[j]| > 0 ==>
      InOrder(o, Num(NumericKey(rows[i][0])), Num(NumericKey(rows[j][0])))
  }


  // ------------------------------------------------------------ edit form

  /** `handleEditSubmit` as written: the birthdate sent is `formatDate`'s
      output, so an empty birthdate is saved as "N/A"; a throwing
      `formatDate` aborts the submit. */
  function EditSubmit(form: Resident): (saved: Result<Resident>)
    ensures saved.Ok? <==> FormatDate(form.birthdate).Ok?
    ensures saved.Ok? ==> forall f :: f != Birthdate ==> Get(saved.value, f) == Get(form, f)
    ensures saved.Ok? && form.birthdate != "" ==> saved.value == form
  {
    match FormatDate(form.birthdate)
    case Ok(b) =>
      SetLaws(form, Birthdate, b, b);
      Ok(Set(form, Birthdate, b))
    case Failure(e) => Failure(e)
  }

  /** Saving a resident without a birthdate stores "N/A", and the stored
      record then makes `formatDate` throw wherever the list shows it. */
  lemma EditSubmitStoresUnreadableDate()
    ensures EditSubmit(Blank).Ok?
    ensures EditSubmit(Blank).value.birthdate == "N/A"
    ensures FormatDate(EditSubmit(Blank).value.birthdate).Failure?
    ensures CsvRow(EditSubmit(Blank).value).Failure?
  {
    PlaceholderIsNotADate();
  }

  /** The submit as evidently intended: an empty birthdate stays empty. */
  function EditSubmitKeepingEmpty(form: Resident): (saved: Result<Resident>)
    ensures saved.Ok? <==> FormatDate(form.birthdate).Ok?
    ensures saved.Ok? ==> saved.value == form
  {
    if form.birthdate == "" then Ok(form) else EditSubmit(form)
  }

  /** Whatever the corrected submit saves can be shown and exported again. */
  lemma SavedRecordStaysReadable(form: Resident)
    requires EditSubmitKeepingEmpty(form).Ok?
    ensures FormatDate(EditSubmitKeepingEmpty(form).value.birthdate).Ok?
    ensures CsvRow(EditSubmitKeepingEmpty(form).value).Ok?
  {
  }
}

=== FILE: routes.dfy ===
/** The router: three public pages and the two role sections, each section
    behind the route guard that reads the stored user.

    A section's pages come from the `<Routes>` table inside its shell
    (`Admin`, `BarangayOfficial`), matched against the rest of the path. The
    shells render no `<Outlet/>`, so the child routes nested under the
    sections in `App` never show; they list the same pages anyway. */
module Routes {
  import opened Js
  import opened Text
  import opened Users
  import Login

  datatype Page =
    | DashboardHome | AddResident | ResidentList | ViewResidentList | PurokManagement
    | HouseholdManagement | ContactDirectory | ResidencyVerification | ReportsAnalytics
    | UserManagement | DocumentRequests

  /** The page routes of the admin shell, in declaration order. */
  const AdminPages: seq<(string, Page)> := [
    ("dashboard", DashboardHome), ("add-resident", AddResident), ("resident-list", ResidentList),
    ("purok-management", PurokManagement), ("household-management", HouseholdManagement),
    ("contact-directory", ContactDirectory), ("residency-verification", ResidencyVerification),
    ("reports-analytics", ReportsAnalytics), ("user-management", UserManagement),
    ("document-requests", DocumentRequests)]

  /** The page routes of the official shell: no add-resident and no user
      management, and the read-only resident list. */
  const OfficialPages: seq<(string, Page)> := [
    ("dashboard", DashboardHome), ("resident-list", ViewResidentList),
    ("purok-management", PurokManagement), ("household-management", HouseholdManagement),
    ("contact-directory", ContactDirectory), ("residency-verification", ResidencyVerification),
    ("reports-analytics", ReportsAnalytics), ("document-requests", DocumentRequests)]

  /** The page a child segment names in a section's table: the first entry
      with that path. */
  function Child(table: seq<(string, Page)>, name: string): (p: Option<Page>)
    ensures p.Some? <==> exists i :: 0 <= i < |table| && table[i].0 == name
    ensures p.Some? ==> (name, p.value) in table
  {
    if |table| == 0 then None
    else if table[0].0 == name then Some(table[0].1)
    else
      var p := Child(table[1..], name);
      assert forall i :: 0 < i < |table| ==> table[i] == table[1..][i - 1];
      assert p.Some? ==> (name, p.value) in table[1..];
      p
  }

  /** `ProtectedRoute`: no stored user, or one whose role differs from the
      required one ignoring case, is sent back to `/`. */
  predicate Admits(user: Option<User>, role: string) {
    user.Some? && Lower(user.value.role) == Lower(role)
  }

  /** What the router shows. */
  datatype View =
    | LoginPage
    | AboutPage
    | MapPage
    | Section(role: string, page: Option<Page>)
    | Bounced
    | NoMatch

  /** The view for a path given as its segments (`/admin/dashboard` is
      `["admin", "dashboard"]`); segments match ignoring case, as the router
      does by default. The bare section path hits the shell's index route,
      which redirects to the section's dashboard; a path the shell's table
      does not declare leaves its main area empty. */
  function Route(path: seq<string>, user: Option<User>): (v: View)
    ensures v.Section? ==> v.role == AdminRole || v.role == OfficialRole
    ensures v.Section? ==> Admits(user, v.role)
    ensures v.Section? && |path| == 1 ==> v.page == Some(DashboardHome)
    ensures v.Section? && |path| > 2 ==> v.page.None?
    ensures v.Section? && |path| == 2 && v.page.Some? && v.role == AdminRole ==> (Lower(path[1]), v.page.value) in AdminPages
    ensures v.Section? && |path| == 2 && v.page.Some? && v.role == OfficialRole ==> (Lower(path[1]), v.page.value) in OfficialPages
    ensures v == Bounced ==> |path| > 0 && (Lower(path[0]) == AdminRole || Lower(path[0]) == Lower(OfficialRole))
  {
    if |path| == 0 then LoginPage
    else
      var top := Lower(path[0]);
      if |path| == 1 && top == "about" then AboutPage
      else if |path| == 1 && top == "map" then MapPage
      else if top == AdminRole then
        if Admits(user, AdminRole) then
          Section(AdminRole, ShellPage(AdminPages, path))
        else Bounced
      else if top == Lower(OfficialRole) then
        if Admits(user, OfficialRole) then
          Section(OfficialRole, ShellPage(OfficialPages, path))
        else Bounced
      else NoMatch
  }

  /** What a shell's `<Routes>` shows for the section path `path`: the
      index route `/` navigates to the dashboard, a declared page shows that
      page, and anything deeper or undeclared shows nothing. */
  function ShellPage(table: seq<(string, Page)>, path: seq<string>): Option<Page>
    requires |path| > 0
  {
    if |path| == 1 then Child(table, "dashboard")
    else if |path| == 2 then Child(table, Lower(path[1]))
    else None
  }

  /** The bare section path lands on the same view as the section's
      dashboard, for admitted and refused users alike. */
  lemma SectionIndexIsDashboard(section: string, user: Option<User>)
    requires Lower(section) == AdminRole || Lower(section) == Lower(OfficialRole)
    ensures Route([section], user) == Route([section, "dashboard"], user)
    ensures Route([section], user).Section? ==> Route([section], user).page == Some(DashboardHome)
  {
  }

  /** Adding residents and managing users are admin-only, and the read-only
      resident list is the official's: whoever sees one of those pages has
      that role, in some spelling. */
  lemma RestrictedPages(path: seq<string>, user: Option<User>)
    ensures Route(path, user).Section? && Route(path, user).page in {Some(AddResident), Some(UserManagement)}
            ==> user.Some? && Lower(user.value.role) == AdminRole
    ensures Route(path, user).Section? && Route(path, user).page == Some(ViewResidentList)
            ==> user.Some? && Lower(user.value.role) == Lower(OfficialRole)
  {
    var v := Route(path, user);
    Login.OfficialLowered();
    assert Lower(AdminRole) == AdminRole;
    if v.Section? && v.page.Some? && |path| == 2 {
      var k := Lower(path[1]);
      if v.role == AdminRole {
        assert (k, v.page.value) in AdminPages;
      } else {
        assert (k, v.page.value) in OfficialPages;
      }
    }
  }

  /** No user gets into both sections: the two required roles differ even
      ignoring case. */
  lemma SectionsExclusive(user: Option<User>)
    ensures !(Admits(user, AdminRole) && Admits(user, OfficialRole))
  {
    Login.OfficialLowered();
    assert Lower(AdminRole) == AdminRole;
  }

  /** The guard ignores case, so storing the normalised role admits the
      user to exactly the sections the server's spelling would have. */
  lemma GuardIgnoresNormalization(u: User, role: string)
    ensures Admits(Some(u.(role := Login.NormalizeRole(u.role))), role) == Admits(Some(u), role)
  {
  }

  /** Whoever signs in is taken to a page the router lets them see: the
      dashboard of their own section, or the login page for any other
      role. */
  lemma SignInLandsOnDashboard(email: string, password: string, reply: Login.Reply)
    requires Login.HandleLogin(email, password, reply).SignedIn?
    ensures var o := Login.HandleLogin(email, password, reply);
            Route(o.to, Some(o.user)) ==
              (if o.to == [] then LoginPage else Section(o.user.role, Some(DashboardHome)))
  {
    var o := Login.HandleLogin(email, password, reply);
    Login.OfficialLowered();
    assert Lower(AdminRole) == AdminRole;
    assert Lower("dashboard") == "dashboard";
    assert Child(AdminPages, "dashboard") == Some(DashboardHome);
    assert Child(OfficialPages, "dashboard") == Some(DashboardHome);
  }
}

=== FILE: sorting.dfy ===
/** `Array.prototype.sort` with the comparators the screens pass to it.

    Every comparator in the application compares one derived key of the two
    records — a number (`a - b`) or a string (`localeCompare`) — and negates
    the result for descending order. The engine's sort is stable, so
    records with equal keys keep their input order; the insertion sort
    below is stable in the same way. */
module Sorting {
  import opened Text
  import opened Lists

  /** The value a comparator derives from a record. */
  datatype Key = Num(n: int) | Word(w: string)

  /** `compare(a, b) <= 0` for the ascending comparator; numbers come before
      words, a case no screen mixes. */
  predicate KeyLe(a: Key, b: Key) {
    match a
    case Num(x) => (match b case Num(y) => x <= y case Word(_) => true)
    case Word(x) => (match b case Num(_) => false case Word(y) => LexLe(x, y))
  }

  lemma KeyRefl(a: Key)
    ensures KeyLe(a, a)
  {
    if a.Word? {
      LexRefl(a.w);
    }
  }

  lemma KeyTotal(a: Key, b: Key)
    ensures KeyLe(a, b) || KeyLe(b, a)
  {
    if a.Word? && b.Word? {
      LexTotal(a.w, b.w);
    }
  }

  lemma KeyTrans(a: Key, b: Key, c: Key)
    requires KeyLe(a, b) && KeyLe(b, c)
    ensures KeyLe(a, c)
  {
    if a.Word? && b.Word? && c.Word? {
      LexTrans(a.w, b.w, c.w);
    }
  }

  /** The `sortOrder` state: `"asc"` or `"desc"`. */
  datatype Order = Asc | Desc {
    /** `sortOrder === "asc" ? "desc" : "asc"`. */
    function Toggle(): (o: Order)
      ensures o != this
    {
      if this == Asc then Desc else Asc
    }
  }

  lemma ToggleInvolutive(o: Order)
    ensures o.Toggle().Toggle() == o
  {
  }

  /** `a` may precede `b` when sorting in order `o`. */
  predicate InOrder(o: Order, a: Key, b: Key) {
    if o == Asc then KeyLe(a, b) else KeyLe(b, a)
  }

  lemma InOrderTotal(o: Order, a: Key, b: Key)
    ensures InOrder(o, a, b) || InOrder(o, b, a)
  {
    KeyTotal(a, b);
  }

  lemma InOrderTrans(o: Order, a: Key, b: Key, c: Key)
    requires InOrder(o, a, b) && InOrder(o, b, c)
    ensures InOrder(o, a, c)
  {
    if o == Asc {
      KeyTrans(a, b, c);
    } else {
      KeyTrans(c, b, a);
    }
  }

  /** Every earlier element may precede every later one. */
  predicate Sorted<T>(s: seq<T>, key: T -> Key, o: Order) {
    forall i, j :: 0 <= i < j < |s| ==> InOrder(o, key(s[i]), key(s[j]))
  }

  /** Inserts `x` behind the last element that may precede it. */
  function Insert<T(==)>(s: seq<T>, x: T, key: T -> Key, o: Order): (r: seq<T>)
    requires Sorted(s, key, o)
    ensures multiset(r) == multiset(s) + multiset{x}
    ensures Sorted(r, key, o)
  {
    if |s| == 0 then [x]
    else
      var last := s[|s| - 1];
      if InOrder(o, key(last), key(x)) then
        InsertAfter(s, x, key, o);
        s + [x]
      else
        var init := s[..|s| - 1];
        assert s == init + [last];
        var r := Insert(init, x, key, o);
        InsertBefore(init, last, x, r, key, o);
        r + [last]
  }

  lemma InsertAfter<T>(s: seq<T>, x: T, key: T -> Key, o: Order)
    requires Sorted(s, key, o) && |s| > 0 && InOrder(o, key(s[|s| - 1]), key(x))
    ensures Sorted(s + [x], key, o)
  {
    forall i | 0 <= i < |s| ensures InOrder(o, key(s[i]), key(x)) {
      if i < |s| - 1 {
        InOrderTrans(o, key(s[i]), key(s[|s| - 1]), key(x));
      }
    }
  }

  lemma InsertBefore<T>(init: seq<T>, last: T, x: T, r: seq<T>, key: T -> Key, o: Order)
    requires Sorted(init + [last], key, o) && !InOrder(o, key(last), key(x))
    requires Sorted(r, key, o) && multiset(r) == multiset(init) + multiset{x}
    ensures Sorted(r + [last], key, o)
  {
    InOrderTotal(o, key(last), key(x));
    forall i | 0 <= i < |r| ensures InOrder(o, key(r[i]), key(last)) {
      assert r[i] in multiset(r);
      if r[i] != x {
        assert r[i] in multiset(init);
        var k :| 0 <= k < |init| && init[k] == r[i];
        assert (init + [last])[k] == r[i] && (init + [last])[|init|] == last;
      }
    }
  }

  /** `s.slice().sort(comparator)`: a stable sort on `key` in order `o`. */
  function SortBy<T(==)>(s: seq<T>, key: T -> Key, o: Order): (r: seq<T>)
    ensures multiset(r) == multiset(s)
    ensures Sorted(r, key, o)
  {
    if |s| == 0 then []
    else
      assert s == s[..|s| - 1] + [s[|s| - 1]];
      Insert(SortBy(s[..|s| - 1], key, o), s[|s| - 1], key, o)
  }

  /** A sequence that is already in order comes back unchanged, so sorting
      twice is sorting once. */
  lemma {:induction false} SortSortedIsIdentity<T>(s: seq<T>, key: T -> Key, o: Order)
    requires Sorted(s, key, o)
    ensures SortBy(s, key, o) == s
    decreases |s|
  {
    if |s| > 0 {
      var init, x := s[..|s| - 1], s[|s| - 1];
      assert Sorted(init, key, o);
      calc {
        SortBy(s, key, o);
        Insert(SortBy(init, key, o), x, key, o);
        { SortSortedIsIdentity(init, key, o); }
        Insert(init, x, key, o);
        { assert |init| > 0 ==> InOrder(o, key(init[|init| - 1]), key(x));
          InsertInOrder(init, x, key, o); }
        init + [x];
        s;
      }
    }
  }

  /** An element that may follow the last one is appended. */
  lemma InsertInOrder<T>(s: seq<T>, x: T, key: T -> Key, o: Order)
    requires Sorted(s, key, o)
    requires |s| > 0 ==> InOrder(o, key(s[|s| - 1]), key(x))
    ensures Insert(s, x, key, o) == s + [x]
  {
  }

  lemma SortIdempotent<T>(s: seq<T>, key: T -> Key, o: Order)
    ensures SortBy(SortBy(s, key, o), key, o) == SortBy(s, key, o)
  {
    SortSortedIsIdentity(SortBy(s, key, o), key, o);
  }

  /** Permuting does not change the length. */
  lemma SortLength<T>(s: seq<T>, key: T -> Key, o: Order)
    ensures |SortBy(s, key, o)| == |s|
  {
    assert |multiset(SortBy(s, key, o))| == |multiset(s)|;
  }

  /** Stability: the elements sharing any one key `k` (those `p` picks out)
      come out of the sort in the order they went in. */
  lemma {:induction false} SortStable<T(!new)>(s: seq<T>, key: T -> Key, o: Order, k: Key, p: T -> bool)
    requires forall y :: p(y) == (key(y) == k)
    ensures Filter(SortBy(s, key, o), p) == Filter(s, p)
    decreases |s|
  {
    if |s| > 0 {
      var init, x := s[..|s| - 1], s[|s| - 1];
      assert s == init + [x];
      var sorted := SortBy(init, key, o);
      InsertStable(sorted, x, key, o, k, p);
      FilterAppend(sorted, [x], p);
      SortStable(init, key, o, k, p);
      FilterAppend(init, [x], p);
    }
  }

  /** Inserting keeps the relative order of the elements sharing a key:
      `x` only moves past elements whose key differs from its own. */
  lemma {:induction false} InsertStable<T(!new)>(s: seq<T>, x: T, key: T -> Key, o: Order, k: Key, p: T -> bool)
    requires Sorted(s, key, o)
    requires forall y :: p(y) == (key(y) == k)
    ensures Filter(Insert(s, x, key, o), p) == Filter(s + [x], p)
    decreases |s|
  {
    if |s| > 0 {
      var init, last := s[..|s| - 1], s[|s| - 1];
      if !InOrder(o, key(last), key(x)) {
        assert s == init + [last];
        assert s + [x] == init + [last] + [x];
        var r := Insert(init, x, key, o);
        InsertStable(init, x, key, o, k, p);
        FilterAppend(r, [last], p);
        FilterAppend(init + [x], [last], p);
        FilterAppend(init, [x], p);
        FilterAppend(init + [last], [x], p);
        FilterAppend(init, [last], p);
        if key(last) == key(x) {
          KeyRefl(key(x));
          assert false;
        } else if p(x) {
          assert Filter([last], p) == [];
        } else {
          assert Filter([x], p) == [];
        }
      }
    }
  }
}

=== FILE: tables.dfy ===
/** The summary tables of the purok and household screens share one shape:
    reduce the residents into an object keyed by some field, turn each
    `[key, group]` entry into a row, and sort the rows by a key of their
    own. This module states that shape once, for any element and row type. */
module Tables {
  import opened Lists
  import opened Sorting

  /** `Object.entries(groups).map(summarize).sort(order)`, where `groups`
      is the `reduce` of `s` by `key`. The row for key `p` names `p`. */
  function Table<T(!new), S(==)>(s: seq<T>, key: T -> string,
                                 summarize: (string, seq<T>) -> S,
                                 rowKey: S -> string, order: S -> Key): (rows: seq<S>)
    requires forall p, m :: rowKey(summarize(p, m)) == p
    ensures forall e :: e in rows ==> e == summarize(rowKey(e), WithKey(s, key, rowKey(e)))
    ensures forall e :: e in rows ==> |WithKey(s, key, rowKey(e))| > 0
    ensures forall p :: p in MapKeys(rows, rowKey) <==> exists x :: x in s && key(x) == p
    ensures NoDup(MapKeys(rows, rowKey))
    ensures Sorted(rows, order, Asc)
    ensures Sum(Tally(s, key, MapKeys(rows, rowKey))) == |s|
  {
    var gs := GroupBy(s, key);
    var unsorted := seq(|gs|, i requires 0 <= i < |gs| => summarize(gs[i].key, gs[i].members));
    var rows := SortBy(unsorted, order, Asc);
    TableFacts(s, key, summarize, rowKey, gs, unsorted, rows);
    rows
  }

  lemma TableFacts<T(!new), S>(s: seq<T>, key: T -> string,
                               summarize: (string, seq<T>) -> S, rowKey: S -> string,
                               gs: seq<Group<string, T>>, unsorted: seq<S>, rows: seq<S>)
    requires forall p, m :: rowKey(summarize(p, m)) == p
    requires gs == GroupBy(s, key)
    requires |unsorted| == |gs|
    requires forall i :: 0 <= i < |gs| ==> unsorted[i] == summarize(gs[i].key, gs[i].members)
    requires multiset(rows) == multiset(unsorted)
    ensures forall e :: e in rows ==> e == summarize(rowKey(e), WithKey(s, key, rowKey(e)))
    ensures forall e :: e in rows ==> |WithKey(s, key, rowKey(e))| > 0
    ensures forall p :: p in MapKeys(rows, rowKey) <==> exists x :: x in s && key(x) == p
    ensures NoDup(MapKeys(rows, rowKey))
    ensures Sum(Tally(s, key, MapKeys(rows, rowKey))) == |s|
  {
    assert forall e :: e in rows <==> e in unsorted by {
      assert forall e :: e in rows <==> e in multiset(rows);
    }
    forall e | e in rows
      ensures e == summarize(rowKey(e), WithKey(s, key, rowKey(e)))
      ensures |WithKey(s, key, rowKey(e))| > 0
    {
      var i :| 0 <= i < |unsorted| && unsorted[i] == e;
      RowOfGroup(s, key, summarize, rowKey, gs, i);
    }
    forall p ensures p in MapKeys(rows, rowKey) <==> exists x :: x in s && key(x) == p {
      SameKeys(s, key, summarize, rowKey, gs, unsorted, rows, p);
    }
    assert NoDup(MapKeys(unsorted, rowKey)) by {
      GroupKeys(summarize, rowKey, gs, unsorted);
    }
    PermutationKeepsKeysDistinct(unsorted, rows, rowKey);
    var keys := MapKeys(rows, rowKey);
    forall x | x in s ensures key(x) in keys {
      assert exists y :: y in s && key(y) == key(x);
    }
    TallyCoversAll(s, key, keys);
  }

  /** The rows built from the groups carry the group keys, in group order. */
  lemma GroupKeys<T, S>(summarize: (string, seq<T>) -> S, rowKey: S -> string,
                        gs: seq<Group<string, T>>, unsorted: seq<S>)
    requires forall p, m :: rowKey(summarize(p, m)) == p
    requires |unsorted| == |gs|
    requires forall i :: 0 <= i < |gs| ==> unsorted[i] == summarize(gs[i].key, gs[i].members)
    ensures MapKeys(unsorted, rowKey) == Keys(gs)
  {
    forall i | 0 <= i < |gs| ensures MapKeys(unsorted, rowKey)[i] == Keys(gs)[i] {
      assert rowKey(unsorted[i]) == gs[i].key;
      assert MapKeys(unsorted, rowKey)[i] == rowKey(unsorted[i]);
      assert Keys(gs)[i] == gs[i].key;
    }
  }

  /** The row built from a group is the row of its key over all of `s`, and
      the group is never empty. */
  lemma RowOfGroup<T(!new), S>(s: seq<T>, key: T -> string,
                               summarize: (string, seq<T>) -> S, rowKey: S -> string,
                               gs: seq<Group<string, T>>, i: int)
    requires forall p, m :: rowKey(summarize(p, m)) == p
    requires gs == GroupBy(s, key) && 0 <= i < |gs|
    ensures var e := summarize(gs[i].key, gs[i].members);
      e == summarize(rowKey(e), WithKey(s, key, rowKey(e))) && |WithKey(s, key, rowKey(e))| > 0
  {
    assert gs[i] in gs;
    assert Keys(gs)[i] in Keys(gs);
    MapKeysIff(s, key);
    var x :| x in s && key(x) == gs[i].key;
    assert x in gs[i].members;
  }

  /** A key heads a row exactly when some element carries it. */
  lemma SameKeys<T(!new), S>(s: seq<T>, key: T -> string,
                             summarize: (string, seq<T>) -> S, rowKey: S -> string,
                             gs: seq<Group<string, T>>, unsorted: seq<S>, rows: seq<S>, p: string)
    requires forall p, m :: rowKey(summarize(p, m)) == p
    requires gs == GroupBy(s, key)
    requires |unsorted| == |gs|
    requires forall i :: 0 <= i < |gs| ==> unsorted[i] == summarize(gs[i].key, gs[i].members)
    requires forall e :: e in rows <==> e in unsorted
    ensures p in MapKeys(rows, rowKey) <==> exists x :: x in s && key(x) == p
  {
    GroupKeys(summarize, rowKey, gs, unsorted);
    MapKeysIff(s, key);
    MapKeysIff(unsorted, rowKey);
    MapKeysIff(rows, rowKey);
    assert p in Keys(gs) <==> exists x :: x in s && key(x) == p;
  }
}

=== FILE: text.dfy ===
/** String primitives with JavaScript meaning: `toLowerCase`, `includes`,
    `trim`, `padStart`, `localeCompare`, `Number(...)` and `String(n)`.

    Lower-casing covers the ASCII letters only, and `localeCompare` is
    modelled as code-point lexicographic order, a total order. */
module Text {
  import opened Js

  // ---------------------------------------------------------------- case

  function LowerChar(c: char): char {
    if 'A' <= c <= 'Z' then (c as int + 32) as char else c
  }

  /** `s.toLowerCase()` on the ASCII letters. */
  function Lower(s: string): (r: string)
    ensures |r| == |s|
    ensures forall i :: 0 <= i < |s| ==> r[i] == LowerChar(s[i])
  {
    seq(|s|, i requires 0 <= i < |s| => LowerChar(s[i]))
  }

  /** Lower-casing twice is lower-casing once. */
  lemma LowerIdempotent(s: string)
    ensures Lower(Lower(s)) == Lower(s)
  {
    assert forall i :: 0 <= i < |s| ==> LowerChar(LowerChar(s[i])) == LowerChar(s[i]);
  }

  // ------------------------------------------------------------ includes

  /** `hay.includes(needle)`: `needle` occurs as a contiguous block. */
  predicate Contains(hay: string, needle: string) {
    exists i :: 0 <= i <= |hay| && OccursAt(hay, needle, i)
  }

  predicate OccursAt(hay: string, needle: string, i: int) {
    0 <= i <= |hay| - |needle| && hay[i..i + |needle|] == needle
  }

  /** The empty needle occurs in every string. */
  lemma ContainsEmpty(hay: string)
    ensures Contains(hay, "")
  {
    assert OccursAt(hay, "", 0);
  }

  /** A string contains itself. */
  lemma ContainsSelf(hay: string)
    ensures Contains(hay, hay)
  {
    assert OccursAt(hay, hay, 0);
  }

  // --------------------------------------------------------- whitespace

  /** JavaScript's `WhiteSpace` and `LineTerminator` characters (the class
      behind `\s` and `trim`), restricted to the ones below U+2000 plus the
      two line/paragraph separators and the byte-order mark. */
  predicate IsSpace(c: char) {
    c == ' ' || c == '\t' || c == '\n' || c == '\r' || c == '\U{000B}' || c == '\U{000C}'
    || c == '\U{00A0}' || c == '\U{2028}' || c == '\U{2029}' || c == '\U{FEFF}'
  }

  predicate AllSpace(s: string) {
    forall i :: 0 <= i < |s| ==> IsSpace(s[i])
  }

  /** The first index at or after `i` that holds a non-space, or `|s|`. */
  function SkipSpace(s: string, i: nat): (k: nat)
    requires i <= |s|
    ensures i <= k <= |s|
    ensures forall m :: i <= m < k ==> IsSpace(s[m])
    ensures k < |s| ==> !IsSpace(s[k])
    decreases |s| - i
  {
    if i < |s| && IsSpace(s[i]) then SkipSpace(s, i + 1) else i
  }

  /** The end of the last non-space before `j`, never below `lo`. */
  function SkipSpaceBack(s: string, lo: nat, j: nat): (k: nat)
    requires lo <= j <= |s|
    ensures lo <= k <= j
    ensures forall m :: k <= m < j ==> IsSpace(s[m])
    ensures k > lo ==> !IsSpace(s[k - 1])
    decreases j
  {
    if j > lo && IsSpace(s[j - 1]) then SkipSpaceBack(s, lo, j - 1) else j
  }

  /** `s.trim()`: the longest infix of `s` that starts and ends with a
      non-space character, or `""` when `s` is all spaces. */
  function Trim(s: string): (r: string)
    ensures r == "" <==> AllSpace(s)
    ensures r == "" || (!IsSpace(r[0]) && !IsSpace(r[|r| - 1]))
    ensures Contains(s, r)
  {
    var lo := SkipSpace(s, 0);
    var hi := SkipSpaceBack(s, lo, |s|);
    assert OccursAt(s, s[lo..hi], lo);
    assert lo < |s| ==> hi > lo;
    s[lo..hi]
  }

  // ------------------------------------------------------------ ordering

  /** `a.localeCompare(b) <= 0`, modelled as lexicographic order on code
      points. */
  predicate LexLe(a: string, b: string)
    decreases |a|
  {
    |a| == 0 || (|b| > 0 && (a[0] < b[0] || (a[0] == b[0] && LexLe(a[1..], b[1..]))))
  }

  lemma {:induction false} LexRefl(a: string)
    ensures LexLe(a, a)
    decreases |a|
  {
    if |a| > 0 {
      LexRefl(a[1..]);
    }
  }

  lemma {:induction false} LexTotal(a: string, b: string)
    ensures LexLe(a, b) || LexLe(b, a)
    decreases |a|
  {
    if |a| > 0 && |b| > 0 && a[0] == b[0] {
      LexTotal(a[1..], b[1..]);
    }
  }

  lemma {:induction false} LexTrans(a: string, b: string, c: string)
    requires LexLe(a, b) && LexLe(b, c)
    ensures LexLe(a, c)
    decreases |a|
  {
    if |a| > 0 && a[0] == b[0] && b[0] == c[0] {
      LexTrans(a[1..], b[1..], c[1..]);
    }
  }

  lemma {:induction false} LexAntisym(a: string, b: string)
    requires LexLe(a, b) && LexLe(b, a)
    ensures a == b
    decreases |a|
  {
    if |a| > 0 {
      LexAntisym(a[1..], b[1..]);
      assert a == [a[0]] + a[1..] && b == [b[0]] + b[1..];
    }
  }

  // -------------------------------------------------------------- digits

  predicate IsDigit(c: char) {
    '0' <= c <= '9'
  }

  predicate AllDigits(s: string) {
    forall i :: 0 <= i < |s| ==> IsDigit(s[i])
  }

  function DigitOf(c: char): nat {
    if IsDigit(c) then c as int - '0' as int else 0
  }

  function DigitChar(d: nat): (c: char)
    requires d < 10
    ensures IsDigit(c) && DigitOf(c) == d
  {
    ('0' as int + d) as char
  }

  function Pow10(n: nat): (p: nat)
    ensures p >= 1
  {
    if n == 0 then 1 else 10 * Pow10(n - 1)
  }

  /** The decimal value of a digit string, read left to right. */
  function Value(s: string): nat {
    if |s| == 0 then 0 else 10 * Value(s[..|s| - 1]) + DigitOf(s[|s| - 1])
  }

  /** A string of `n` digits is worth less than `10^n`. */
  lemma {:induction false} ValueBound(s: string)
    ensures Value(s) < Pow10(|s|)
    decreases |s|
  {
    if |s| > 0 {
      ValueBound(s[..|s| - 1]);
    }
  }

  /** Reading from the front: the leading digit weighs `10^(|s|-1)`. */
  lemma {:induction false} ValueFront(s: string)
    requires |s| > 0
    ensures Value(s) == DigitOf(s[0]) * Pow10(|s| - 1) + Value(s[1..])
    decreases |s|
  {
    if |s| > 1 {
      var init, tail := s[..|s| - 1], s[1..];
      ValueFront(init);
      assert init[1..] == tail[..|tail| - 1];
      assert tail[|tail| - 1] == s[|s| - 1];
      ShiftPlace(DigitOf(s[0]), Pow10(|s| - 2), Value(init[1..]), DigitOf(s[|s| - 1]));
    }
  }

  /** Appending a digit multiplies every place by ten. */
  lemma ShiftPlace(d: nat, p: nat, v: nat, last: nat)
    ensures 10 * (d * p + v) + last == d * (10 * p) + (10 * v + last)
  {
  }

  /** Leading zeros do not change the value. */
  lemma {:induction false} ValueLeadingZeros(z: string, s: string)
    requires forall i :: 0 <= i < |z| ==> z[i] == '0'
    ensures Value(z + s) == Value(s)
    decreases |z|
  {
    if |z| > 0 {
      ValueFront(z + s);
      assert (z + s)[0] == '0';
      assert (z + s)[1..] == z[1..] + s;
      ValueLeadingZeros(z[1..], s);
    } else {
      assert z + s == s;
    }
  }

  /** Among strings of equal length, a smaller leading digit means a smaller
      value, whatever follows. */
  lemma LeadingDigitDominates(a: string, b: string)
    requires |a| == |b| > 0 && DigitOf(a[0]) < DigitOf(b[0])
    ensures Value(a) < Value(b)
  {
    ValueFront(a);
    ValueFront(b);
    ValueBound(a[1..]);
    PlaceValue(DigitOf(a[0]), DigitOf(b[0]), Pow10(|a| - 1), Value(a[1..]), Value(b[1..]));
  }

  /** Positional notation: a larger digit in a place outweighs anything in
      the lower places. */
  lemma PlaceValue(da: nat, db: nat, p: nat, va: nat, vb: nat)
    requires da < db && va < p
    ensures da * p + va < db * p + vb
  {
    assert (da + 1) * p <= db * p;
  }

  /** Equal leading characters leave the comparison to the tails. */
  lemma SameLeadingDigit(a: string, b: string)
    requires |a| == |b| > 0 && a[0] == b[0]
    ensures Value(a) - Value(b) == Value(a[1..]) - Value(b[1..])
  {
    ValueFront(a);
    ValueFront(b);
  }

  /** On digit strings of equal length, lexicographic order is numeric order. */
  lemma {:induction false} LexIsNumeric(a: string, b: string)
    requires |a| == |b| && AllDigits(a) && AllDigits(b)
    ensures LexLe(a, b) <==> Value(a) <= Value(b)
    decreases |a|
  {
    if |a| > 0 {
      assert IsDigit(a[0]) && IsDigit(b[0]);
      if a[0] == b[0] {
        assert AllDigits(a[1..]) && AllDigits(b[1..]);
        LexIsNumeric(a[1..], b[1..]);
        SameLeadingDigit(a, b);
      } else if a[0] < b[0] {
        LeadingDigitDominates(a, b);
      } else {
        LeadingDigitDominates(b, a);
      }
    }
  }

  /** `String(n)` for a natural number: the shortest decimal numeral. */
  function NatToString(n: nat): (r: string)
    ensures |r| >= 1 && AllDigits(r)
    ensures Value(r) == n
    ensures r[0] != '0' || n == 0
  {
    if n < 10 then [DigitChar(n)]
    else
      var r := NatToString(n / 10) + [DigitChar(n % 10)];
      assert r[..|r| - 1] == NatToString(n / 10);
      r
  }

  /** `String(i)` for an integer. */
  function IntToString(i: int): (r: string)
    ensures |r| >= 1
  {
    if i < 0 then "-" + NatToString(-i) else NatToString(i)
  }

  /** `Number(s)` for the strings the screens hold: surrounding white space
      is ignored, a blank string is 0, an optional sign followed by decimal
      digits is that integer, and everything else is `NaN` (`None`). */
  function ToNumber(s: string): (n: Option<int>)
    ensures AllSpace(s) ==> n == Some(0)
  {
    var t := Trim(s);
    if t == "" then Some(0)
    else if t[0] == '-' || t[0] == '+' then
      if |t| > 1 && AllDigits(t[1..]) then
        Some(if t[0] == '-' then 0 - Value(t[1..]) else Value(t[1..]))
      else None
    else if AllDigits(t) then Some(Value(t))
    else None
  }

  /** `Number(String(i)) === i`. */
  lemma NumberOfString(i: int)
    ensures ToNumber(IntToString(i)) == Some(i)
  {
    var s := IntToString(i);
    TrimNoSpace(s);
    if i < 0 {
      assert s[1..] == NatToString(-i);
    }
  }

  /** Trimming a string without white space at either end is the identity. */
  lemma TrimNoSpace(s: string)
    requires s != "" && !IsSpace(s[0]) && !IsSpace(s[|s| - 1])
    ensures Trim(s) == s
  {
  }

  /** The numeric value used by a `a - b` comparator; `NaN` is ordered as 0. */
  function NumericKey(s: string): int {
    ToNumber(s).GetOr(0)
  }

  // ------------------------------------------------------------- padding

  function Repeat(c: char, n: nat): (r: string)
    ensures |r| == n && forall i :: 0 <= i < n ==> r[i] == c
  {
    if n == 0 then "" else Repeat(c, n - 1) + [c]
  }

  /** `s.padStart(n, c)`. */
  function PadStart(s: string, n: nat, c: char): (r: string)
    ensures |r| == if |s| >= n then |s| else n
    ensures r[|r| - |s|..] == s
    ensures forall i :: 0 <= i < |r| - |s| ==> r[i] == c
  {
    if |s| >= n then s else Repeat(c, n - |s|) + s
  }

  /** Zero-padding digit strings of at most `n` characters to width `n`
      makes code-point order agree with numeric order. */
  lemma PaddedOrderIsNumeric(a: string, b: string, n: nat)
    requires AllDigits(a) && AllDigits(b) && |a| <= n && |b| <= n
    ensures LexLe(PadStart(a, n, '0'), PadStart(b, n, '0')) <==> Value(a) <= Value(b)
  {
    PadKeepsValue(a, n);
    PadKeepsValue(b, n);
    LexIsNumeric(PadStart(a, n, '0'), PadStart(b, n, '0'));
  }

  /** Zero-padding a digit string to width `n` keeps its digits and value. */
  lemma PadKeepsValue(a: string, n: nat)
    requires AllDigits(a) && |a| <= n
    ensures |PadStart(a, n, '0')| == n && AllDigits(PadStart(a, n, '0'))
    ensures Value(PadStart(a, n, '0')) == Value(a)
  {
    var z := Repeat('0', n - |a|);
    if |a| < n {
      assert PadStart(a, n, '0') == z + a;
    } else {
      assert z == "";
      assert PadStart(a, n, '0') == z + a;
    }
    ValueLeadingZeros(z, a);
  }
}

=== FILE: users.dfy ===
/** The signed-in user, as the login screen stores it and the route guard
    and the dashboard read it. */
module Users {

  datatype User = User(email: string, name: string, role: string)

  /** The two roles the application routes. */
  const AdminRole := "admin"
  const OfficialRole := "barangayOfficial"
}

=== FILE: verification.dfy ===
/** The residency-verification screen: a search over the fetched residents,
    the table sorted by name, and the clearance or certificate generated for
    the chosen resident. */
module Verification {
  import opened Js
  import opened Text
  import opened Lists
  import opened Sorting
  import opened Residents

  // --------------------------------------------------------------- search

  /** The name and the address contain the term ignoring case; the purok
      number contains it exactly as typed. */
  predicate Matches(r: Resident, term: string) {
    Contains(Lower(r.name), Lower(term))
    || Contains(r.purokNumber, term)
    || Contains(Lower(r.address), Lower(term))
  }

  /** `residents.filter(...)`: the matching residents, in fetched order. */
  function Search(residents: seq<Resident>, term: string): (shown: seq<Resident>)
    ensures IsSubseq(shown, residents)
    ensures forall r :: r in shown <==> r in residents && Matches(r, term)
  {
    Filter(residents, r => Matches(r, term))
  }

  /** The empty term is contained in every name, so it hides nobody. */
  lemma EmptyTermShowsAll(residents: seq<Resident>)
    ensures Search(residents, "") == residents
  {
    assert Lower("") == "";
    forall r | r in residents ensures Matches(r, "") {
      ContainsEmpty(Lower(r.name));
    }
    FilterKeepsAll(residents, r => Matches(r, ""));
  }

  // -------------------------------------------------------------- screen

  /** The screen state: every fetched resident, the current search result,
      the search box, and the document about to be generated. */
  datatype Screen = Screen(
    residents: seq<Resident>, shown: seq<Resident>, term: string,
    selected: Option<Resident>, documentType: string, showModal: bool)

  /** After the fetch every resident is shown. */
  function Fetched(residents: seq<Resident>): (s: Screen)
    ensures s.shown == Search(s.residents, s.term)
  {
    EmptyTermShowsAll(residents);
    Screen(residents, residents, "", None, "", false)
  }

  /** `handleSearch`: the new term is applied to all the fetched residents,
      not to what the previous term left. */
  function HandleSearch(s: Screen, term: string): (s': Screen)
    ensures s'.shown == Search(s.residents, term) && s'.term == term
    ensures s'.residents == s.residents && s'.selected == s.selected
  {
    s.(term := term, shown := Search(s.residents, term))
  }

  /** Narrowing the term and then widening it again brings back everything
      the wider term matches. */
  lemma SearchRestartsFromAll(s: Screen, narrow: string, wide: string)
    ensures HandleSearch(HandleSearch(s, narrow), wide) == HandleSearch(s, wide)
  {
  }

  /** Whatever term was typed before, the table after a search lists
      exactly the fetched residents matching the new term. */
  lemma TableRowsAreMatches(s: Screen, term: string)
    ensures forall r :: r in ByName(HandleSearch(s, term).shown) <==> r in s.residents && Matches(r, term)
  {
    var shown := HandleSearch(s, term).shown;
    forall r ensures r in ByName(shown) <==> r in shown {
      assert r in ByName(shown) <==> r in multiset(ByName(shown));
    }
  }

  // ------------------------------------------------------------- document

  const Clearance := "Barangay Clearance"
  const Certificate := "Residency Certificate"

  /** The certification text: the fixed no-derogatory-record wording of a
      clearance, or the bona fide residency wording naming the resident and
      the years of stay. */
  datatype Statement = NoDerogatoryRecord | BonaFide(name: string, yearsOfStay: string)

  /** The blocks of the document, in page order. */
  datatype Part =
    | Header
    | Title(text: string)
    | Info(lines: seq<string>)
    | Certify(statement: Statement)
    | Signature
    | Issuance
    | Reference

  /** The resident block: name, address, purok, birthdate with age, civil
      status. */
  function InfoLines(r: Resident): (lines: seq<string>)
    ensures |lines| == 5 && lines[0] == "Name: " + r.name
  {
    ["Name: " + r.name, "Address: " + r.address, "Purok Number: " + r.purokNumber,
     "Birthdate & Age: " + r.birthdate + " (" + r.age + " years old)",
     "Civil Status: " + r.civilStatus]
  }

  /** The title, the resident block and the statement, for the two document
      types the screen knows; nothing for any other. */
  function Body(documentType: string, r: Resident): seq<Part> {
    if documentType == Clearance then
      [Title("Barangay Clearance"), Info(InfoLines(r)), Certify(NoDerogatoryRecord)]
    else if documentType == Certificate then
      [Title("Certificate of Residency"), Info(InfoLines(r)), Certify(BonaFide(r.name, r.yearsOfStay))]
    else []
  }

  predicate Known(documentType: string) {
    documentType == Clearance || documentType == Certificate
  }

  /** `generatePDF`'s layout: the header always opens the page and the
      signature, issuance and reference blocks always close it; the resident
      block and the statement appear only for a known document type. */
  function Parts(documentType: string, r: Resident): (ps: seq<Part>)
    ensures |ps| >= 4 && ps[0] == Header
    ensures ps[|ps| - 3..] == [Signature, Issuance, Reference]
    ensures (exists i :: 0 <= i < |ps| && ps[i].Info?) <==> Known(documentType)
    ensures (exists i :: 0 <= i < |ps| && ps[i].Certify?) <==> Known(documentType)
    ensures (exists i :: 0 <= i < |ps| && ps[i].Title?) <==> Known(documentType)
    ensures forall i :: 0 <= i < |ps| && ps[i].Info? ==> ps[i].lines == InfoLines(r)
  {
    var ps := [Header] + Body(documentType, r) + [Signature, Issuance, Reference];
    assert Known(documentType) ==> ps[2].Info? && ps[3].Certify? && ps[1].Title?;
    ps
  }

  /** The title each document type gets. */
  lemma Titles(r: Resident)
    ensures Parts(Clearance, r)[1] == Title("Barangay Clearance")
    ensures Parts(Certificate, r)[1] == Title("Certificate of Residency")
    ensures Parts(Certificate, r)[3] == Certify(BonaFide(r.name, r.yearsOfStay))
  {
  }

  /** The saved file's name: the document type, an underscore, the name,
      and the `.pdf` extension. */
  function FileName(documentType: string, r: Resident): (name: string)
    ensures |name| == |documentType| + 1 + |r.name| + 4
    ensures name[..|documentType|] == documentType && name[|documentType|] == '_'
    ensures name[|documentType| + 1..|name| - 4] == r.name
    ensures name[|name| - 4..] == ".pdf"
  {
    documentType + "_" + r.name + ".pdf"
  }

  datatype Pdf = Pdf(parts: seq<Part>, fileName: string)

  /** `handleGenerateDocument`: remember the resident and the type, open the
      confirmation. */
  function Choose(s: Screen, r: Resident, documentType: string): (s': Screen)
    ensures s'.selected == Some(r) && s'.documentType == documentType && s'.showModal
    ensures s'.shown == s.shown && s'.residents == s.residents
  {
    s.(selected := Some(r), documentType := documentType, showModal := true)
  }

  /** `generatePDF`: the document for the chosen resident and the closed
      modal; with nobody chosen the resident's name cannot be read and no
      file is saved. */
  function Generate(s: Screen): (out: Result<(Pdf, Screen)>)
    ensures out.Failure? <==> s.selected.None?
    ensures out.Ok? ==> out.value.1 == s.(showModal := false)
    ensures out.Ok? ==> out.value.0.parts == Parts(s.documentType, s.selected.value)
    ensures out.Ok? ==> out.value.0.fileName == FileName(s.documentType, s.selected.value)
  {
    match s.selected
    case None => Failure("TypeError: Cannot read properties of null (reading 'name')")
    case Some(r) => Ok((Pdf(Parts(s.documentType, r), FileName(s.documentType, r)), s.(showModal := false)))
  }

  /** Both buttons of a row lead to a document naming that resident. */
  lemma ButtonsCertifyTheResident(s: Screen, r: Resident, documentType: string)
    requires Known(documentType)
    ensures var out := Generate(Choose(s, r, documentType));
      out.Ok? && out.value.0.parts[2] == Info(InfoLines(r))
      && out.value.0.fileName[|documentType| + 1..|out.value.0.fileName| - 4] == r.name
  {
    var ps := Parts(documentType, r);
    assert ps[2] == Info(InfoLines(r));
  }
}
